=== FILE: README.md ===
# Code AI terminal client: a verified model

This project models the core of the Code AI terminal client (`codeai`). The client has two halves:

- **The interactive session.** It reads prompts and routes `/commands` through a registry of names and aliases. Anything else goes to an agent over AG-UI as one *turn*. The model folds the agent's event stream into a response text and a list of tool-call records. It then prints a tool summary and a token footer.
- **The command-line entry point.** Its own logic covers the spinner's frame set, the interactive agent-spec picker, the `version` query check, and the two single-query loops, one for AG-UI and one for ACP.

## How it is modelled

**State and effects**
- The session (`CodeAITux`) is the class `Session.Tux`. Its fields are the ones the source updates in place: statistics, running flag, model name, context window, last turn's tool calls, and the kept AG-UI client.
- The client is an abstract handle. Handles are never reused.
- The effects the code has on the outside world are logged in fields: every handle disconnected, every message sent, and everything printed.
- What gets printed is a structured `Console.Render` value, not styled text.

**Inputs**
- The outside world is a parameter. A `Turn` is the connect outcome, the event stream, a possible stream failure and the usage snapshot.
- A `World` is the reset outcome, the suggestions fetch and the picker's lines.
- A script of prompt answers drives the run loop.
- JSON decoding of tool arguments is a `Parser` function parameter.

**Commands**
- Commands are values of `Registry.Handler`.
- Both registrations are modelled as the same ordered-dict loop: the session's own `_register_commands` list, and the package's `build_commands`.
- `/clear`, `/exit`, `/help`, `/jupyter` and `/suggestions` are modelled on the session.
- `tux.py` has in-class copies of the first four (`_cmd_clear` at `tux.py:560-577`, `_cmd_exit` at 661-673, `_cmd_help` at 579-626, `_cmd_jupyter` at 539-551). Each behaves like its command module, and the model has one definition of each.

**How the imperative code is proved**
- Loops in the source are methods with loops. Each is proved equal to a function: `StreamEvents` is proved equal to `Events.Consume`, the registration loops to `RegisterAll`, the help and completion loops to their listings, and the pickers to `Pick`/`SpecLoop`.
- The properties are proved about those functions.

**Where the code differs from the project's own description**
- The description treats Ctrl-C at the prompt as ending the session. In the code (`tux.py:486-510`), `show_prompt` turns Ctrl-C into an empty answer, which the loop skips. Only end of input becomes `/exit`.
- The session's own registration list (`tux.py:231-365`) has no `/suggestions`, unlike `build_commands`.
- `handle_command` drops whatever a handler returns.

The model follows the code in all three.

## Model

| member | source | states |
|---|---|---|
| Text.Lower | codeai/tux.py:968 | `str.lower()` (ASCII): same length, each character lower-cased |
| Text.LeadingSpaces | codeai/tux.py:506 | length of the leading whitespace run: all whitespace, and followed by a non-space or the end |
| Text.TrailingSpaces | codeai/tux.py:506 | start of the trailing whitespace run: all whitespace after it, a non-space just before it |
| Text.Strip | codeai/tux.py:506 | `strip()` is never longer than its input, and a non-empty result neither starts nor ends with whitespace |
| Text.StripIsSlice | codeai/tux.py:506 | `strip()` leaves a contiguous slice of the input, with only whitespace after it |
| Text.StripTrims | codeai/tux.py:506 | a stripped answer neither starts nor ends with whitespace, and is empty exactly when the input is all whitespace |
| Text.RStripChar | codeai/tux.py:194 | `rstrip("/")` returns a prefix that does not end in the character, and only that character was removed |
| Text.WordLength | codeai/tux.py:967 | the first word's length: non-space characters up to whitespace or the end |
| Text.FirstWord | codeai/tux.py:967-968 | `split(maxsplit=1)[0]` is None exactly for all-whitespace input, otherwise a non-empty word without whitespace |
| Text.FirstWordOfWord | codeai/tux.py:967-968 | a word followed by nothing or by whitespace is the first word |
| Text.LowerIdempotent | codeai/tux.py:968 | lower-casing twice equals lower-casing once |
| Text.SplitWords | codeai/tux.py:469 | `split()` yields only non-empty words without whitespace, and yields none exactly when the input is all whitespace |
| Text.SplitWordsCons | codeai/tux.py:469 | a non-empty word without whitespace, followed by whitespace or nothing, is the first word of the split, and the rest is split on its own |
| Text.SplitWordsSkipsSpaces | codeai/tux.py:469 | leading whitespace does not change the split |
| Text.LeadingSpacesAfterSpaces | codeai/tux.py:469 | whitespace put in front lengthens the leading whitespace run by its own length |
| Text.Join | codeai/commands/help.py:48 | joining a single part gives that part |
| Text.IndexOf | codeai/commands/jupyter.py:25-27 | the first occurrence of a character, or the length when it is absent |
| Text.SplitOn | codeai/commands/jupyter.py:26-27 | `split("?")` is never empty, no part holds the separator, and there are two or more parts exactly when the separator occurs |
| Text.SplitOnJoin | codeai/commands/jupyter.py:26-27 | joining the parts with the separator gives the string back |
| Text.SplitOnFirst | codeai/commands/jupyter.py:26-27 | where the separator occurs, the split cuts at its first occurrence |
| Text.SplitOnAbsent | codeai/commands/jupyter.py:26-27 | a string without the separator splits into itself alone |
| Text.SplitOnAfter | codeai/commands/jupyter.py:26-27 | a separator-free head, the separator and a tail split into the head, then the split of the tail |
| Text.ReplaceChar | codeai/tux.py:1060 | `replace("\n", " ")`: same length, each matching character replaced, the others kept |
| Text.SliceTo | codeai/tux.py:148 | Python's `s[:k]`, with a negative `k` counting from the end |
| Text.Repeat | codeai/commands/help.py:60 | `" " * n` has length `n` and is all that character |
| Text.JoinCons | codeai/commands/help.py:48 | joining `[x] + parts` is `x`, the separator, then the join of `parts` |
| Numerals.ParseInt | codeai/commands/suggestions.py:73 | `int(choice)`: None where Python raises ValueError. All digits gives their value, "-digits" gives the negative, and a leading non-digit other than a sign gives None |
| Numerals.NatToString | codeai/tux.py:1126 | `str(n)` is non-empty decimal digits with no leading zero |
| Numerals.DigitsValueOfNatToString | codeai/tux.py:1126 | the digits of `str(n)` have value `n` |
| Numerals.ParseIntNatToString | codeai/commands/suggestions.py:73 | `int(str(n)) == n`: the numbers the pickers print read back as the same numbers |
| Sorting.LessIrreflexive | codeai/tux.py:103 | no string sorts before itself |
| Sorting.LessTransitive | codeai/tux.py:103 | string order is transitive |
| Sorting.LessTotal | codeai/tux.py:103 | any two strings are equal or ordered one way or the other |
| Sorting.LessAsymmetric | codeai/tux.py:103 | string order is asymmetric |
| Sorting.Insert | codeai/tux.py:103 | insertion keeps the list sorted and adds exactly one copy of the element |
| Sorting.Sort | codeai/tux.py:103 | `sorted()` returns an ascending permutation of its input |
| Sorting.SortedDistinctIsStrict | codeai/tux.py:103 | a sorted list without repeats is strictly ascending |
| Sorting.SortKeepsDistinct | codeai/tux.py:103 | sorting the distinct keys of a dict gives a strictly ascending list |
| OrderedDict.Dict.Put | codeai/tux.py:363-365 | `d[k] = v`: the map is updated; an existing key keeps its position and a new key goes last |
| OrderedDict.Dict.Values | codeai/tux.py:466 | `d.values()` lists the values in key order |
| OrderedDict.Empty | codeai/tux.py:207 | `{}` has no keys |
| Registry.CoreModules | codeai/commands/__init__.py:68-84 | the fifteen modules always registered |
| Registry.PackageModules | codeai/commands/__init__.py:68-94 | the core modules come first, then the easter eggs when enabled, then `/jupyter` exactly when the URL is non-empty. `/about` is present exactly when eggs are on |
| Registry.CommandOf | codeai/commands/__init__.py:102-108 | a module's record takes each declared attribute, and the default (no aliases, "", no shortcut) for a missing one |
| Registry.CommandsOf | codeai/commands/__init__.py:98-108 | one record per module, in module order |
| Registry.SessionModules | codeai/tux.py:231-360 | the session's list: fourteen core commands, eggs and `/jupyter` when enabled. `/exit` is fifth, `/browser` last, and `/suggestions` is never included |
| Registry.SessionCommands | codeai/tux.py:231-360 | the session's command records: their count, `/browser` last, and no `/suggestions` handler |
| Registry.SessionModulesAfterExit | codeai/tux.py:231-360 | every module after `/exit` in the session's list is one of a fixed set |
| Registry.LetteredMember | codeai/tux.py:231-360 | every key in a list of letter-initial keys starts with a lower-case letter |
| Registry.SessionModulesBesideHelp | codeai/tux.py:231-360 | `/help` is third in the session's list, and every other module has only keys that start with a lower-case letter |
| Registry.SessionKeysFollowQuestion | codeai/tux.py:231-360 | every key of the session is "?" or starts with a lower-case letter, `/help` registers "?", and no later command registers it |
| Registry.AfterExitLacksExitKey | codeai/tux.py:231-360 | none of the commands that can follow `/exit` registers the key "exit" |
| Registry.ExitKeyOnlyOnExit | codeai/tux.py:259-263 | the fifth record is `/exit` with key "exit", and no later record registers "exit" |
| Registry.PutAll | codeai/commands/__init__.py:109-111 | assigning a command to a run of keys keeps the dict well formed |
| Registry.RegisterOne | codeai/commands/__init__.py:109-111 | registering one command (name, then aliases) keeps the dict well formed |
| Registry.RegisterAll | codeai/tux.py:362-365 | the map after registering the commands in order is a well-formed ordered dict |
| Registry.SessionRegistry | codeai/tux.py:207-208 | the session's command map is a well-formed ordered dict |
| Registry.PutAllEntries | codeai/commands/__init__.py:109-111 | after assigning, each listed key maps to the command and every other key is as before |
| Registry.RegisterAllDomain | codeai/commands/__init__.py:109-111 | a key is registered exactly when some command has it as its name or an alias |
| Registry.RegisterAllLastWins | codeai/tux.py:362-365 | when commands share a key, the one registered last owns it |
| Registry.AliasTransparent | codeai/commands/__init__.py:109-111 | with no shared keys, every name and alias maps to its own command |
| Registry.AddCommand | codeai/commands/__init__.py:109-111 | the loop `commands[cmd.name] = cmd; for alias in cmd.aliases: commands[alias] = cmd` computes `RegisterOne` |
| Registry.RegisterCommands | codeai/tux.py:362-365 | the session's registration loop computes `RegisterAll` of its list |
| Registry.BuildCommands | codeai/commands/__init__.py:34-113 | `build_commands` computes `RegisterAll` of the records of its module list |
| ToolCalls.Ellipsize | codeai/tux.py:155 | a string within the limit is kept; a longer one is cut to the limit, and "..." is added |
| ToolCalls.FormatValue | codeai/tux.py:146-148 | an argument value has no newline. A short value only has newlines replaced, and the result never exceeds the maximum length |
| ToolCalls.ArgPairs | codeai/tux.py:143-149 | "k=v" for the first three members at most, in order |
| ToolCalls.MoreSuffix | codeai/tux.py:151-152 | " (+k more)" exactly when there are more than three |
| ToolCalls.FormatArgs | codeai/tux.py:135-156 | `format_args`: "" for empty arguments. An object gives its pairs and suffix; anything else gives the raw text cut at 60 |
| ToolCalls.ResultPreview | codeai/tux.py:1059-1060 | the result preview has no newline and at most 83 characters, and a short result is shown whole |
| ToolCalls.CountComplete | codeai/tux.py:1121 | the completed count is at most the total. It equals the total exactly when all completed, and is 0 exactly when none did |
| ToolCalls.ToolNames | codeai/tux.py:1123 | the tool names in call order |
| ToolCalls.ToolsList | codeai/tux.py:1123-1126 | up to three names joined by ", ", then " (+k more)" for the rest |
| ToolCalls.SummaryLine | codeai/tux.py:1116-1133 | the summary line is "  ⚙ ", the completed count, "/", the number of calls, " tools executed: ", the tool list and "  [/tools-last for details]"; so it opens with the marker, closes with the hint, and the tool list sits just before the hint |
| ToolCalls.SummaryCountsAgree | codeai/tux.py:1120-1129 | the two counts printed in the summary read the same exactly when every call of the turn completed |
| Events.Or | codeai/tux.py:1014 | `x or d`: the value when present and non-empty, otherwise the default |
| Events.FindCall | codeai/tux.py:1054-1055 | the first record with the id, or the count when no record has it |
| Events.FirstTerminal | codeai/tux.py:1065-1072 | the position of the first run-finished or run-error event |
| Events.ApplyKeepsInFlightLast | codeai/tux.py:1018-1063 | after any event, the call in flight is still the last record |
| Events.Apply | codeai/tux.py:1013-1072 | One event only appends to the output. Only a start adds a record, and exactly one. Only a text delta extends the text, by its delta. Run-finished ends the turn as finished and run-error as failed; no other event changes the phase |
| Events.Consume | codeai/tux.py:1012-1072 | Consuming a stream only appends to the output, the text and the records. A turn that has ended is left untouched, and a turn still streaming afterwards was streaming before |
| Events.StartAppendsRecord | codeai/tux.py:1018-1033 | a start event appends one in-progress record (id default "", name default "tool"), makes it the call in flight and prints its ordinal |
| Events.ResultCompletesFirstMatch | codeai/tux.py:1049-1063 | a result completes only the first record with its id, with the result text, and nothing is in flight afterwards |
| Events.UnmatchedResultChangesNoRecord | codeai/tux.py:1049-1063 | a result for an unknown id changes no record and only clears the call in flight |
| Events.RunErrorMarksInFlight | codeai/tux.py:1068-1072 | a run-error marks only the call in flight as failed and ends the turn |
| Events.EndedIgnoresEvents | codeai/tux.py:1065-1072 | after the turn ends, later events have no effect |
| Events.NonTerminalKeepsStreaming | codeai/tux.py:1012-1072 | only run-finished and run-error end a turn |
| Events.StopsAtFirstTerminal | codeai/tux.py:1065-1072 | consumption stops at the first terminal event. Its kind decides the outcome, and without one the turn is still streaming |
| Events.ConsumeText | codeai/tux.py:1013-1016 | the response text is the in-order concatenation of the text deltas before the first terminal event |
| Events.ApplyAppendsText | codeai/tux.py:1013-1016 | only a text event adds to the response, and it adds its delta |
| Events.ConsumeCountsStarts | codeai/tux.py:1018-1030 | the turn has one record per start event before the end, and no more |
| Events.ConsumeKeepsInFlightLast | codeai/tux.py:1012-1072 | across the whole stream, the call in flight is the last record |
| Events.ArgsAccumulateInOrder | codeai/tux.py:1035-1039 | argument deltas go to the call in flight, in arrival order, whatever id they carry; with none in flight they are dropped |
| Session.SessionStats.TotalTokens | codeai/tux.py:168-170 | the total is at least each of its parts; `FinishTurn` shows it in the footer and `/clear` brings it to 0 |
| Session.SnapshotInputTokens | codeai/tux.py:1081-1092 | 0 unless the snapshot answered 200 |
| Session.SnapshotOutputTokens | codeai/tux.py:1081-1092 | 0 unless the snapshot answered 200 |
| Session.NextModelName | codeai/tux.py:1089 | the model name is kept, or becomes the reported non-empty name from a 200 answer |
| Session.NextContextWindow | codeai/tux.py:1090 | the context window becomes the reported one from a 200 answer that has one, and is kept otherwise |
| Session.PromptText | codeai/tux.py:501-510 | a typed line is stripped, end of input reads as "/exit", and Ctrl-C reads as "" |
| Session.Tux.constructor | codeai/tux.py:193-208 | a new session is not running, has fresh stats, model "unknown", window 128000 and no client, and holds the registered command map |
| Session.Tux.BuildSessionCommands | codeai/tux.py:223-365 | `_register_commands` builds the session's command map |
| Session.Tux.DropClient | codeai/commands/exit.py:27-30 | the live client, if any, is disconnected and forgotten; nothing else changes |
| Session.Tux.SendMessage | codeai/tux.py:982-1114 | One turn. The message count goes up. A new client is created when there is none, and a refused connect prints the error and sends nothing. Otherwise the message is sent on the client, and records and text are those of `Consume` from a fresh turn. A stream failure prints the error and skips the footer. Otherwise the summary and footer are printed, and the token totals are overwritten from the snapshot. The session invariant holds throughout |
| Session.Tux.Deliver | codeai/tux.py:1012-1108 | the message goes out on the live client and the stream is consumed; the footer, tokens and model update apply only when the stream did not fail |
| Session.Tux.FindFirst | codeai/tux.py:1054-1055 | the `for tc in self.tool_calls` search finds the first record with the id |
| Session.Tux.ApplyEvent | codeai/tux.py:1013-1072 | one event changes the records, text and output exactly as `Apply` does, and each start adds one to the tool-call counter |
| Session.Tux.StreamEvents | codeai/tux.py:1012-1072 | the `async for` over the stream leaves the records, text, output and phase that `Consume` gives, and adds the record count to the counter |
| Session.Tux.FinishTurn | codeai/tux.py:1074-1109 | The summary is printed only if there were tool calls. The totals are overwritten, 0 when the snapshot failed. The footer shows the new `TotalTokens()` and its two parts |
| Completer.MenuDescription | codeai/tux.py:113-115 | a description over 70 characters is cut to 67, and "..." is added |
| Completer.GetCompletions | codeai/tux.py:89-122 | nothing without a leading "/". Otherwise each primary name starting with the lower-cased rest appears exactly once, in strictly ascending order, with "/name", the input's length to replace and the cut description |
| Completer.MenuEntries | codeai/tux.py:101-122 | the loop over sorted keys with its `shown` set yields strictly ascending primary names: exactly the offered ones, each with its entry |
| Shortcuts.Bind | codeai/tux.py:466-470 | one step of the shortcut walk keeps the table well formed |
| Shortcuts.BindAll | codeai/tux.py:465-470 | the table after the walk is well formed |
| Shortcuts.ShortcutMap | codeai/tux.py:456-470 | the loop over `commands.values()` computes `BindAll` |
| Shortcuts.PutFreshNameKeepsDistinct | codeai/tux.py:467-470 | binding a name that is not bound yet keeps every name bound once |
| Shortcuts.BoundNamesDistinct | codeai/tux.py:467 | no command name is bound to two key sequences |
| Shortcuts.BindingsComeFromCommands | codeai/tux.py:466-470 | every binding names a command whose shortcut, split into words, is that key sequence |
| Shortcuts.LastBinderWins | codeai/tux.py:470 | when two commands bind the same key sequence, the last one that binds it owns it |
| ClearCommand.Execute | codeai/commands/clear.py:22-42 | A failed reset only prints the error. A successful one disconnects and forgets the client, resets the stats so that `TotalTokens()` is 0, and prints the notice. Never a follow-up prompt |
| ExitCommand.Execute | codeai/commands/exit.py:20-36 | The loop stops. The client, if any, is disconnected and forgotten, and the farewell is printed. The stats are kept |
| ExitCommand.ExitTwice | codeai/commands/exit.py:25-30 | exiting twice disconnects what exiting once does and no more |
| HelpCommand.FormatShortcut | codeai/commands/help.py:20-28 | "escape x" shows as "Esc,X" and "c-x" as "Ctrl+X"; any other shortcut is shown as is, and none as "" |
| HelpCommand.Display | codeai/commands/help.py:46-55 | "/name", with " (aliases)" exactly when there are aliases |
| HelpCommand.PaddingLength | codeai/commands/help.py:59 | the padding reaches column 22 and is never below one |
| HelpCommand.HelpText | codeai/commands/help.py:55-66 | A line is two spaces, the display, then padding. The description starts at column 24 when the display is shorter than 22. It is followed by "   [shortcut]" exactly when there is a shortcut, and by nothing otherwise |
| HelpCommand.FirstOfEachName | codeai/commands/help.py:39-43 | the listed commands are drawn from the input, and are no more than it |
| HelpCommand.FirstOfEachNameListsEachOnce | codeai/commands/help.py:39-43 | each command name is listed exactly once, and every name is listed |
| HelpCommand.FirstOfEachNameKeepsFirst | codeai/commands/help.py:39-43 | the command listed for a name is the first one with that name in key order |
| HelpCommand.ByKey | codeai/commands/help.py:40 | `sorted(items())` gives one command per sorted key |
| HelpCommand.Listed | codeai/commands/help.py:39-43 | the listing has at most one command per key, and each listed command is registered in the map |
| HelpCommand.FirstIndex | codeai/commands/help.py:39-43 | the first position of a name among the commands in key order |
| HelpCommand.FirstOfEachNameOrder | codeai/commands/help.py:39-43 | each kept command is the first one with its name, and kept commands appear in the order of those first positions |
| HelpCommand.FirstNamedAt | codeai/commands/help.py:40-41 | the first sorted key registered to a command of a given name |
| HelpCommand.SmallestKey | codeai/commands/help.py:40-41 | the smallest key of a name, when there is one, is registered to a command of that name |
| HelpCommand.SmallestKeyIsLeast | codeai/commands/help.py:40-41 | every key registered to a command of that name is at least its smallest key |
| HelpCommand.FirstIndexIsFirstNamed | codeai/commands/help.py:40-41 | in key order, a name first appears at its first key |
| HelpCommand.ListedInKeyOrder | codeai/commands/help.py:39-43 | each listed command is the one at the smallest key of its name, and the listing is in strictly ascending order of those keys |
| HelpCommand.FirstOfEachNameHead | codeai/commands/help.py:39-43 | the first command is always kept |
| HelpCommand.ListedOpensWithLeastKey | codeai/commands/help.py:39-43 | a non-empty listing opens with the command at the least key |
| HelpCommand.LeastKeyHeadsListing | codeai/commands/help.py:39-43 | a key at most every registered key, not overwritten later, puts its command first in the listing |
| HelpCommand.HelpListedFirst | codeai/commands/help.py:39-43 | in every session "?" is the least key, so `/help` heads its own listing |
| HelpCommand.ShownStep | codeai/commands/help.py:41-43 | one step of the loop keeps the `shown` set equal to the names listed so far |
| HelpCommand.FirstOfEachNameStep | codeai/commands/help.py:41-43 | one more command is kept exactly when no kept command has its name |
| HelpCommand.SortedKeysAreKeys | codeai/commands/help.py:40 | the sorted keys are keys of the map |
| HelpCommand.ListedCommands | codeai/commands/help.py:39-43 | the loop with its `shown` set lists `Listed(commands)` |
| HelpCommand.Execute | codeai/commands/help.py:31-69 | the "Available Commands:" heading, then one help line per listed command in order; nothing else changes |
| JupyterCommand.ApiBase | codeai/commands/jupyter.py:26 | the part before the first "?", without trailing "/", followed by "/api"; it has no "?" |
| JupyterCommand.Query | codeai/commands/jupyter.py:27 | a query exists exactly when the URL has a "?", and it holds none |
| JupyterCommand.ApiUrl | codeai/commands/jupyter.py:28 | the base, with "?query" exactly when the query is non-empty |
| JupyterCommand.ApiUrlSplitsBack | codeai/commands/jupyter.py:25-28 | splitting the opened URL at "?" gives back the base and the query |
| JupyterCommand.Execute | codeai/commands/jupyter.py:21-33 | the API URL is opened when the session has a Jupyter URL, otherwise a notice is printed; nothing else changes |
| SuggestionsCommand.Read | codeai/commands/suggestions.py:64-67 | a read is the stripped line, or None for Ctrl-C and end of input |
| SuggestionsCommand.AnswerOf | codeai/commands/suggestions.py:69-89 | a pick is always one of the suggestions; an empty line, Ctrl-C or end of input cancels |
| SuggestionsCommand.Answers | codeai/commands/suggestions.py:62-93 | one answer per line |
| SuggestionsCommand.AnswersAt | codeai/commands/suggestions.py:62-93 | answer `i` is the answer to line `i` |
| SuggestionsCommand.Pick | codeai/commands/suggestions.py:62-93 | The prompt reads at most the lines it has, and none exactly when there are none. It always prints something, and a cancelled prompt ends with the cancel notice |
| SuggestionsCommand.PickFrom | codeai/commands/suggestions.py:62-93 | Picking from the input lines reads at most those lines, and none exactly when there are none. A cancelled pick ends with the cancel notice |
| SuggestionsCommand.PickChoosesSuggestion | codeai/commands/suggestions.py:73-79 | the picker only returns one of the suggestions |
| SuggestionsCommand.PickNumber | codeai/commands/suggestions.py:73-79 | a number k in range picks the k-th suggestion after one line |
| SuggestionsCommand.PickCancels | codeai/commands/suggestions.py:69-71 | a blank line, Ctrl-C or end of input cancels at once |
| SuggestionsCommand.PickRetries | codeai/commands/suggestions.py:80-89 | anything else prints the range hint and reads the next line |
| SuggestionsCommand.PickAtRetry | codeai/commands/suggestions.py:80-89 | at a retrying answer: the hint, then the picker from the next answer |
| SuggestionsCommand.PickAtStop | codeai/commands/suggestions.py:69-79 | at a cancelling or picking answer the picker stops there |
| SuggestionsCommand.Listing | codeai/commands/suggestions.py:56-57 | the suggestions numbered from 1, in order |
| SuggestionsCommand.AnswerLine | codeai/commands/suggestions.py:64-67 | reads line `i` and answers it |
| SuggestionsCommand.Prompt | codeai/commands/suggestions.py:62-93 | the `while True` loop returns the picker's choice, output and line count |
| SuggestionsCommand.Execute | codeai/commands/suggestions.py:22-93 | A failed fetch or an empty list returns None and reads nothing. Otherwise the "Suggestions (n)" heading with the count and the listing are printed, then the picker runs, and its choice is the next prompt. The session is otherwise unchanged |
| Dispatch.CommandName | codeai/tux.py:967-968 | the command name is "" exactly for blank input; otherwise one word with no whitespace, already lower-case |
| Dispatch.RouteOf | codeai/tux.py:964-980 | Input without "/" is not a command. A known name routes to its map entry. An unknown name routes to Unknown with that name |
| Dispatch.KeyRoutesToCommand | codeai/tux.py:967-972 | a one-word lower-case key routes to its command, whatever follows it after whitespace |
| Dispatch.BareSlashIsUnknown | codeai/tux.py:967-980 | a bare "/" is an unknown command with an empty name |
| Dispatch.ExitIsRegistered | codeai/tux.py:259-263 | in every session's map, "/exit" reaches the exit command |
| Dispatch.LastKeyRoutes | codeai/tux.py:362-365 | a one-word key reaches the last command that registers it |
| Dispatch.RunHandler | codeai/commands/__init__.py:116-120 | A handler runs its command on the session and returns its result. Only `/suggestions` returns one, and always a fetched suggestion. Exit stops the loop and Clear resets per its outcome. Unmodelled handlers change nothing modelled |
| Dispatch.HandleCommand | codeai/tux.py:959-980 | True exactly for input starting with "/". An unknown name only prints a notice. `/exit` stops the loop and drops the client. No other command stops the loop, and only `/clear` touches the stats |
| Dispatch.Round | codeai/tux.py:1224-1233 | An empty answer changes nothing. A command sends nothing. A message goes out stripped, or not at all if connecting failed. `/exit` stops the loop |
| Dispatch.InitialModelName | codeai/tux.py:1212-1215 | the reported name, or "claude-sonnet-4" when it is missing or empty; unchanged without a 200 answer |
| Dispatch.InitialContextWindow | codeai/tux.py:1212-1216 | the reported window, or 128000 when the field is missing; unchanged without a 200 answer |
| Dispatch.Begin | codeai/tux.py:1205-1218 | the session runs, with the model name and window the snapshot gives |
| Dispatch.Run | codeai/tux.py:1203-1239 | The loop ends once the script's answers run out (end of input reads as "/exit"). Messages sent earlier are kept, and every message it sends is a stripped, non-empty answer that is not a command |
| Dispatch.EndOfInputExits | codeai/tux.py:507-508 | end of input stops the session and drops its client without sending anything |
| Cli.Frames | codeai/cli.py:89-116 | a named style's frames, and the circle for any other name; four or more one-character frames |
| Cli.Spinner.constructor | codeai/cli.py:99-116 | a new spinner is idle and has its style's frames |
| Cli.VersionSingleWord | codeai/cli.py:482-483 | a one-word query is the version query exactly when that word, stripped and lower-cased, is "version" |
| Cli.VersionAfterEmptyWord | codeai/cli.py:482-483 | the words are joined with spaces before stripping, so `["", "version"]` is the version query |
| Cli.UpperVersionBeforeEmptyWord | codeai/cli.py:482-483 | case is ignored and a trailing empty word is stripped, so `["VERSION", ""]` is the version query |
| Cli.SplitVersionIsNotVersion | codeai/cli.py:482-483 | the joining space stays inside, so `["ver", "sion"]` is not the version query |
| Cli.AgUiFoldIsStreamedText | codeai/cli.py:643-658 | The reply is the text deltas up to the first terminal event, the same text a session turn collects. It is the error instead ("Unknown error" when missing) when that event is a run-error |
| Cli.AgUiFold | codeai/cli.py:643-658 | a reply extends the text read so far, and a raised error is never empty |
| Cli.RunSingleQueryAgUi | codeai/cli.py:643-658 | the AG-UI query loop computes that reply |
| Cli.AcpFoldIsDeltas | codeai/cli.py:603-621 | the ACP query raises the TypeError of the first "text_delta" whose content is not a string, met before the first "completed"; without one the reply is the "text_delta" contents (absent ones read as "") before the first "completed" |
| Cli.AcpFold | codeai/cli.py:603-621 | a reply extends the text read so far; it raises only when some "text_delta" has a non-string content |
| Cli.AcpDeltasAppend | codeai/cli.py:604-614 | events before any "completed" contribute their deltas in order, whatever follows |
| Cli.RunSingleQueryAcp | codeai/cli.py:603-621 | the ACP query loop computes that reply or re-raises that error |
| Cli.SpecAnswerOf | codeai/cli.py:368-388 | A chosen id is always one of the ids. Ctrl-C or end of input quits, and exactly those do. A blank line asks again silently |
| Cli.SpecAnswers | codeai/cli.py:367-388 | one answer per line |
| Cli.SpecAnswersAt | codeai/cli.py:367-388 | answer `i` is the answer to line `i` |
| Cli.SpecLoop | codeai/cli.py:367-388 | the picker reads at most the lines it has, and reads none exactly when there are none |
| Cli.SpecLoopChoosesAnswer | codeai/cli.py:373-384 | the loop only returns an id one of the answers chose |
| Cli.PickSpecChoosesSpec | codeai/cli.py:338-388 | the picker only returns the id of one of the specs |
| Cli.PickSpec | codeai/cli.py:346-388 | No specs exits with code 1 and reads nothing. Otherwise at most the given lines are read, none exactly when there are none, and an exit is code 0 |
| Cli.SpecLoopAtStop | codeai/cli.py:373-388 | at a quitting or choosing answer the loop stops there |
| Cli.SpecLoopAtRetry | codeai/cli.py:370-385 | at a retrying answer: its notes, then the loop from the next answer |
| Cli.SpecLoopFirst | codeai/cli.py:367-388 | the loop's first step on a non-empty run of lines |
| Cli.SpecAnswerNumber | codeai/cli.py:372-376 | a number k in range chooses the k-th id |
| Cli.PickSpecNumber | codeai/cli.py:352-376 | a first line with number k in range picks the k-th id in ascending order |
| Cli.PickSpecById | codeai/cli.py:379-384 | a first line that is not a number but is a spec id picks that id |
| Cli.PickSpecRetries | codeai/cli.py:370-385 | A blank line asks again silently. A number out of range asks again with the range. Anything else asks again with the invalid-input hint |
| Cli.PickSpecQuits | codeai/cli.py:386-388 | Ctrl-C, end of input or no input exits with code 0 |
| Cli.SpecAnswerLine | codeai/cli.py:369 | reads line `i` and answers it |
| Cli.SpecPrompt | codeai/cli.py:367-388 | the `while True` loop computes the picker's outcome |
| Cli.PickAgentSpec | codeai/cli.py:338-388 | No specs exits with code 1. Otherwise the loop runs over the sorted ids, and a chosen id is one of the specs |

## Left out

- HTTP requests (context reset, suggestions fetch, usage snapshot, initial snapshot) are not modelled as requests. Their outcomes are parameters (`Turn`, `World`, `Snapshot`, `resetOk`).
- The AG-UI and ACP clients, `webbrowser.open`, and prompt_toolkit and rich rendering are external. Printing is a log of structured `Render` values, and `ToolSummary` stands for the text `ToolCalls.SummaryLine` builds.
- JSON decoding of tool arguments is the `Parser` parameter.
- `str(v)` of a JSON value is given by the parser as text.
- The handlers of `/context`, `/status`, `/agents`, `/tools`, `/mcp-servers`, `/skills`, `/codemode-toggle`, `/context-export`, `/tools-last`, `/cls`, `/browser`, `/rain`, `/about` and `/gif` live outside the modelled core. `Dispatch.RunHandler` treats them as changing nothing modelled.
- The spinner's thread, `start`/`stop` and its animation are concurrency and display. Only frame selection and the initial state are modelled.
- The picker's listing of specs (tags, enabled marker, first description line) is display only. `list_agent_specs` is given as the list of ids.
- `main_callback`'s server start-up, waiting, signal handling and subprocess clean-up are process management. Only the "version" check is modelled.
- The remote chat loops (`_remote_chat_loop_*`), `connect` and `agents` are not part of this model.
- `Text.Lower` and `Text.Upper` map ASCII letters only. Python's full Unicode case mapping is not modelled.
- Ctrl-C while a turn is streaming, and the run loop's `except KeyboardInterrupt`/`EOFError` branches around the loop body, are not modelled. Input reading is the only interruption point in the model.
- The usage snapshot's "sumResponseInputTokens" and "sumResponseOutputTokens" are taken to be absent or non-negative integers, and its "contextWindow" absent or an integer (codeai/tux.py:1087-1090). A JSON null or a non-number token sum would make `input_tokens + output_tokens` raise a `TypeError` (codeai/tux.py:1103). The session would then print the error instead of the footer (codeai/tux.py:1112-1113). That path is not modelled.
- `Numerals.ParseInt` accepts ASCII digits only. Python's `int()` also accepts other Unicode decimal digits.
- `Dispatch.Run`: the script is finite, and past its end the input is closed (`Silent`), so the modelled loop always ends. An endless interactive session is not modelled.

=== FILE: clear.dfy ===
/**
 * `/clear`: asks the server to reset the agent's context; only when that
 * succeeds does the session drop its client (so the next message starts a
 * new conversation) and reset its statistics.
 */
module ClearCommand {
  import opened Wrappers
  import opened Console
  import opened Session

  /** `resetOk` is whether the reset request succeeded. Never asks for a follow-up prompt. */
  method Execute(tux: Tux, resetOk: bool) returns (next: Option<string>)
    requires tux.Valid()
    modifies tux
    ensures tux.Valid()
    ensures next == None
    ensures !resetOk ==>
      && tux.client == old(tux.client) && tux.disconnected == old(tux.disconnected)
      && tux.stats == old(tux.stats)
      && tux.output == old(tux.output) + [ClearFailed]
    ensures resetOk ==>
      && tux.client == None
      && tux.disconnected == old(tux.disconnected) + (if old(tux.client).Some? then [old(tux.client).value] else [])
      && tux.stats == FreshStats
      && tux.output == old(tux.output) + [Cleared]
    ensures tux.toolCalls == old(tux.toolCalls) && tux.running == old(tux.running)
    ensures tux.modelName == old(tux.modelName) && tux.contextWindow == old(tux.contextWindow)
    ensures tux.nextHandle == old(tux.nextHandle) && tux.sent == old(tux.sent)
    ensures resetOk ==> tux.stats.TotalTokens() == 0
  {
    if !resetOk {
      tux.output := tux.output + [ClearFailed];
      return None;
    }
    tux.DropClient();
    tux.stats := FreshStats;
    tux.output := tux.output + [Cleared];
    return None;
  }
}

=== FILE: cli.dfy ===
/**
 * The command-line entry point's own logic: the spinner's frame set, the
 * interactive agent-spec picker, the "version" query check and the two
 * single-query folds that turn an agent's event stream into the reply text.
 */
module Cli {
  import opened Wrappers
  import opened Text
  import opened Numerals
  import opened Sorting
  import opened Events
  import opened Session

  // ---------------------------------------------------------------------------
  // Spinner frames

  const DotsFrames := ["⠋", "⠙", "⠹", "⠸", "⠼", "⠴", "⠦", "⠧", "⠇", "⠏"]
  const CircleFrames := ["◐", "◓", "◑", "◒"]
  const BounceFrames := ["⠁", "⠂", "⠄", "⡀", "⢀", "⠠", "⠐", "⠈"]
  const PulseFrames := ["●", "◉", "○", "◉"]
  const GrowingFrames := ["○", "◔", "◑", "◕", "●", "◕", "◑", "◔"]

  /** The named styles and their frames. */
  const Styles: map<string, seq<string>> :=
    map["dots" := DotsFrames, "circle" := CircleFrames, "bounce" := BounceFrames,
        "pulse" := PulseFrames, "growing" := GrowingFrames]

  /** The `if style == ...` chain of `Spinner.__init__`: a named style's frames, the circle for any other name. */
  function Frames(style: string): (r: seq<string>)
    ensures style in Styles ==> r == Styles[style]
    ensures style !in Styles ==> r == CircleFrames
    ensures |r| >= 4 && forall i :: 0 <= i < |r| ==> |r[i]| == 1
  {
    if style == "dots" then DotsFrames
    else if style == "circle" then CircleFrames
    else if style == "bounce" then BounceFrames
    else if style == "pulse" then PulseFrames
    else if style == "growing" then GrowingFrames
    else CircleFrames
  }

  /** The spinner as constructed: not spinning yet, with the frames of its style. */
  class Spinner {
    var message: string
    var active: bool
    var frames: seq<string>

    constructor (msg: string, style: string)
      ensures message == msg && !active
      ensures frames == Frames(style) && |frames| >= 4
    {
      message := msg;
      active := false;
      frames := Frames(style);
    }
  }

  // ---------------------------------------------------------------------------
  // The "version" query

  /** `" ".join(query).strip().lower() == "version"` */
  predicate IsVersionQuery(query: seq<string>) {
    Lower(Strip(Join(query, " "))) == "version"
  }

  /** A one-word query is the version query exactly when that word, stripped and lower-cased, is "version". */
  lemma VersionSingleWord(w: string)
    ensures IsVersionQuery([w]) <==> Lower(Strip(w)) == "version"
  {
    assert Join([w], " ") == w;
  }

  /** An empty first word only adds whitespace, which is stripped before the check. */
  lemma VersionAfterEmptyWord()
    ensures IsVersionQuery(["", "version"])
  {
    assert Strip(Join(["", "version"], " ")) == "version" by {
      assert Join(["", "version"], " ") == " version" by {
        assert ["", "version"][..1] == [""];
      }
      assert LeadingSpaces(" version") == 1;
      assert TrimLeft(" version") == "version";
      assert TrailingSpaces("version") == 7;
    }
    assert Lower("version") == "version";
  }

  /** The check ignores case, and an empty last word only adds whitespace. */
  lemma UpperVersionBeforeEmptyWord()
    ensures IsVersionQuery(["VERSION", ""])
  {
    assert Strip(Join(["VERSION", ""], " ")) == "VERSION" by {
      assert Join(["VERSION", ""], " ") == "VERSION " by {
        assert ["VERSION", ""][..1] == ["VERSION"];
      }
      assert LeadingSpaces("VERSION ") == 0;
      assert TrailingSpaces("VERSION ") == 7;
    }
    assert Lower("VERSION") == "version";
  }

  /** "version" split in two words keeps the joining space, so it is not the version query. */
  lemma SplitVersionIsNotVersion()
    ensures !IsVersionQuery(["ver", "sion"])
  {
    assert Join(["ver", "sion"], " ") == "ver sion" by {
      assert ["ver", "sion"][..1] == ["ver"];
    }
    assert LeadingSpaces("ver sion") == 0;
    assert TrailingSpaces("ver sion") == 8;
    assert |Lower(Strip("ver sion"))| == 8;
  }

  // ---------------------------------------------------------------------------
  // `_run_single_query_ag_ui`

  /** What a single query gives back: the reply text, or the message of the exception it raises. */
  datatype Reply = Reply(text: string) | Raised(error: string)

  /**
   * The `async for` with `text` read so far: deltas are added, run-finished
   * returns the text, run-error raises its error ("Unknown error" when it is
   * missing or empty), any other event is skipped; a stream that just ends
   * returns the text.
   */
  function AgUiFold(text: string, events: seq<Event>): (r: Reply)
    ensures r.Reply? ==> text <= r.text
    ensures r.Raised? ==> r.error != ""
    decreases |events|
  {
    if |events| == 0 then Reply(text)
    else match events[0]
      case TextMessageContent(delta) => AgUiFold(text + Or(delta, ""), events[1..])
      case RunFinished => Reply(text)
      case RunError(error) => Raised(Or(error, "Unknown error"))
      case _ => AgUiFold(text, events[1..])
  }

  /**
   * The reply is the in-order concatenation of the text deltas up to the
   * first run-finished or run-error, the same text a session turn collects,
   * unless that first terminal event is a run-error.
   */
  lemma {:induction false} AgUiFoldIsStreamedText(text: string, events: seq<Event>)
    ensures var k := FirstTerminal(events);
      AgUiFold(text, events) ==
        if k < |events| && events[k].RunError? then Raised(Or(events[k].error, "Unknown error"))
        else Reply(text + StreamedText(events))
    decreases |events|
  {
    if |events| > 0 && !IsTerminal(events[0]) {
      var d := if events[0].TextMessageContent? then Or(events[0].delta, "") else "";
      AgUiFoldIsStreamedText(text + d, events[1..]);
      assert FirstTerminal(events) == 1 + FirstTerminal(events[1..]);
      assert (text + d) + StreamedText(events[1..]) == text + (d + StreamedText(events[1..]));
      if events[0].TextMessageContent? {
        assert AgUiFold(text, events) == AgUiFold(text + d, events[1..]);
      } else {
        assert text + "" == text;
        assert AgUiFold(text, events) == AgUiFold(text + d, events[1..]);
      }
    } else if |events| == 0 {
      assert text + "" == text;
    } else {
      assert text + "" == text;
    }
  }

  /** The query's event loop. */
  method RunSingleQueryAgUi(events: seq<Event>) returns (r: Reply)
    ensures r == AgUiFold("", events)
  {
    var text := "";
    var i := 0;
    while i < |events|
      invariant 0 <= i <= |events|
      invariant AgUiFold("", events) == AgUiFold(text, events[i..])
    {
      assert events[i..][1..] == events[i + 1..];
      match events[i] {
        case TextMessageContent(delta) =>
          text := text + Or(delta, "");
        case RunFinished =>
          return Reply(text);
        case RunError(error) =>
          return Raised(Or(error, "Unknown error"));
        case _ =>
      }
      i := i + 1;
    }
    return Reply(text);
  }

  // ---------------------------------------------------------------------------
  // `_run_single_query_acp`

  /**
   * The "content" entry of an ACP event: absent (read as ""), a string, or a
   * value of another Python type (None included), named by its type.
   */
  datatype AcpContent = NoContent | TextContent(s: string) | OtherContent(typeName: string)

  /** An ACP event as a dictionary: its "type" entry (None when absent or not a string) and its "content" entry. */
  datatype AcpEvent = AcpEvent(kind: Option<string>, content: AcpContent)

  /** The message of the TypeError that `response_text += content` raises when the content is not a string. */
  function ConcatError(typeName: string): string {
    "can only concatenate str (not \"" + typeName + "\") to str"
  }

  /** What a "text_delta" adds to the reply when its content is a string or absent. */
  function DeltaText(c: AcpContent): string {
    if c.TextContent? then c.s else ""
  }

  predicate IsCompleted(e: AcpEvent) {
    e.kind == Some("completed")
  }

  predicate IsBadDelta(e: AcpEvent) {
    e.kind == Some("text_delta") && e.content.OtherContent?
  }

  /**
   * The ACP loop with `text` read so far: "text_delta" adds its content
   * ("" when absent) or raises the TypeError when the content is not a
   * string, "completed" returns the text, anything else is skipped.
   */
  function AcpFold(text: string, events: seq<AcpEvent>): (r: Reply)
    ensures r.Reply? ==> text <= r.text
    ensures r.Raised? ==> exists i :: 0 <= i < |events| && IsBadDelta(events[i])
    decreases |events|
  {
    if |events| == 0 then Reply(text)
    else
      var kind := events[0].kind.GetOr("");
      if kind == "text_delta" then
        match events[0].content
        case NoContent => AcpFold(text + "", events[1..])
        case TextContent(s) => AcpFold(text + s, events[1..])
        case OtherContent(t) => Raised(ConcatError(t))
      else if kind == "completed" then Reply(text)
      else AcpFold(text, events[1..])
  }

  /** The contents of the "text_delta" events before the first "completed", concatenated. */
  function AcpDeltas(events: seq<AcpEvent>): string
    decreases |events|
  {
    if |events| == 0 || IsCompleted(events[0]) then ""
    else (if events[0].kind == Some("text_delta") then DeltaText(events[0].content) else "") + AcpDeltas(events[1..])
  }

  /** The type of the first non-string "text_delta" content before the first "completed", if any. */
  function AcpFault(events: seq<AcpEvent>): Option<string>
    decreases |events|
  {
    if |events| == 0 || IsCompleted(events[0]) then None
    else if IsBadDelta(events[0]) then Some(events[0].content.typeName)
    else AcpFault(events[1..])
  }

  /**
   * The loop raises the TypeError of the first non-string delta content met
   * before "completed"; without one it returns the text read so far followed
   * by the deltas before the first "completed".
   */
  lemma {:induction false} AcpFoldIsDeltas(text: string, events: seq<AcpEvent>)
    ensures AcpFold(text, events) ==
      if AcpFault(events).Some? then Raised(ConcatError(AcpFault(events).value))
      else Reply(text + AcpDeltas(events))
    decreases |events|
  {
    if |events| == 0 || IsCompleted(events[0]) {
      assert text + "" == text;
    } else if IsBadDelta(events[0]) {
    } else {
      var d := if events[0].kind == Some("text_delta") then DeltaText(events[0].content) else "";
      AcpFoldIsDeltas(text + d, events[1..]);
      assert (text + d) + AcpDeltas(events[1..]) == text + (d + AcpDeltas(events[1..]));
      if events[0].kind != Some("text_delta") {
        assert text + d == text;
      }
    }
  }

  /** Events before any "completed" contribute their deltas in order, whatever follows. */
  lemma {:induction false} AcpDeltasAppend(a: seq<AcpEvent>, b: seq<AcpEvent>)
    requires forall i :: 0 <= i < |a| ==> !IsCompleted(a[i])
    ensures AcpDeltas(a + b) == AcpDeltas(a) + AcpDeltas(b)
    decreases |a|
  {
    if |a| == 0 {
      assert a + b == b;
    } else {
      var d := if a[0].kind == Some("text_delta") then DeltaText(a[0].content) else "";
      assert (a + b)[0] == a[0];
      assert (a + b)[1..] == a[1..] + b;
      AcpDeltasAppend(a[1..], b);
      assert d + (AcpDeltas(a[1..]) + AcpDeltas(b)) == (d + AcpDeltas(a[1..])) + AcpDeltas(b);
    }
  }

  /** The query's event loop; the exception handler stops the spinner and re-raises. */
  method RunSingleQueryAcp(events: seq<AcpEvent>) returns (r: Reply)
    ensures r == AcpFold("", events)
  {
    var text := "";
    var i := 0;
    while i < |events|
      invariant 0 <= i <= |events|
      invariant AcpFold("", events) == AcpFold(text, events[i..])
    {
      assert events[i..][1..] == events[i + 1..];
      var kind := events[i].kind.GetOr("");
      if kind == "text_delta" {
        match events[i].content {
          case NoContent =>
            text := text + "";
          case TextContent(s) =>
            text := text + s;
          case OtherContent(t) =>
            return Raised(ConcatError(t));
        }
      } else if kind == "completed" {
        return Reply(text);
      }
      i := i + 1;
    }
    return Reply(text);
  }

  // ---------------------------------------------------------------------------
  // `_pick_agentspec_interactive`

  /** How the picker ends: with a spec id, or by exiting the program with a code. */
  datatype Picked = ChosenSpec(id: string) | ExitCode(code: int)

  /** What the picker prints between prompts. */
  datatype Note = RangeHint(count: nat) | InvalidHint | Selected(id: string)

  datatype PickerOutcome = PickerOutcome(result: Picked, notes: seq<Note>, read: nat)

  /** How the picker answers one read: quit, choose an id, or print some notes and ask again. */
  datatype SpecAnswer = Quit | Choose(id: string) | Retry(hint: seq<Note>)

  /**
   * Ctrl-C and end of input quit; a blank line asks again silently; a
   * number k between 1 and the count picks the k-th id, any other number
   * asks again with the range; anything else picks the id it equals, or
   * asks again with the invalid-input hint.
   */
  function SpecAnswerOf(input: Input, ids: seq<string>): (a: SpecAnswer)
    ensures a.Choose? ==> a.id in ids
    ensures !input.Line? <==> a.Quit?
    ensures input.Line? && Strip(input.text) == "" ==> a == Retry([])
  {
    if !input.Line? then Quit
    else
      var choice := Strip(input.text);
      if choice == "" then Retry([])
      else
        var n := ParseInt(choice);
        if n.Some? then (if 1 <= n.value <= |ids| then Choose(ids[n.value - 1]) else Retry([RangeHint(|ids|)]))
        else if choice in ids then Choose(choice) else Retry([InvalidHint])
  }

  function SpecAnswers(lines: seq<Input>, ids: seq<string>): (r: seq<SpecAnswer>)
    ensures |r| == |lines|
    decreases |lines|
  {
    if |lines| == 0 then [] else [SpecAnswerOf(lines[0], ids)] + SpecAnswers(lines[1..], ids)
  }

  lemma {:induction false} SpecAnswersAt(lines: seq<Input>, ids: seq<string>, i: nat)
    requires i < |lines|
    ensures SpecAnswers(lines, ids)[i] == SpecAnswerOf(lines[i], ids)
    decreases i
  {
    if i > 0 {
      SpecAnswersAt(lines[1..], ids, i - 1);
      assert lines[1..][i - 1] == lines[i];
    }
  }

  /** The `while True` loop over the answers; running out of lines reads as end of input. */
  function SpecLoop(answers: seq<SpecAnswer>): (o: PickerOutcome)
    ensures o.read <= |answers|
    ensures o.read == 0 <==> |answers| == 0
    ensures o.result.ExitCode? ==> o.result.code == 0
    decreases |answers|
  {
    if |answers| == 0 then PickerOutcome(ExitCode(0), [], 0)
    else match answers[0]
      case Quit => PickerOutcome(ExitCode(0), [], 1)
      case Choose(id) => PickerOutcome(ChosenSpec(id), [Selected(id)], 1)
      case Retry(hint) =>
        var rest := SpecLoop(answers[1..]);
        PickerOutcome(rest.result, hint + rest.notes, rest.read + 1)
  }

  /** The picker: no specs exits with code 1 at once; otherwise the ids are listed in ascending order and the loop runs. */
  function PickSpec(ids: seq<string>, lines: seq<Input>): (o: PickerOutcome)
    ensures |ids| == 0 ==> o == PickerOutcome(ExitCode(1), [], 0)
    ensures o.read <= |lines|
    ensures |ids| > 0 ==> (o.read == 0 <==> |lines| == 0)
    ensures |ids| > 0 && o.result.ExitCode? ==> o.result.code == 0
  {
    if |ids| == 0 then PickerOutcome(ExitCode(1), [], 0)
    else SpecLoop(SpecAnswers(lines, Sort(ids)))
  }

  lemma {:induction false} SpecLoopChoosesAnswer(answers: seq<SpecAnswer>, ids: seq<string>)
    requires forall i :: 0 <= i < |answers| ==> answers[i].Choose? ==> answers[i].id in ids
    ensures var o := SpecLoop(answers); o.result.ChosenSpec? ==> o.result.id in ids
    decreases |answers|
  {
    if |answers| > 0 {
      SpecLoopChoosesAnswer(answers[1..], ids);
    }
  }

  /** The picker only ever returns the id of one of the specs. */
  lemma PickSpecChoosesSpec(ids: seq<string>, lines: seq<Input>)
    ensures var o := PickSpec(ids, lines); o.result.ChosenSpec? ==> o.result.id in ids
  {
    if |ids| > 0 {
      var sorted := Sort(ids);
      var answers := SpecAnswers(lines, sorted);
      forall i | 0 <= i < |answers| && answers[i].Choose? ensures answers[i].id in ids {
        SpecAnswersAt(lines, sorted, i);
        assert answers[i].id in multiset(sorted);
      }
      SpecLoopChoosesAnswer(answers, ids);
    }
  }

  /** The picker at answer `i` when that answer ends the loop. */
  lemma SpecLoopAtStop(answers: seq<SpecAnswer>, i: nat)
    requires i < |answers| && !answers[i].Retry?
    ensures answers[i].Quit? ==> SpecLoop(answers[i..]) == PickerOutcome(ExitCode(0), [], 1)
    ensures answers[i].Choose? ==>
      SpecLoop(answers[i..]) == PickerOutcome(ChosenSpec(answers[i].id), [Selected(answers[i].id)], 1)
  {
    assert answers[i..][0] == answers[i];
  }

  /** The picker at answer `i` when that answer asks again: its notes, then the picker at `i + 1`. */
  lemma SpecLoopAtRetry(answers: seq<SpecAnswer>, i: nat)
    requires i < |answers| && answers[i].Retry?
    ensures var o := SpecLoop(answers[i + 1..]);
      SpecLoop(answers[i..]) == PickerOutcome(o.result, answers[i].hint + o.notes, o.read + 1)
  {
    assert answers[i..][1..] == answers[i + 1..];
  }

  /** The first answer of a non-empty run of lines is the answer to its first line. */
  lemma SpecLoopFirst(ids: seq<string>, lines: seq<Input>)
    requires |lines| > 0
    ensures var a := SpecAnswerOf(lines[0], ids); var answers := SpecAnswers(lines, ids);
      && answers == [a] + SpecAnswers(lines[1..], ids)
      && (a.Retry? ==> var o := SpecLoop(answers[1..]);
        SpecLoop(answers) == PickerOutcome(o.result, a.hint + o.notes, o.read + 1))
      && (a.Choose? ==> SpecLoop(answers) == PickerOutcome(ChosenSpec(a.id), [Selected(a.id)], 1))
  {
  }

  /** A first line that strips to a number k between 1 and the count picks the k-th id in ascending order. */
  lemma PickSpecNumber(ids: seq<string>, lines: seq<Input>, k: int)
    requires |lines| > 0 && lines[0].Line? && ParseInt(Strip(lines[0].text)) == Some(k) && 1 <= k <= |ids|
    ensures PickSpec(ids, lines) == PickerOutcome(ChosenSpec(Sort(ids)[k - 1]), [Selected(Sort(ids)[k - 1])], 1)
  {
    var sorted := Sort(ids);
    SpecAnswerNumber(lines[0], sorted, k);
    SpecLoopFirst(sorted, lines);
  }

  /** A line that strips to a number k between 1 and the count chooses the k-th id. */
  lemma SpecAnswerNumber(input: Input, ids: seq<string>, k: int)
    requires input.Line? && ParseInt(Strip(input.text)) == Some(k) && 1 <= k <= |ids|
    ensures SpecAnswerOf(input, ids) == Choose(ids[k - 1])
  {
  }

  /** A first line that is not a number but equals a spec id picks that id. */
  lemma PickSpecById(ids: seq<string>, lines: seq<Input>)
    requires |lines| > 0 && lines[0].Line?
    requires var c := Strip(lines[0].text); c != "" && ParseInt(c).None? && c in ids
    ensures var c := Strip(lines[0].text); PickSpec(ids, lines) == PickerOutcome(ChosenSpec(c), [Selected(c)], 1)
  {
    var c := Strip(lines[0].text);
    var sorted := Sort(ids);
    assert c in multiset(ids);
    assert c in sorted;
    assert SpecAnswerOf(lines[0], sorted) == Choose(c);
    SpecLoopFirst(sorted, lines);
  }

  /**
   * A blank first line asks again silently; a number out of range asks
   * again with the range, and text that is no id asks again with the
   * invalid-input hint.
   */
  lemma PickSpecRetries(ids: seq<string>, lines: seq<Input>)
    requires |ids| > 0 && |lines| > 0 && lines[0].Line?
    requires var c := Strip(lines[0].text); var n := ParseInt(c);
      c == "" || (n.Some? && !(1 <= n.value <= |ids|)) || (n.None? && c !in ids)
    ensures var c := Strip(lines[0].text); var n := ParseInt(c);
      var o := PickSpec(ids, lines[1..]);
      var note := if c == "" then [] else if n.Some? then [RangeHint(|ids|)] else [InvalidHint];
      PickSpec(ids, lines) == PickerOutcome(o.result, note + o.notes, o.read + 1)
  {
    var sorted := Sort(ids);
    var c := Strip(lines[0].text);
    assert c in sorted <==> c in multiset(ids);
    assert SpecAnswerOf(lines[0], sorted).Retry?;
    SpecLoopFirst(sorted, lines);
  }

  /** Ctrl-C, end of input or no input at all exits with code 0. */
  lemma PickSpecQuits(ids: seq<string>, lines: seq<Input>)
    requires |ids| > 0 && (|lines| == 0 || !lines[0].Line?)
    ensures PickSpec(ids, lines).result == ExitCode(0) && PickSpec(ids, lines).notes == []
  {
  }

  /** The picker reads answer `i`. */
  method SpecAnswerLine(ids: seq<string>, lines: seq<Input>, i: nat) returns (a: SpecAnswer)
    requires i < |lines|
    ensures a == SpecAnswers(lines, ids)[i]
  {
    SpecAnswersAt(lines, ids, i);
    a := SpecAnswerOf(lines[i], ids);
  }

  /** `_pick_agentspec_interactive` over the spec ids and the lines typed at its prompt. */
  method PickAgentSpec(ids: seq<string>, lines: seq<Input>) returns (result: Picked, notes: seq<Note>, read: nat)
    ensures PickerOutcome(result, notes, read) == PickSpec(ids, lines)
    ensures result.ChosenSpec? ==> result.id in ids
  {
    PickSpecChoosesSpec(ids, lines);
    if |ids| == 0 {
      return ExitCode(1), [], 0;
    }
    result, notes, read := SpecPrompt(Sort(ids), lines);
  }

  /** The `while True` prompt loop over the ids in listing order. */
  method SpecPrompt(sorted: seq<string>, lines: seq<Input>) returns (result: Picked, notes: seq<Note>, read: nat)
    ensures PickerOutcome(result, notes, read) == SpecLoop(SpecAnswers(lines, sorted))
  {
    ghost var answers := SpecAnswers(lines, sorted);
    ghost var goal := SpecLoop(answers);
    notes := [];
    read := 0;
    var answer := Retry([]);
    while read < |lines| && answer.Retry?
      invariant 0 <= read <= |lines|
      invariant answer.Retry? ==> var o := SpecLoop(answers[read..]);
        goal == PickerOutcome(o.result, notes + o.notes, o.read + read)
      invariant !answer.Retry? ==> (0 < read && answers[read - 1] == answer
        && var o := SpecLoop(answers[read - 1..]);
        goal == PickerOutcome(o.result, notes + o.notes, o.read + read - 1))
      decreases |lines| - read, if answer.Retry? then 1 else 0
    {
      answer := SpecAnswerLine(sorted, lines, read);
      if answer.Retry? {
        SpecLoopAtRetry(answers, read);
        ghost var o1 := SpecLoop(answers[read + 1..]);
        assert notes + (answer.hint + o1.notes) == (notes + answer.hint) + o1.notes;
        notes := notes + answer.hint;
      }
      read := read + 1;
    }
    if answer.Retry? {
      assert answers[read..] == [];
      return ExitCode(0), notes, read;
    }
    SpecLoopAtStop(answers, read - 1);
    match answer
    case Quit =>
      return ExitCode(0), notes, read;
    case Choose(id) =>
      return ChosenSpec(id), notes + [Selected(id)], read;
  }
}

=== FILE: completer.dfy ===
/**
 * The prompt's completion menu: for input that starts with "/", the primary
 * command names that start with the lower-cased rest of the input, each once,
 * in ascending order, with the description cut to fit the menu.
 */
module Completer {
  import opened Text
  import opened Sorting
  import opened Registry

  /** One menu entry: the text inserted, how far back it replaces, and the description shown beside it. */
  datatype Completion = Completion(name: string, text: string, startPosition: int, meta: string)

  /** Descriptions longer than 70 characters are cut to 67 and "..." is added. */
  function MenuDescription(d: string): (r: string)
    ensures |r| <= 70
    ensures |d| <= 70 ==> r == d
    ensures |d| > 70 ==> |r| == 70 && r[..67] == d[..67] && r[67..] == "..."
  {
    if |d| > 70 then d[..67] + "..." else d
  }

  /** A key the menu offers for this partial name: a primary name (not an alias) that starts with it. */
  predicate Offered(commands: Commands, partial: string, k: string) {
    k in commands.entries && commands.entries[k].name == k && StartsWith(k, partial)
  }

  /** A menu entry for the command at key `c.name`, offered for this partial name. */
  predicate EntryFor(commands: Commands, partial: string, textLength: nat, c: Completion) {
    && Offered(commands, partial, c.name)
    && c.text == "/" + c.name
    && c.startPosition == -(textLength as int)
    && c.meta == MenuDescription(commands.entries[c.name].description)
  }

  function NamesOf(r: seq<Completion>): (names: seq<string>)
    ensures |names| == |r|
    ensures forall j :: 0 <= j < |r| ==> names[j] == r[j].name
  {
    seq(|r|, j requires 0 <= j < |r| => r[j].name)
  }

  /** The completions for the text before the cursor: the menu entries of the sorted keys. */
  method GetCompletions(commands: Commands, text: string) returns (r: seq<Completion>)
    requires commands.Valid()
    ensures !StartsWith(text, "/") ==> r == []
    ensures StartsWith(text, "/") ==> StrictlySorted(NamesOf(r))
    ensures StartsWith(text, "/") ==>
      forall k :: k in NamesOf(r) <==> Offered(commands, Lower(text[1..]), k)
    ensures forall j :: 0 <= j < |r| ==>
      && r[j].name in commands.entries
      && r[j].text == "/" + r[j].name
      && r[j].startPosition == -|text|
      && r[j].meta == MenuDescription(commands.entries[r[j].name].description)
  {
    r := [];
    if !StartsWith(text, "/") {
      return;
    }
    var partial := Lower(text[1..]);
    var ks := Sort(commands.keys);
    SortKeepsDistinct(commands.keys);
    forall a | 0 <= a < |ks| ensures ks[a] in commands.entries {
      assert ks[a] in multiset(commands.keys);
    }
    r := MenuEntries(commands, partial, |text|, ks);
    forall k | Offered(commands, partial, k) ensures k in ks {
      assert k in multiset(ks);
    }
  }

  /**
   * The generator's loop over the sorted keys: a key is yielded when it is a
   * primary name starting with the partial name and its command has not been
   * shown yet.
   */
  method MenuEntries(commands: Commands, partial: string, textLength: nat, ks: seq<string>)
    returns (r: seq<Completion>)
    requires StrictlySorted(ks)
    requires forall a :: 0 <= a < |ks| ==> ks[a] in commands.entries
    ensures StrictlySorted(NamesOf(r))
    ensures forall k :: k in NamesOf(r) <==> k in ks && Offered(commands, partial, k)
    ensures forall j :: 0 <= j < |r| ==> EntryFor(commands, partial, textLength, r[j])
  {
    r := [];
    var shown: set<string> := {};
    ghost var names: seq<string> := [];
    var i := 0;
    while i < |ks|
      invariant 0 <= i <= |ks|
      invariant names == NamesOf(r)
      invariant StrictlySorted(names)
      invariant i < |ks| ==> forall j :: 0 <= j < |names| ==> Less(names[j], ks[i])
      invariant forall x :: x in shown <==> x in names
      invariant forall x :: x in names ==> x in ks
      invariant forall a :: 0 <= a < i && Offered(commands, partial, ks[a]) ==> ks[a] in names
      invariant forall j :: 0 <= j < |r| ==> EntryFor(commands, partial, textLength, r[j])
    {
      var name := ks[i];
      var cmd := commands.entries[name];
      if cmd.name in shown {
        assert Less(cmd.name, name);
        LessIrreflexive(name);
      } else if StartsWith(name, partial) && cmd.name == name {
        shown := shown + {cmd.name};
        r := r + [Completion(cmd.name, "/" + cmd.name, -(textLength as int), MenuDescription(cmd.description))];
        names := names + [name];
        assert names == NamesOf(r);
      }
      if i + 1 < |ks| {
        forall j | 0 <= j < |names| ensures Less(names[j], ks[i + 1]) {
          if names[j] != ks[i] {
            LessTransitive(names[j], ks[i], ks[i + 1]);
          }
        }
      }
      i := i + 1;
    }
  }
}

=== FILE: console.dfy ===
/**
 * What the session prints, as structured lines rather than styled text.
 * The console is write-only, so the model keeps what was printed as an
 * append-only log of these values.
 */
module Console {
  import opened ToolCalls

  datatype Render =
    | Text(content: string)                 // a streamed text delta, printed as it arrives
    | ToolStart(ordinal: nat, name: string) // "⚙ [n] name" when a tool call starts
    | ToolArgs(summary: string)             // "(summary) ..." when a call's arguments are complete
    | ToolResult(preview: string)           // "✓ preview" when a call's result arrives
    | RunError(error: string)               // "Error: ..." for a run-error event
    | ConnectionRefused                     // the agent server refused the connection
    | TurnFailed(message: string)           // any other exception while connecting or streaming
    | ToolSummary(calls: seq<ToolCallInfo>) // the turn's one-line tool-call summary, printed as `SummaryLine(calls)`
    | Usage(total: nat, input: nat, output: nat) // the token footer after a turn
    | UnknownCommand(name: string)          // "Unknown command: /name" and the /help hint
    | ClearFailed                           // the server-side reset request failed
    | Cleared                               // "Conversation cleared. Starting fresh."
    | Goodbye                               // the farewell printed by /exit
    | Opening(url: string)                  // a URL handed to the web browser
    | NoJupyter                             // "No Jupyter server available."
    | HelpHeading                           // "Available Commands:", the heading of the /help listing
    | HelpLine(line: string)                // one command of the /help listing
    | SuggestionsFailed                     // fetching the suggestions failed
    | NoSuggestions                         // the agent has no suggestions
    | SuggestionItem(ordinal: nat, text: string) // "n. suggestion"
    | NumberHint(count: nat)                // "Please enter a number between 1 and count."
    | Cancelled                             // the picker was cancelled
    | Prompting(text: string)               // the suggestion chosen as next prompt
    | SuggestionsHeading(count: nat)        // "● Suggestions (count):", the heading of the suggestions listing
}

=== FILE: dispatch.dfy ===
/**
 * Routing in the terminal session: `handle_command` picks a registered
 * command by the first word after "/", lower-cased; a handler runs the
 * command module's `execute` on the session and hands back its result; the
 * run loop reads prompts until a command stops it, ignoring empty answers,
 * routing "/..." to a command and sending anything else to the agent.
 */
module Dispatch {
  import opened Wrappers
  import opened Text
  import opened Console
  import opened Registry
  import opened Events
  import opened Session
  import ClearCommand
  import ExitCommand
  import HelpCommand
  import JupyterCommand
  import SuggestionsCommand

  /**
   * What the outside world answers while a command runs: whether the
   * server-side reset succeeds, what the suggestions request returns, and
   * the lines the suggestion picker reads.
   */
  datatype World = World(resetOk: bool, fetch: SuggestionsCommand.Fetch, pickerLines: seq<Input>)

  /** The command name: the first whitespace-separated word after the "/", lower-cased; "" when there is none. */
  function CommandName(afterSlash: string): (name: string)
    ensures name == [] <==> forall i :: 0 <= i < |afterSlash| ==> IsSpace(afterSlash[i])
    ensures NoSpace(name)
    ensures Lower(name) == name
  {
    var word := FirstWord(afterSlash);
    var name := Lower(word.GetOr(""));
    LowerIdempotent(word.GetOr(""));
    name
  }

  /** Where `handle_command` sends an input. */
  datatype Route = NotCommand | Unknown(name: string) | Known(cmd: SlashCommand)

  function RouteOf(commands: Commands, userInput: string): (r: Route)
    ensures r.NotCommand? <==> !StartsWith(userInput, "/")
    ensures r.Unknown? ==> r.name == CommandName(userInput[1..]) && r.name !in commands.entries
    ensures r.Known? ==> (StartsWith(userInput, "/")
      && CommandName(userInput[1..]) in commands.entries && r.cmd == commands.entries[CommandName(userInput[1..])])
  {
    if !StartsWith(userInput, "/") then NotCommand
    else
      var name := CommandName(userInput[1..]);
      if name in commands.entries then Known(commands.entries[name]) else Unknown(name)
  }

  /** A key that is one lower-case word routes to its command, whatever follows it after whitespace. */
  lemma KeyRoutesToCommand(commands: Commands, key: string, rest: string)
    requires key in commands.entries && key != [] && NoSpace(key) && Lower(key) == key
    requires rest == [] || IsSpace(rest[0])
    ensures RouteOf(commands, "/" + key + rest) == Known(commands.entries[key])
  {
    var input := "/" + key + rest;
    assert input[1..] == key + rest;
    assert StartsWith(input, "/");
    FirstWordOfWord(key, rest);
  }

  /** A bare "/" or "/" followed only by whitespace is an unknown command with an empty name, unless "" is a key. */
  lemma BareSlashIsUnknown(commands: Commands, blanks: string)
    requires [] !in commands.entries
    requires forall i :: 0 <= i < |blanks| ==> IsSpace(blanks[i])
    ensures RouteOf(commands, "/" + blanks) == Unknown([])
  {
    var input := "/" + blanks;
    assert input[1..] == blanks;
    assert StartsWith(input, "/");
  }

  /** "/exit" reaches a command whose handler is the exit command. */
  predicate ExitRoutes(commands: Commands) {
    var r := RouteOf(commands, "/exit");
    r.Known? && r.cmd.handler == Some(Exit)
  }

  /** The input "/exit" reaches the exit command in every session's command map. */
  lemma ExitIsRegistered(eggs: bool, jupyterUrl: Option<string>)
    ensures ExitRoutes(SessionRegistry(eggs, jupyterUrl))
  {
    ExitKeyOnlyOnExit(eggs, jupyterUrl);
    assert NoSpace("exit") && Lower("exit") == "exit" && "/" + "exit" + "" == "/exit";
    LastKeyRoutes(SessionCommands(eggs, jupyterUrl), 4, "exit");
  }

  /** A one-word lower-case key reaches the last command that registers it. */
  lemma LastKeyRoutes(cmds: seq<SlashCommand>, i: nat, key: string)
    requires key != [] && NoSpace(key) && Lower(key) == key
    requires i < |cmds| && key in Keys(cmds[i])
    requires forall j :: i < j < |cmds| ==> key !in Keys(cmds[j])
    ensures RouteOf(RegisterAll(cmds), "/" + key + "") == Known(cmds[i])
  {
    RegisterAllLastWins(cmds, i, key);
    KeyRoutesToCommand(RegisterAll(cmds), key, "");
  }

  /** The handlers whose commands are part of this model; every other one changes nothing modelled. */
  predicate Modelled(h: Handler) {
    h == Clear || h == Exit || h == Help || h == Jupyter || h == Suggestions
  }

  /**
   * `_make_handler` / the session's bound `_cmd_*` methods: run the
   * command on the session and return its result unchanged.
   */
  method RunHandler(tux: Tux, h: Handler, world: World) returns (next: Option<string>)
    requires tux.Valid()
    modifies tux
    ensures tux.Valid()
    ensures h != Suggestions ==> next == None
    ensures next.Some? ==> world.fetch.Fetched? && next.value in world.fetch.suggestions
    ensures h == Exit ==> !tux.running && tux.client == None && tux.output == old(tux.output) + [Goodbye]
    ensures h == Clear && world.resetOk ==> tux.client == None && tux.stats == FreshStats
    ensures h == Clear && !world.resetOk ==> tux.client == old(tux.client) && tux.stats == old(tux.stats)
    ensures h != Exit ==> tux.running == old(tux.running)
    ensures h != Clear ==> tux.stats == old(tux.stats)
    ensures h != Exit && h != Clear ==> tux.client == old(tux.client) && tux.disconnected == old(tux.disconnected)
    ensures !Modelled(h) ==> tux.output == old(tux.output)
    ensures tux.toolCalls == old(tux.toolCalls) && tux.sent == old(tux.sent) && tux.nextHandle == old(tux.nextHandle)
    ensures tux.modelName == old(tux.modelName) && tux.contextWindow == old(tux.contextWindow)
  {
    next := None;
    if h == Clear {
      next := ClearCommand.Execute(tux, world.resetOk);
    } else if h == Exit {
      next := ExitCommand.Execute(tux);
    } else if h == Help {
      next := HelpCommand.Execute(tux);
    } else if h == Jupyter {
      next := JupyterCommand.Execute(tux);
    } else if h == Suggestions {
      var read;
      next, read := SuggestionsCommand.Execute(tux, world.fetch, world.pickerLines);
    }
  }

  /**
   * `handle_command`: False, and nothing happens, unless the input starts
   * with "/"; otherwise True. A known command runs its handler, whose
   * result is dropped; an unknown one prints a notice.
   */
  method HandleCommand(tux: Tux, userInput: string, world: World) returns (handled: bool)
    requires tux.Valid()
    modifies tux
    ensures tux.Valid()
    ensures handled <==> StartsWith(userInput, "/")
    ensures var r := RouteOf(tux.commands, userInput);
      r.NotCommand? || r.Unknown? || (r.Known? && r.cmd.handler.None?) ==>
        && tux.stats == old(tux.stats) && tux.running == old(tux.running) && tux.client == old(tux.client)
        && tux.disconnected == old(tux.disconnected)
        && tux.output == old(tux.output) + (if r.Unknown? then [UnknownCommand(r.name)] else [])
    ensures var r := RouteOf(tux.commands, userInput);
      r.Known? && r.cmd.handler == Some(Exit) ==> !tux.running && tux.client == None
    ensures var r := RouteOf(tux.commands, userInput);
      !(r.Known? && r.cmd.handler == Some(Exit)) ==> tux.running == old(tux.running)
    ensures var r := RouteOf(tux.commands, userInput);
      !(r.Known? && r.cmd.handler == Some(Clear)) ==> tux.stats == old(tux.stats)
    ensures tux.toolCalls == old(tux.toolCalls) && tux.sent == old(tux.sent) && tux.nextHandle == old(tux.nextHandle)
    ensures tux.modelName == old(tux.modelName) && tux.contextWindow == old(tux.contextWindow)
  {
    if !StartsWith(userInput, "/") {
      return false;
    }
    var name := CommandName(userInput[1..]);
    if name in tux.commands.entries {
      var cmd := tux.commands.entries[name];
      if cmd.handler.Some? {
        var _ := RunHandler(tux, cmd.handler.value, world);
      }
    } else {
      tux.output := tux.output + [UnknownCommand(name)];
    }
    return true;
  }

  /** One prompt and what the world does while its answer is handled. */
  datatype Exchange = Exchange(input: Input, world: World, turn: Turn)

  /** A message the session may hand to the agent: a non-empty stripped answer that is not a command. */
  predicate IsMessage(m: string) {
    m != [] && !StartsWith(m, "/") && !IsSpace(m[0]) && !IsSpace(m[|m| - 1])
  }

  /** One pass of the run loop's body. */
  method Round(tux: Tux, x: Exchange, parse: Parser)
    requires tux.Valid()
    modifies tux
    ensures tux.Valid()
    ensures var text := PromptText(x.input);
      text == [] ==> (tux.output == old(tux.output) && tux.sent == old(tux.sent) && tux.stats == old(tux.stats)
        && tux.running == old(tux.running) && tux.client == old(tux.client))
    ensures var text := PromptText(x.input);
      StartsWith(text, "/") ==> tux.sent == old(tux.sent)
    ensures var text := PromptText(x.input);
      text != [] && !StartsWith(text, "/") ==>
        && tux.stats.messages == old(tux.stats.messages) + 1 && tux.running == old(tux.running)
        && (tux.sent == old(tux.sent) || (tux.client.Some? && tux.sent == old(tux.sent) + [(tux.client.value, text)]))
    ensures var r := RouteOf(tux.commands, PromptText(x.input));
      r.Known? && r.cmd.handler == Some(Exit) ==> !tux.running
    ensures forall j :: |old(tux.sent)| <= j < |tux.sent| ==> IsMessage(tux.sent[j].1)
    ensures |tux.sent| >= |old(tux.sent)| && tux.sent[..|old(tux.sent)|] == old(tux.sent)
  {
    var text := PromptText(x.input);
    if text == [] {
      return;
    }
    if StartsWith(text, "/") {
      var _ := HandleCommand(tux, text, x.world);
    } else {
      if x.input.Line? {
        StripTrims(x.input.text);
      }
      var _ := tux.SendMessage(text, x.turn, parse);
    }
  }

  /** The world answers nothing past the end of the script. */
  const Silent := Exchange(EndOfInput, World(false, SuggestionsCommand.FetchFailed, []), Turn(None, [], None, SnapshotFailed))

  /** The model name `run` starts from: the reported one, or "claude-sonnet-4" when it is missing or empty. */
  function InitialModelName(current: string, s: Snapshot): (r: string)
    ensures !SnapshotOk(s) ==> r == current
    ensures SnapshotOk(s) && (s.modelName.None? || s.modelName.value == []) ==> r == "claude-sonnet-4"
    ensures SnapshotOk(s) && s.modelName.Some? && s.modelName.value != [] ==> r == s.modelName.value
  {
    if !SnapshotOk(s) then current
    else if s.modelName.Some? && s.modelName.value != [] then s.modelName.value
    else "claude-sonnet-4"
  }

  /** The context window `run` starts from: the reported one, or 128000 when the field is missing. */
  function InitialContextWindow(current: int, s: Snapshot): (r: int)
    ensures !SnapshotOk(s) ==> r == current
    ensures SnapshotOk(s) && s.contextWindow.None? ==> r == 128000
    ensures SnapshotOk(s) && s.contextWindow.Some? ==> r == s.contextWindow.value
  {
    if !SnapshotOk(s) then current else s.contextWindow.GetOr(128000)
  }

  /**
   * `run`: the initial snapshot sets the model name and context window,
   * then prompts are read and dispatched while the session runs. The
   * script is what the user types, in order; past its end the input is
   * closed, which reads as "/exit", so the loop always stops. Every
   * message the loop sends to the agent is a stripped, non-empty answer
   * that is not a command.
   */
  method Run(tux: Tux, initial: Snapshot, script: seq<Exchange>, parse: Parser) returns (rounds: nat)
    requires tux.Valid() && ExitRoutes(tux.commands)
    modifies tux
    ensures tux.Valid()
    ensures !tux.running
    ensures rounds <= |script| + 1
    ensures |tux.sent| >= |old(tux.sent)| && tux.sent[..|old(tux.sent)|] == old(tux.sent)
    ensures forall j :: |old(tux.sent)| <= j < |tux.sent| ==> IsMessage(tux.sent[j].1)
  {
    Begin(tux, initial);
    rounds := 0;
    while tux.running
      invariant tux.Valid()
      invariant rounds <= |script| + 1
      invariant rounds == |script| + 1 ==> !tux.running
      invariant |tux.sent| >= |old(tux.sent)| && tux.sent[..|old(tux.sent)|] == old(tux.sent)
      invariant forall j :: |old(tux.sent)| <= j < |tux.sent| ==> IsMessage(tux.sent[j].1)
      decreases |script| + 1 - rounds
    {
      var x := if rounds < |script| then script[rounds] else Silent;
      ghost var sentBefore := tux.sent;
      Round(tux, x, parse);
      assert tux.sent[..|old(tux.sent)|] == tux.sent[..|sentBefore|][..|old(tux.sent)|];
      rounds := rounds + 1;
    }
  }

  /** The start of `run`: the session runs, with the model name and context window the snapshot gives. */
  method Begin(tux: Tux, initial: Snapshot)
    requires tux.Valid()
    modifies tux
    ensures tux.Valid() && tux.running
    ensures tux.modelName == InitialModelName(old(tux.modelName), initial)
    ensures tux.contextWindow == InitialContextWindow(old(tux.contextWindow), initial)
    ensures tux.sent == old(tux.sent) && tux.output == old(tux.output) && tux.stats == old(tux.stats)
  {
    tux.running := true;
    tux.modelName := InitialModelName(tux.modelName, initial);
    tux.contextWindow := InitialContextWindow(tux.contextWindow, initial);
  }

  /** Closing the input ends the session: end of input reads as "/exit", which stops the loop. */
  method EndOfInputExits(tux: Tux, world: World)
    requires tux.Valid() && ExitRoutes(tux.commands)
    modifies tux
    ensures tux.Valid() && !tux.running && tux.client == None
    ensures tux.sent == old(tux.sent) && tux.stats == old(tux.stats)
  {
    var _ := HandleCommand(tux, PromptText(EndOfInput), world);
  }
}

=== FILE: events.dfy ===
/**
 * One agent turn as a fold over the ordered event stream: text deltas build
 * the response, tool-call events create and update the turn's records, and
 * the first run-finished or run-error event ends consumption. The session's
 * streaming loop is proved to compute exactly this fold.
 */
module Events {
  import opened Wrappers
  import opened ToolCalls
  import opened Console

  /** The AG-UI events the consumer distinguishes; a field the event leaves out is None. */
  datatype Event =
    | TextMessageContent(delta: Option<string>)
    | ToolCallStart(toolCallId: Option<string>, toolName: Option<string>)
    | ToolCallArgs(toolCallId: Option<string>, toolArgs: Option<string>)
    | ToolCallEnd(toolCallId: Option<string>)
    | ToolCallResult(toolCallId: Option<string>, toolResult: Option<string>)
    | RunFinished
    | RunError(error: Option<string>)
    | OtherEvent  // every other event type, which the consumer ignores

  predicate IsTerminal(e: Event) {
    e.RunFinished? || e.RunError?
  }

  /** Python's `s or d` for an optional string: the default when the value is missing or empty. */
  function Or(s: Option<string>, d: string): (r: string)
    ensures (s.Some? && s.value != "") ==> r == s.value
    ensures (s.None? || s.value == "") ==> r == d
  {
    if s.Some? && s.value != "" then s.value else d
  }

  /** `f"{event.error}"`: a missing error prints as "None". */
  function ErrorText(e: Option<string>): string {
    match e
    case Some(s) => s
    case None => "None"
  }

  datatype Phase = Streaming | Finished | Failed

  /**
   * The turn in progress: the turn's tool-call records, the index of the
   * call in flight (the source keeps a reference to that record), the
   * response text so far, everything printed, and whether a terminal event
   * has been seen.
   */
  datatype TurnState = TurnState(
    calls: seq<ToolCallInfo>,
    current: Option<nat>,
    text: string,
    out: seq<Render>,
    phase: Phase)

  /** What JSON decoding makes of an argument string; the source's `json.loads`. */
  type Parser = string -> ParsedArgs

  /** The state at the start of a turn: no calls, nothing in flight, no text. */
  function Start(out: seq<Render>): TurnState {
    TurnState([], None, "", out, Streaming)
  }

  /** The in-flight record, when there is one, is the last one appended. */
  predicate InFlightIsLast(t: TurnState) {
    t.current.Some? ==> |t.calls| > 0 && t.current.value == |t.calls| - 1
  }

  /** Index of the first record with this id, or `|calls|` when no record has it. */
  function FindCall(calls: seq<ToolCallInfo>, id: string): (i: nat)
    ensures i <= |calls|
    ensures i < |calls| ==> calls[i].toolCallId == id
    ensures forall j :: 0 <= j < i ==> calls[j].toolCallId != id
  {
    if |calls| == 0 then 0
    else if calls[0].toolCallId == id then 0
    else 1 + FindCall(calls[1..], id)
  }

  /** The record a tool-call-start event creates. */
  function NewCall(id: Option<string>, name: Option<string>): ToolCallInfo {
    ToolCallInfo(Or(id, ""), Or(name, "tool"), "", None, InProgress, false)
  }

  /**
   * One event of the stream, applied to a turn that has not ended: output is
   * only appended to, only a start adds a record, only a text delta extends
   * the text, and only a terminal event changes the phase.
   */
  function Apply(t: TurnState, e: Event, parse: Parser): (r: TurnState)
    ensures t.out <= r.out
    ensures |r.calls| == |t.calls| + (if e.ToolCallStart? then 1 else 0)
    ensures r.text == t.text + (if e.TextMessageContent? then Or(e.delta, "") else "")
    ensures r.phase == (if e.RunFinished? then Finished else if e.RunError? then Failed else t.phase)
  {
    match e
    case TextMessageContent(delta) =>
      var content := Or(delta, "");
      t.(text := t.text + content, out := t.out + [Text(content)])
    case ToolCallStart(id, name) =>
      var call := NewCall(id, name);
      t.(calls := t.calls + [call], current := Some(|t.calls|),
         out := t.out + [ToolStart(|t.calls| + 1, call.toolName)])
    case ToolCallArgs(_, delta) =>
      if t.current.Some? && t.current.value < |t.calls| then
        var j := t.current.value;
        t.(calls := t.calls[j := t.calls[j].(argsJson := t.calls[j].argsJson + Or(delta, ""))])
      else t
    case ToolCallEnd(_) =>
      if t.current.Some? && t.current.value < |t.calls| then
        var args := t.calls[t.current.value].argsJson;
        t.(out := t.out + [ToolArgs(FormatArgs(args, parse(args), 50))])
      else t
    case ToolCallResult(id, result) =>
      var i := FindCall(t.calls, Or(id, ""));
      if i < |t.calls| then
        var r := Or(result, "");
        t.(calls := t.calls[i := t.calls[i].(result := Some(r), status := Complete)],
           current := None, out := t.out + [ToolResult(ResultPreview(r))])
      else t.(current := None)
    case RunFinished =>
      t.(phase := Finished)
    case RunError(error) =>
      var calls := if t.current.Some? && t.current.value < |t.calls|
        then t.calls[t.current.value := t.calls[t.current.value].(status := Error)] else t.calls;
      t.(calls := calls, out := t.out + [Render.RunError(ErrorText(error))], phase := Failed)
    case OtherEvent =>
      t
  }

  /**
   * The stream consumed from `t` on: events are applied in order until one
   * ends the turn. Output and records only grow, the text only extends, and
   * a turn that has ended stays ended and untouched.
   */
  function Consume(t: TurnState, events: seq<Event>, parse: Parser): (r: TurnState)
    ensures t.out <= r.out && t.text <= r.text && |t.calls| <= |r.calls|
    ensures t.phase != Streaming ==> r == t
    ensures r.phase == Streaming ==> t.phase == Streaming
    decreases |events|
  {
    if |events| == 0 || t.phase != Streaming then t
    else Consume(Apply(t, events[0], parse), events[1..], parse)
  }

  /** The text deltas of a stream up to its first terminal event, concatenated. */
  function StreamedText(events: seq<Event>): string {
    if |events| == 0 || IsTerminal(events[0]) then ""
    else (if events[0].TextMessageContent? then Or(events[0].delta, "") else "") + StreamedText(events[1..])
  }

  /** How many tool calls a stream starts before its first terminal event. */
  function StartsBeforeEnd(events: seq<Event>): nat {
    if |events| == 0 || IsTerminal(events[0]) then 0
    else (if events[0].ToolCallStart? then 1 else 0) + StartsBeforeEnd(events[1..])
  }

  /** The argument deltas of a run of argument events, concatenated in arrival order. */
  function ArgsText(events: seq<Event>): string
    requires forall i :: 0 <= i < |events| ==> events[i].ToolCallArgs?
  {
    if |events| == 0 then "" else Or(events[0].toolArgs, "") + ArgsText(events[1..])
  }

  /** The first terminal event, or `|events|` when the stream has none. */
  function FirstTerminal(events: seq<Event>): (k: nat)
    ensures k <= |events|
    ensures k < |events| ==> IsTerminal(events[k])
    ensures forall j :: 0 <= j < k ==> !IsTerminal(events[j])
  {
    if |events| == 0 then 0 else if IsTerminal(events[0]) then 0 else 1 + FirstTerminal(events[1..])
  }

  // ---------------------------------------------------------------------------
  // Properties of single events

  /** Every event keeps the in-flight record the last one. */
  lemma ApplyKeepsInFlightLast(t: TurnState, e: Event, parse: Parser)
    requires InFlightIsLast(t)
    ensures InFlightIsLast(Apply(t, e, parse))
  {
  }

  /**
   * A start event appends one in-progress record with empty arguments and no
   * result (id defaulting to "", name to "tool"), makes it the call in flight
   * and prints its ordinal, which is the new number of records.
   */
  lemma StartAppendsRecord(t: TurnState, id: Option<string>, name: Option<string>, parse: Parser)
    ensures var t' := Apply(t, ToolCallStart(id, name), parse);
      && |t'.calls| == |t.calls| + 1
      && t'.calls[..|t.calls|] == t.calls
      && t'.calls[|t.calls|].status == InProgress
      && t'.calls[|t.calls|].argsJson == "" && t'.calls[|t.calls|].result == None
      && t'.calls[|t.calls|].toolCallId == (if id.Some? && id.value != "" then id.value else "")
      && t'.calls[|t.calls|].toolName == (if name.Some? && name.value != "" then name.value else "tool")
      && t'.current == Some(|t.calls|)
      && t'.out == t.out + [ToolStart(|t'.calls|, t'.calls[|t.calls|].toolName)]
  {
    var t' := Apply(t, ToolCallStart(id, name), parse);
    assert t'.calls[..|t.calls|] == t.calls;
  }

  /**
   * A result event completes the first record with the same id and changes
   * no other; with no such record nothing changes. Either way no call is in
   * flight afterwards.
   */
  lemma ResultCompletesFirstMatch(t: TurnState, id: Option<string>, result: Option<string>, parse: Parser)
    ensures var t' := Apply(t, ToolCallResult(id, result), parse);
      var key := if id.Some? && id.value != "" then id.value else "";
      && t'.current == None
      && |t'.calls| == |t.calls|
      && (forall j :: 0 <= j < |t.calls| && t.calls[j].toolCallId != key ==> t'.calls[j] == t.calls[j])
      && (forall j :: 0 <= j < |t.calls| && t.calls[j].toolCallId == key ==>
            (forall m :: 0 <= m < j ==> t.calls[m].toolCallId != key) ==>
            t'.calls[j].status == Complete
            && t'.calls[j].result == Some(if result.Some? && result.value != "" then result.value else "")
            && t'.calls[j].argsJson == t.calls[j].argsJson)
      && (forall j :: 0 <= j < |t.calls| && t.calls[j].toolCallId == key && t'.calls[j] != t.calls[j] ==>
            forall m :: 0 <= m < j ==> t.calls[m].toolCallId != key)
  {
  }

  /** A result for an id no record has changes no record and adds none. */
  lemma UnmatchedResultChangesNoRecord(t: TurnState, id: Option<string>, result: Option<string>, parse: Parser)
    requires forall j :: 0 <= j < |t.calls| ==> t.calls[j].toolCallId != Or(id, "")
    ensures Apply(t, ToolCallResult(id, result), parse) == t.(current := None)
  {
    assert FindCall(t.calls, Or(id, "")) == |t.calls|;
  }

  /** A run-error marks the call in flight, and only that one, as failed and ends the turn. */
  lemma RunErrorMarksInFlight(t: TurnState, error: Option<string>, parse: Parser)
    requires InFlightIsLast(t)
    ensures var t' := Apply(t, Event.RunError(error), parse);
      && t'.phase == Failed
      && |t'.calls| == |t.calls|
      && (forall j :: 0 <= j < |t.calls| && Some(j) != t.current ==> t'.calls[j] == t.calls[j])
      && (t.current.Some? ==> t'.calls[t.current.value] == t.calls[t.current.value].(status := Error))
  {
  }

  // ---------------------------------------------------------------------------
  // Properties of the whole stream

  /** Once the turn has ended, later events are not read. */
  lemma EndedIgnoresEvents(t: TurnState, events: seq<Event>, parse: Parser)
    requires t.phase != Streaming
    ensures Consume(t, events, parse) == t
  {
  }

  /** Only a terminal event ends a turn. */
  lemma NonTerminalKeepsStreaming(t: TurnState, e: Event, parse: Parser)
    requires t.phase == Streaming && !IsTerminal(e)
    ensures Apply(t, e, parse).phase == Streaming
  {
  }

  /** Consumption stops at the first terminal event: what follows it has no effect. */
  lemma {:induction false} StopsAtFirstTerminal(t: TurnState, events: seq<Event>, parse: Parser)
    requires t.phase == Streaming
    ensures var k := FirstTerminal(events);
      k < |events| ==> Consume(t, events, parse) == Consume(t, events[..k + 1], parse)
    ensures var k := FirstTerminal(events);
      k < |events| ==> Consume(t, events, parse).phase == (if events[k].RunFinished? then Finished else Failed)
    ensures FirstTerminal(events) == |events| ==> Consume(t, events, parse).phase == Streaming
    decreases |events|
  {
    if |events| > 0 {
      var k := FirstTerminal(events);
      var t1 := Apply(t, events[0], parse);
      if k == 0 {
        assert events[..1][1..] == [];
      } else {
        assert FirstTerminal(events[1..]) == k - 1;
        NonTerminalKeepsStreaming(t, events[0], parse);
        StopsAtFirstTerminal(t1, events[1..], parse);
        if k < |events| {
          assert events[..k + 1][0] == events[0];
          assert events[..k + 1][1..] == events[1..][..k];
        }
      }
    }
  }

  /** The response text is the in-order concatenation of the text deltas before the first terminal event. */
  lemma {:induction false} ConsumeText(t: TurnState, events: seq<Event>, parse: Parser)
    requires t.phase == Streaming
    ensures Consume(t, events, parse).text == t.text + StreamedText(events)
    decreases |events|
  {
    if |events| > 0 && !IsTerminal(events[0]) {
      var t1 := Apply(t, events[0], parse);
      var d := if events[0].TextMessageContent? then Or(events[0].delta, "") else "";
      ApplyAppendsText(t, events[0], parse);
      ConsumeText(t1, events[1..], parse);
      assert (t.text + d) + StreamedText(events[1..]) == t.text + (d + StreamedText(events[1..]));
    }
  }

  /** A text delta is appended to the response; no other event touches it. */
  lemma ApplyAppendsText(t: TurnState, e: Event, parse: Parser)
    ensures Apply(t, e, parse).text == t.text + (if e.TextMessageContent? then Or(e.delta, "") else "")
  {
  }

  /** One record per start event before the first terminal event; no other event adds or drops one. */
  lemma {:induction false} ConsumeCountsStarts(t: TurnState, events: seq<Event>, parse: Parser)
    requires t.phase == Streaming
    ensures |Consume(t, events, parse).calls| == |t.calls| + StartsBeforeEnd(events)
    decreases |events|
  {
    if |events| > 0 && !IsTerminal(events[0]) {
      ConsumeCountsStarts(Apply(t, events[0], parse), events[1..], parse);
    }
  }

  /** The in-flight record stays the last one for the whole stream. */
  lemma {:induction false} ConsumeKeepsInFlightLast(t: TurnState, events: seq<Event>, parse: Parser)
    requires InFlightIsLast(t)
    ensures InFlightIsLast(Consume(t, events, parse))
    decreases |events|
  {
    if |events| > 0 && t.phase == Streaming {
      ApplyKeepsInFlightLast(t, events[0], parse);
      ConsumeKeepsInFlightLast(Apply(t, events[0], parse), events[1..], parse);
    }
  }

  /**
   * Argument deltas are appended to the in-flight record in arrival order,
   * whatever id they carry; with no call in flight they are dropped.
   */
  lemma {:induction false} ArgsAccumulateInOrder(t: TurnState, events: seq<Event>, parse: Parser)
    requires t.phase == Streaming && InFlightIsLast(t)
    requires forall i :: 0 <= i < |events| ==> events[i].ToolCallArgs?
    ensures var t' := Consume(t, events, parse);
      && t'.current == t.current && t'.text == t.text && t'.out == t.out && t'.phase == Streaming
      && (t.current.None? ==> t'.calls == t.calls)
      && (t.current.Some? ==>
            t'.calls == t.calls[t.current.value := t.calls[t.current.value].(argsJson := t.calls[t.current.value].argsJson + ArgsText(events))])
    decreases |events|
  {
    if |events| > 0 {
      var t1 := Apply(t, events[0], parse);
      ArgsAccumulateInOrder(t1, events[1..], parse);
      if t.current.Some? {
        var j := t.current.value;
        var a, d, rest := t.calls[j].argsJson, Or(events[0].toolArgs, ""), ArgsText(events[1..]);
        assert t1.calls[j].argsJson == a + d;
        assert ArgsText(events) == d + rest;
        assert (a + d) + rest == a + (d + rest);
      }
    } else if t.current.Some? {
      var j := t.current.value;
      assert t.calls[j].argsJson + ArgsText(events) == t.calls[j].argsJson;
      assert t.calls[j := t.calls[j]] == t.calls;
    }
  }
}

=== FILE: exit.dfy ===
/** `/exit`: stops the prompt loop and disconnects the session's client, if any. */
module ExitCommand {
  import opened Wrappers
  import opened Console
  import opened Session

  method Execute(tux: Tux) returns (next: Option<string>)
    requires tux.Valid()
    modifies tux
    ensures tux.Valid()
    ensures next == None
    ensures !tux.running
    ensures tux.client == None
    ensures tux.disconnected == old(tux.disconnected) + (if old(tux.client).Some? then [old(tux.client).value] else [])
    ensures tux.output == old(tux.output) + [Goodbye]
    ensures tux.stats == old(tux.stats) && tux.toolCalls == old(tux.toolCalls)
    ensures tux.modelName == old(tux.modelName) && tux.contextWindow == old(tux.contextWindow)
    ensures tux.nextHandle == old(tux.nextHandle) && tux.sent == old(tux.sent)
  {
    tux.running := false;
    tux.DropClient();
    tux.output := tux.output + [Goodbye];
    return None;
  }

  /** Exiting twice leaves the same state as exiting once: the second call disconnects nothing. */
  method ExitTwice(tux: Tux)
    requires tux.Valid()
    modifies tux
    ensures tux.Valid()
    ensures !tux.running && tux.client == None
    ensures tux.disconnected == old(tux.disconnected) + (if old(tux.client).Some? then [old(tux.client).value] else [])
    ensures tux.output == old(tux.output) + [Goodbye, Goodbye]
    ensures tux.stats == old(tux.stats) && tux.toolCalls == old(tux.toolCalls)
  {
    var _ := Execute(tux);
    ghost var afterFirst := tux.disconnected;
    var _ := Execute(tux);
    assert tux.disconnected == afterFirst;
  }
}

=== FILE: help.dfy ===
/**
 * `/help`: one line per distinct command, walking the command map in
 * ascending key order and skipping a command whose name was already listed,
 * so each command appears once, at its smallest key.
 */
module HelpCommand {
  import opened Wrappers
  import opened Text
  import opened Sorting
  import opened Console
  import opened Registry
  import opened Session

  /** "escape x" reads as "Esc,X" and "c-x" as "Ctrl+X"; any other shortcut is shown as it is. */
  function FormatShortcut(shortcut: Option<string>): (r: string)
    ensures !Truthy(shortcut) ==> r == ""
    ensures Truthy(shortcut) && StartsWith(shortcut.value, "escape ") ==>
      r == "Esc," + Upper(shortcut.value[7..])
    ensures Truthy(shortcut) && !StartsWith(shortcut.value, "escape ") && StartsWith(shortcut.value, "c-") ==>
      r == "Ctrl+" + Upper(shortcut.value[2..])
    ensures Truthy(shortcut) && !StartsWith(shortcut.value, "escape ") && !StartsWith(shortcut.value, "c-") ==>
      r == shortcut.value
  {
    if !Truthy(shortcut) then ""
    else if StartsWith(shortcut.value, "escape ") then "Esc," + Upper(shortcut.value[7..])
    else if StartsWith(shortcut.value, "c-") then "Ctrl+" + Upper(shortcut.value[2..])
    else shortcut.value
  }

  /** "/name", and " (a, b)" after it when the command has aliases. */
  function Display(c: SlashCommand): (d: string)
    ensures StartsWith(d, "/" + c.name)
    ensures |c.aliases| == 0 ==> d == "/" + c.name
    ensures |c.aliases| > 0 ==> d == "/" + c.name + " (" + Join(c.aliases, ", ") + ")"
  {
    var d := "/" + c.name + (if |c.aliases| > 0 then " (" + Join(c.aliases, ", ") + ")" else "");
    assert d[..|"/" + c.name|] == "/" + c.name;
    d
  }

  /** Spaces between the display text and the description: up to column 22, and never fewer than one. */
  function PaddingLength(display: string): (n: nat)
    ensures n >= 1
    ensures |display| < 22 ==> |display| + n == 22
    ensures |display| >= 21 ==> n == 1
  {
    if 22 - |display| > 1 then 22 - |display| else 1
  }

  /**
   * The listing line of one command: two spaces and the display text, blanks
   * up to the description's column (column 24 for a display shorter than 22),
   * the description, and "   [shortcut]" after it exactly when the command
   * has a shortcut.
   */
  function HelpText(c: SlashCommand): (line: string)
    ensures var d := Display(c); var col := 2 + |d| + PaddingLength(d); var end := col + |c.description|;
      && end <= |line|
      && line[..2 + |d|] == "  " + d
      && (forall k :: 2 + |d| <= k < col ==> line[k] == ' ')
      && line[col..end] == c.description
      && (Truthy(c.shortcut) ==> line[end..] == "   [" + FormatShortcut(c.shortcut) + "]")
      && (!Truthy(c.shortcut) ==> |line| == end)
    ensures |Display(c)| < 22 ==> line[24..24 + |c.description|] == c.description
  {
    var d := Display(c);
    var pad := Repeat(' ', PaddingLength(d));
    var suffix := if Truthy(c.shortcut) then "  " + " [" + FormatShortcut(c.shortcut) + "]" else "";
    var head := "  " + d + pad;
    var line := head + c.description + suffix;
    assert line[..2 + |d|] == "  " + d by { assert line[..2 + |d|] == head[..2 + |d|]; }
    assert forall k :: 2 + |d| <= k < |head| ==> line[k] == ' ' by {
      forall k | 2 + |d| <= k < |head| ensures line[k] == ' ' {
        assert line[k] == head[k] == pad[k - 2 - |d|];
      }
    }
    assert line[|head|..|head| + |c.description|] == c.description;
    assert line[|head| + |c.description|..] == suffix;
    line
  }

  function NamesOf(cs: seq<SlashCommand>): (names: seq<string>)
    ensures |names| == |cs|
    ensures forall i :: 0 <= i < |cs| ==> names[i] == cs[i].name
  {
    seq(|cs|, i requires 0 <= i < |cs| => cs[i].name)
  }

  /** The commands in `cs`, keeping only the first one of each name. */
  function FirstOfEachName(cs: seq<SlashCommand>): (r: seq<SlashCommand>)
    ensures forall c :: c in r ==> c in cs
    ensures |r| <= |cs|
  {
    if |cs| == 0 then []
    else
      var r := FirstOfEachName(cs[..|cs| - 1]);
      if cs[|cs| - 1].name in NamesOf(r) then r else r + [cs[|cs| - 1]]
  }

  /** Each name is listed once, and every name of `cs` is listed. */
  lemma {:induction false} FirstOfEachNameListsEachOnce(cs: seq<SlashCommand>)
    ensures Distinct(NamesOf(FirstOfEachName(cs)))
    ensures forall x :: x in NamesOf(FirstOfEachName(cs)) <==> x in NamesOf(cs)
    decreases |cs|
  {
    if |cs| > 0 {
      var init := cs[..|cs| - 1];
      var last := cs[|cs| - 1];
      FirstOfEachNameListsEachOnce(init);
      var r := FirstOfEachName(init);
      if last.name !in NamesOf(r) {
        assert NamesOf(r + [last]) == NamesOf(r) + [last.name];
      }
      assert NamesOf(cs) == NamesOf(init) + [last.name];
    }
  }

  /** The command listed for a name is the first one in `cs` with that name. */
  lemma {:induction false} FirstOfEachNameKeepsFirst(cs: seq<SlashCommand>, p: nat)
    requires p < |cs|
    requires forall q :: 0 <= q < p ==> cs[q].name != cs[p].name
    ensures cs[p] in FirstOfEachName(cs)
    decreases |cs|
  {
    var init := cs[..|cs| - 1];
    if p < |cs| - 1 {
      FirstOfEachNameKeepsFirst(init, p);
    } else {
      var r := FirstOfEachName(init);
      forall c | c in r ensures c.name != cs[p].name {
        var q :| 0 <= q < |init| && init[q] == c;
      }
    }
  }

  /** Where the first command named `name` sits in `cs`. */
  function FirstIndex(cs: seq<SlashCommand>, name: string): (q: nat)
    requires name in NamesOf(cs)
    ensures q < |cs| && cs[q].name == name
    ensures forall p :: 0 <= p < q ==> cs[p].name != name
    decreases |cs|
  {
    var init := cs[..|cs| - 1];
    assert NamesOf(cs) == NamesOf(init) + [cs[|cs| - 1].name];
    if name in NamesOf(init) then FirstIndex(init, name)
    else
      assert forall p :: 0 <= p < |init| ==> cs[p].name == NamesOf(init)[p];
      |cs| - 1
  }

  /**
   * Each kept command is the first one of its name, and the kept commands
   * come in the order of those first positions.
   */
  lemma {:induction false} FirstOfEachNameOrder(cs: seq<SlashCommand>)
    ensures var r := FirstOfEachName(cs);
      && (forall i :: 0 <= i < |r| ==> r[i].name in NamesOf(cs) && r[i] == cs[FirstIndex(cs, r[i].name)])
      && (forall i, j :: 0 <= i < j < |r| ==> FirstIndex(cs, r[i].name) < FirstIndex(cs, r[j].name))
    decreases |cs|
  {
    if |cs| > 0 {
      var init := cs[..|cs| - 1];
      var last := cs[|cs| - 1];
      var rI := FirstOfEachName(init);
      FirstOfEachNameOrder(init);
      KeptNamesAreNames(init);
      forall i | 0 <= i < |rI| ensures rI[i].name in NamesOf(init) {
        KeptNameIsName(init, i);
      }
      forall i | 0 <= i < |rI|
        ensures rI[i].name in NamesOf(cs) && FirstIndex(cs, rI[i].name) == FirstIndex(init, rI[i].name)
        ensures rI[i] == cs[FirstIndex(cs, rI[i].name)]
      {
        FirstIndexOfInit(cs, rI[i].name);
      }
      if last.name !in NamesOf(rI) {
        FirstIndexOfLast(cs);
      }
    }
  }

  /** The kept commands' names are names of `cs`, and a name that is not kept is not in `cs`. */
  lemma KeptNamesAreNames(cs: seq<SlashCommand>)
    ensures var r := FirstOfEachName(cs);
      && (forall i :: 0 <= i < |r| ==> r[i].name in NamesOf(cs))
      && (forall x :: x !in NamesOf(r) ==> x !in NamesOf(cs))
  {
    var r := FirstOfEachName(cs);
    FirstOfEachNameListsEachOnce(cs);
    forall i | 0 <= i < |r| ensures r[i].name in NamesOf(cs) {
      assert NamesOf(r)[i] == r[i].name;
    }
  }

  lemma KeptNameIsName(cs: seq<SlashCommand>, i: nat)
    requires i < |FirstOfEachName(cs)|
    ensures FirstOfEachName(cs)[i].name in NamesOf(cs)
  {
    KeptNamesAreNames(cs);
  }

  /** A name already in `cs` without its last element has the same first position in `cs`. */
  lemma FirstIndexOfInit(cs: seq<SlashCommand>, x: string)
    requires |cs| > 0 && x in NamesOf(cs[..|cs| - 1])
    ensures x in NamesOf(cs) && FirstIndex(cs, x) == FirstIndex(cs[..|cs| - 1], x)
  {
    assert NamesOf(cs) == NamesOf(cs[..|cs| - 1]) + [cs[|cs| - 1].name];
  }

  /** A name that first appears at the end of `cs` has the last position. */
  lemma FirstIndexOfLast(cs: seq<SlashCommand>)
    requires |cs| > 0 && cs[|cs| - 1].name !in NamesOf(FirstOfEachName(cs[..|cs| - 1]))
    ensures cs[|cs| - 1].name in NamesOf(cs) && FirstIndex(cs, cs[|cs| - 1].name) == |cs| - 1
  {
    KeptNamesAreNames(cs[..|cs| - 1]);
    assert NamesOf(cs) == NamesOf(cs[..|cs| - 1]) + [cs[|cs| - 1].name];
  }

  /** The commands in ascending order of their keys, one per key. */
  function ByKey(commands: Commands, ks: seq<string>): (cs: seq<SlashCommand>)
    requires forall i :: 0 <= i < |ks| ==> ks[i] in commands.entries
    ensures |cs| == |ks|
    ensures forall i :: 0 <= i < |ks| ==> cs[i] == commands.entries[ks[i]]
  {
    seq(|ks|, i requires 0 <= i < |ks| => commands.entries[ks[i]])
  }

  /** The commands the listing shows, in order. */
  function Listed(commands: Commands): (r: seq<SlashCommand>)
    requires commands.Valid()
    ensures |r| <= |commands.keys|
    ensures forall c :: c in r ==> c in commands.entries.Values
  {
    var ks := Sort(commands.keys);
    assert forall i :: 0 <= i < |ks| ==> ks[i] in commands.entries by {
      forall i | 0 <= i < |ks| ensures ks[i] in commands.entries {
        assert ks[i] in multiset(commands.keys);
      }
    }
    FirstOfEachName(ByKey(commands, ks))
  }

  /** `k` is registered to a command named `name`. */
  predicate Names(commands: Commands, k: string, name: string) {
    k in commands.entries && commands.entries[k].name == name
  }

  /** The first position in `ks` of a key registered to a command named `name`, or `|ks|`. */
  function FirstNamedAt(commands: Commands, ks: seq<string>, name: string): (q: nat)
    ensures q <= |ks|
    ensures q < |ks| ==> Names(commands, ks[q], name)
    ensures forall p :: 0 <= p < q ==> !Names(commands, ks[p], name)
    decreases |ks|
  {
    if |ks| == 0 then 0
    else if Names(commands, ks[0], name) then 0
    else
      var q := FirstNamedAt(commands, ks[1..], name);
      assert forall p :: 0 < p <= q ==> ks[p] == ks[1..][p - 1];
      1 + q
  }

  /** The smallest key registered to a command named `name`, if there is one. */
  function SmallestKey(commands: Commands, name: string): (k: Option<string>)
    ensures k.Some? ==> Names(commands, k.value, name)
  {
    var ks := Sort(commands.keys);
    var q := FirstNamedAt(commands, ks, name);
    if q < |ks| then Some(ks[q]) else None
  }

  /** Every key registered to a command of that name is at least the smallest key. */
  lemma SmallestKeyIsLeast(commands: Commands, name: string, k: string)
    requires commands.Valid() && Names(commands, k, name)
    ensures SmallestKey(commands, name).Some? && LessEq(SmallestKey(commands, name).value, k)
  {
    var ks := Sort(commands.keys);
    assert k in multiset(ks) by { assert k in commands.keys; }
    var p :| 0 <= p < |ks| && ks[p] == k;
    var q := FirstNamedAt(commands, ks, name);
    assert Names(commands, ks[p], name);
    assert q <= p;
    assert SmallestKey(commands, name) == Some(ks[q]);
    if q < p {
      assert Sorted(ks);
      assert LessEq(ks[q], ks[p]);
    }
  }

  /** Over keys of the map, the first command named `name` sits at the first key registered to that name. */
  lemma FirstIndexIsFirstNamed(commands: Commands, ks: seq<string>, name: string)
    requires forall i :: 0 <= i < |ks| ==> ks[i] in commands.entries
    requires name in NamesOf(ByKey(commands, ks))
    ensures FirstIndex(ByKey(commands, ks), name) == FirstNamedAt(commands, ks, name)
  {
    var cs := ByKey(commands, ks);
    var a := FirstIndex(cs, name);
    var b := FirstNamedAt(commands, ks, name);
    assert Names(commands, ks[a], name);
  }

  /**
   * `/help` lists the commands in ascending order of the smallest key each
   * is registered under, and each listed command is the one at that key.
   */
  lemma ListedInKeyOrder(commands: Commands)
    requires commands.Valid()
    ensures var l := Listed(commands);
      && (forall i :: 0 <= i < |l| ==>
            SmallestKey(commands, l[i].name).Some? && commands.entries[SmallestKey(commands, l[i].name).value] == l[i])
      && (forall i, j :: 0 <= i < j < |l| ==>
            Less(SmallestKey(commands, l[i].name).value, SmallestKey(commands, l[j].name).value))
  {
    var ks := Sort(commands.keys);
    SortedKeysAreKeys(commands);
    SortKeepsDistinct(commands.keys);
    var cs := ByKey(commands, ks);
    var l := Listed(commands);
    assert l == FirstOfEachName(cs);
    FirstOfEachNameOrder(cs);
    forall i | 0 <= i < |l|
      ensures FirstIndex(cs, l[i].name) == FirstNamedAt(commands, ks, l[i].name)
      ensures SmallestKey(commands, l[i].name) == Some(ks[FirstIndex(cs, l[i].name)])
    {
      FirstIndexIsFirstNamed(commands, ks, l[i].name);
    }
  }

  /** The first kept command is the first command. */
  lemma {:induction false} FirstOfEachNameHead(cs: seq<SlashCommand>)
    requires |cs| > 0
    ensures |FirstOfEachName(cs)| > 0 && FirstOfEachName(cs)[0] == cs[0]
    decreases |cs|
  {
    if |cs| > 1 {
      FirstOfEachNameHead(cs[..|cs| - 1]);
    }
  }

  /** The listing opens with the command registered under the least key. */
  lemma ListedOpensWithLeastKey(commands: Commands)
    requires commands.Valid() && |commands.keys| > 0
    ensures var ks := Sort(commands.keys);
      && |ks| > 0 && ks[0] in commands.entries
      && |Listed(commands)| > 0 && Listed(commands)[0] == commands.entries[ks[0]]
  {
    var ks := Sort(commands.keys);
    SortedKeysAreKeys(commands);
    var cs := ByKey(commands, ks);
    assert Listed(commands) == FirstOfEachName(cs);
    FirstOfEachNameHead(cs);
  }

  /**
   * A key that is at most every registered key, and that no later command
   * takes over, puts its command at the head of the listing.
   */
  lemma LeastKeyHeadsListing(cmds: seq<SlashCommand>, i: nat, x: string)
    requires i < |cmds| && x in Keys(cmds[i])
    requires forall j :: i < j < |cmds| ==> x !in Keys(cmds[j])
    requires forall j, y :: 0 <= j < |cmds| && y in Keys(cmds[j]) ==> LessEq(x, y)
    ensures |Listed(RegisterAll(cmds))| > 0 && Listed(RegisterAll(cmds))[0] == cmds[i]
  {
    var commands := RegisterAll(cmds);
    RegisterAllLastWins(cmds, i, x);
    var ks := Sort(commands.keys);
    assert x in multiset(ks) by { assert x in commands.keys; }
    var p :| 0 <= p < |ks| && ks[p] == x;
    assert ks[0] in commands.entries by { assert ks[0] in multiset(commands.keys); }
    RegisterAllDomain(cmds, ks[0]);
    assert LessEq(x, ks[0]);
    if ks[0] != x {
      assert LessEq(ks[0], ks[p]);
      LessAsymmetric(x, ks[0]);
    }
    ListedOpensWithLeastKey(commands);
  }

  /** In every session, "?" is the least key, so `/help` heads its own listing. */
  lemma HelpListedFirst(eggs: bool, jupyterUrl: Option<string>)
    ensures var l := Listed(SessionRegistry(eggs, jupyterUrl));
      |l| > 0 && l[0] == CommandOf(HelpModule)
  {
    var cmds := SessionCommands(eggs, jupyterUrl);
    SessionKeysFollowQuestion(eggs, jupyterUrl);
    forall j, y | 0 <= j < |cmds| && y in Keys(cmds[j]) ensures LessEq("?", y) {
      if y != "?" {
        assert '?' < y[0];
      }
    }
    LeastKeyHeadsListing(cmds, 2, "?");
  }

  /** One more command: it is kept exactly when no kept command has its name. */
  lemma FirstOfEachNameStep(cs: seq<SlashCommand>, i: nat)
    requires i < |cs|
    ensures FirstOfEachName(cs[..i + 1]) ==
      if cs[i].name in NamesOf(FirstOfEachName(cs[..i])) then FirstOfEachName(cs[..i])
      else FirstOfEachName(cs[..i]) + [cs[i]]
  {
    assert cs[..i + 1][..i] == cs[..i];
  }

  /** The sorted keys of a command map, each of which is a key of the map. */
  lemma SortedKeysAreKeys(commands: Commands)
    requires commands.Valid()
    ensures forall i :: 0 <= i < |Sort(commands.keys)| ==> Sort(commands.keys)[i] in commands.entries
  {
    var ks := Sort(commands.keys);
    forall i | 0 <= i < |ks| ensures ks[i] in commands.entries {
      assert ks[i] in multiset(commands.keys);
    }
  }

  /** The loop over the sorted items with its `shown` set, collecting the commands it lists. */
  method ListedCommands(commands: Commands) returns (listed: seq<SlashCommand>)
    requires commands.Valid()
    ensures listed == Listed(commands)
  {
    var ks := Sort(commands.keys);
    SortedKeysAreKeys(commands);
    ghost var cs := ByKey(commands, ks);
    var shown: set<string> := {};
    listed := [];
    var i := 0;
    while i < |ks|
      invariant 0 <= i <= |ks|
      invariant listed == FirstOfEachName(cs[..i])
      invariant forall x :: x in shown <==> x in NamesOf(listed)
    {
      var cmd := commands.entries[ks[i]];
      ShownStep(cs, i, listed, shown);
      if cmd.name !in shown {
        shown := shown + {cmd.name};
        listed := listed + [cmd];
      }
      i := i + 1;
    }
    assert cs[..i] == cs;
  }

  /** One step of the listing loop: the `shown` set keeps naming exactly the listed commands. */
  lemma ShownStep(cs: seq<SlashCommand>, i: nat, listed: seq<SlashCommand>, shown: set<string>)
    requires i < |cs| && listed == FirstOfEachName(cs[..i])
    requires forall x :: x in shown <==> x in NamesOf(listed)
    ensures cs[i].name in shown ==> FirstOfEachName(cs[..i + 1]) == listed
    ensures cs[i].name !in shown ==> FirstOfEachName(cs[..i + 1]) == listed + [cs[i]]
    ensures cs[i].name !in shown ==> forall x :: x in shown + {cs[i].name} <==> x in NamesOf(listed + [cs[i]])
  {
    FirstOfEachNameStep(cs, i);
    assert NamesOf(listed + [cs[i]]) == NamesOf(listed) + [cs[i].name];
  }

  /** Prints the heading and one line per listed command. */
  method Execute(tux: Tux) returns (next: Option<string>)
    requires tux.Valid()
    modifies tux
    ensures next == None
    ensures var cs := Listed(tux.commands);
      tux.output == old(tux.output) + [HelpHeading] + seq(|cs|, i requires 0 <= i < |cs| => HelpLine(HelpText(cs[i])))
    ensures tux.stats == old(tux.stats) && tux.toolCalls == old(tux.toolCalls) && tux.running == old(tux.running)
    ensures tux.client == old(tux.client) && tux.disconnected == old(tux.disconnected)
    ensures tux.modelName == old(tux.modelName) && tux.contextWindow == old(tux.contextWindow)
    ensures tux.nextHandle == old(tux.nextHandle) && tux.sent == old(tux.sent)
  {
    var cs := ListedCommands(tux.commands);
    tux.output := tux.output + [HelpHeading] + seq(|cs|, i requires 0 <= i < |cs| => HelpLine(HelpText(cs[i])));
    return None;
  }
}

=== FILE: jupyter.dfy ===
/**
 * `/jupyter`: opens the Jupyter server's REST API root. The URL keeps the
 * part before the first "?", without trailing slashes, adds "/api", and puts
 * back the segment between the first and second "?" as the query when that
 * segment is not empty.
 */
module JupyterCommand {
  import opened Wrappers
  import opened Text
  import opened Console
  import opened Registry
  import opened Session

  /** `url.split("?")[0].rstrip("/") + "/api"` */
  function ApiBase(url: string): (b: string)
    ensures '?' !in b
    ensures |b| >= 4 && b[|b| - 4..] == "/api"
    ensures b[..|b| - 4] == RStripChar(url[..IndexOf(url, '?')], '/')
  {
    var head := SplitOn(url, '?')[0];
    var stripped := RStripChar(head, '/');
    assert '?' !in stripped by {
      forall i | 0 <= i < |stripped| ensures stripped[i] != '?' {
        assert stripped[i] == head[i];
      }
    }
    var b := stripped + "/api";
    assert b[..|b| - 4] == stripped;
    b
  }

  /** The query: the second "?"-separated segment, when the URL has a "?" at all. */
  function Query(url: string): (q: Option<string>)
    ensures q.Some? <==> '?' in url
    ensures q.Some? ==> '?' !in q.value
  {
    if '?' in url then Some(SplitOn(url, '?')[1]) else None
  }

  /** The URL the command opens. */
  function ApiUrl(url: string): (r: string)
    ensures StartsWith(r, ApiBase(url))
    ensures Query(url).Some? && Query(url).value != "" ==> r == ApiBase(url) + "?" + Query(url).value
    ensures Query(url).None? || Query(url).value == "" ==> r == ApiBase(url)
    ensures '?' !in url ==> '?' !in r
  {
    var base := ApiBase(url);
    var q := Query(url);
    if q.Some? && q.value != "" then base + "?" + q.value else base
  }

  /** Splitting the opened URL at "?" gives back the base and the query it was built from. */
  lemma ApiUrlSplitsBack(url: string)
    ensures SplitOn(ApiUrl(url), '?')[0] == ApiBase(url)
    ensures Query(url).Some? && Query(url).value != "" ==> SplitOn(ApiUrl(url), '?') == [ApiBase(url), Query(url).value]
    ensures Query(url).None? || Query(url).value == "" ==> SplitOn(ApiUrl(url), '?') == [ApiBase(url)]
  {
    var base := ApiBase(url);
    var q := Query(url);
    if q.Some? && q.value != "" {
      assert base + "?" + q.value == base + ['?'] + q.value;
      SplitOnAfter(base, '?', q.value);
      SplitOnAbsent(q.value, '?');
    } else {
      SplitOnAbsent(base, '?');
    }
  }

  /** Prints and opens the API URL when the session has a Jupyter URL; otherwise only a notice. */
  method Execute(tux: Tux) returns (next: Option<string>)
    modifies tux
    ensures next == None
    ensures Truthy(tux.jupyterUrl) ==> tux.output == old(tux.output) + [Opening(ApiUrl(tux.jupyterUrl.value))]
    ensures !Truthy(tux.jupyterUrl) ==> tux.output == old(tux.output) + [NoJupyter]
    ensures tux.stats == old(tux.stats) && tux.toolCalls == old(tux.toolCalls) && tux.running == old(tux.running)
    ensures tux.client == old(tux.client) && tux.disconnected == old(tux.disconnected)
    ensures tux.modelName == old(tux.modelName) && tux.contextWindow == old(tux.contextWindow)
    ensures tux.nextHandle == old(tux.nextHandle) && tux.sent == old(tux.sent)
  {
    if Truthy(tux.jupyterUrl) {
      tux.output := tux.output + [Opening(ApiUrl(tux.jupyterUrl.value))];
    } else {
      tux.output := tux.output + [NoJupyter];
    }
    return None;
  }
}

=== FILE: numerals.dfy ===
/**
 * Decimal numerals: Python's `int(s)` on a base-10 literal (ASCII digits,
 * an optional sign, single underscores between digits) and `str(n)` for a
 * natural number.
 */
module Numerals {
  import opened Wrappers

  predicate IsDigit(c: char) {
    '0' <= c <= '9'
  }

  predicate AllDigits(s: string) {
    forall i :: 0 <= i < |s| ==> IsDigit(s[i])
  }

  /** Digits, where an underscore may stand only between two digits. */
  predicate ValidNumeral(d: string) {
    |d| > 0 && IsDigit(d[0]) && IsDigit(d[|d| - 1]) &&
    forall i :: 0 <= i < |d| ==> NumeralCharAt(d, i)
  }

  predicate NumeralCharAt(d: string, i: nat)
    requires i < |d|
  {
    IsDigit(d[i]) || (d[i] == '_' && 0 < i < |d| - 1 && IsDigit(d[i - 1]) && IsDigit(d[i + 1]))
  }

  function RemoveUnderscores(d: string): (r: string)
    ensures |r| <= |d|
    ensures (forall i :: 0 <= i < |d| ==> IsDigit(d[i]) || d[i] == '_') ==> AllDigits(r)
    ensures AllDigits(d) ==> r == d
  {
    if |d| == 0 then []
    else if d[0] == '_' then RemoveUnderscores(d[1..])
    else [d[0]] + RemoveUnderscores(d[1..])
  }

  /** The value of a string of decimal digits, most significant first. */
  function DigitsValue(d: string): nat
    requires AllDigits(d)
  {
    if |d| == 0 then 0
    else DigitsValue(d[..|d| - 1]) * 10 + (d[|d| - 1] as int - '0' as int)
  }

  /** `int(s)` for a string already stripped of surrounding whitespace; None where Python raises ValueError. */
  function ParseInt(s: string): (r: Option<int>)
    ensures r.Some? ==> |s| > 0
    ensures |s| > 0 && AllDigits(s) ==> r == Some(DigitsValue(s))
    ensures |s| > 0 && s[0] == '-' && AllDigits(s[1..]) && |s| > 1 ==> r == Some(0 - DigitsValue(s[1..]))
    ensures |s| > 0 && !IsDigit(s[0]) && s[0] != '-' && s[0] != '+' ==> r == None
  {
    var neg := |s| > 0 && s[0] == '-';
    var body := if |s| > 0 && (s[0] == '-' || s[0] == '+') then s[1..] else s;
    if ValidNumeral(body) then
      assert forall i :: 0 <= i < |body| ==> IsDigit(body[i]) || body[i] == '_' by {
        forall i | 0 <= i < |body| ensures IsDigit(body[i]) || body[i] == '_' {
          assert NumeralCharAt(body, i);
        }
      }
      var v: int := DigitsValue(RemoveUnderscores(body));
      Some(if neg then -v else v)
    else None
  }

  function DigitChar(d: nat): char
    requires d < 10
  {
    ('0' as int + d) as char
  }

  /** `str(n)` for `n >= 0`. */
  function NatToString(n: nat): (r: string)
    ensures |r| > 0 && AllDigits(r)
    ensures n >= 10 ==> r[0] != '0'
    decreases n
  {
    if n < 10 then [DigitChar(n)] else NatToString(n / 10) + [DigitChar(n % 10)]
  }

  /** Reading back the decimal form of `n` gives `n`. */
  lemma {:induction false} DigitsValueOfNatToString(n: nat)
    ensures DigitsValue(NatToString(n)) == n
    decreases n
  {
    if n >= 10 {
      var s := NatToString(n);
      DigitsValueOfNatToString(n / 10);
      assert s[..|s| - 1] == NatToString(n / 10);
    }
  }

  /** `int(str(n)) == n` */
  lemma ParseIntNatToString(n: nat)
    ensures ParseInt(NatToString(n)) == Some(n)
  {
    DigitsValueOfNatToString(n);
  }
}

=== FILE: odict.dfy ===
/**
 * Python's `dict`, which remembers the order in which keys were first
 * inserted: assigning to a key already present changes its value and keeps
 * its position.
 */
module OrderedDict {

  datatype Dict<K(==,!new), V> = Dict(keys: seq<K>, entries: map<K, V>) {

    /** Keys are listed once each and are exactly the keys of the map. */
    ghost predicate Valid() {
      (forall i, j :: 0 <= i < j < |keys| ==> keys[i] != keys[j]) &&
      (forall k :: k in entries <==> k in keys)
    }

    /** `d[k] = v` */
    function Put(k: K, v: V): (d: Dict<K, V>)
      requires Valid()
      ensures d.Valid()
      ensures d.entries == entries[k := v]
      ensures k in entries ==> d.keys == keys
      ensures k !in entries ==> d.keys == keys + [k]
    {
      if k in entries then Dict(keys, entries[k := v]) else Dict(keys + [k], entries[k := v])
    }

    /** `list(d.values())`: the values in key order. */
    function Values(): (vs: seq<V>)
      requires Valid()
      ensures |vs| == |keys|
      ensures forall i :: 0 <= i < |keys| ==> vs[i] == entries[keys[i]]
    {
      seq(|keys|, i requires 0 <= i < |keys| => entries[keys[i]])
    }
  }

  function Empty<K(==,!new), V>(): (d: Dict<K, V>)
    ensures d.Valid() && d.keys == [] && d.entries == map[]
  {
    Dict([], map[])
  }
}

=== FILE: registry.dfy ===
/**
 * The slash-command registry: the command record, the attributes each
 * command module declares, the list of modules (fixed, plus the easter-egg
 * and Jupyter ones when enabled) and the name-and-alias map built from them.
 * The same map-building loop appears in the session's own registration of
 * its commands.
 */
module Registry {
  import opened Wrappers
  import opened OrderedDict

  /** The `execute` of each command module; the session binds it to itself. */
  datatype Handler =
    | Context | Clear | Help | Status | Exit | Agents | Tools | McpServers | Skills
    | CodemodeToggle | ContextExport | ToolsLast | Cls | Browser | Suggestions
    | Rain | About | Gif | Jupyter

  /** A registered command. `handler` is None only in a record built without one. */
  datatype SlashCommand = SlashCommand(
    name: string,
    aliases: seq<string>,
    description: string,
    handler: Option<Handler>,
    shortcut: Option<string>)

  /** The attributes a command module declares; `None` is an attribute the module does not define. */
  datatype CommandModule = CommandModule(
    name: string,
    aliases: Option<seq<string>>,
    description: Option<string>,
    shortcut: Option<Option<string>>,
    execute: Handler)

  type Commands = Dict<string, SlashCommand>

  /** The keys a command is registered under: its name, then its aliases. */
  function Keys(c: SlashCommand): seq<string> {
    [c.name] + c.aliases
  }

  /** Python truthiness of an optional string. */
  predicate Truthy(s: Option<string>) {
    s.Some? && |s.value| > 0
  }

  function Module(name: string, aliases: seq<string>, description: string, shortcut: Option<string>, h: Handler): CommandModule {
    CommandModule(name, Some(aliases), Some(description), Some(shortcut), h)
  }

  const ContextModule := Module("context", [], "Visualize current context usage as a colored grid", Some("escape x"), Context)
  const ClearModule := Module("clear", ["reset", "new"], "Clear conversation history and free up context", Some("escape c"), Clear)
  const HelpModule := Module("help", ["?"], "Show available commands", Some("escape h"), Help)
  const StatusModule := Module("status", [], "Show Code AI status including model, tokens, and connectivity", Some("escape s"), Status)
  const ExitModule := Module("exit", ["quit", "q"], "Exit Code AI", Some("escape q"), Exit)
  const AgentsModule := Module("agents", [], "List available agents on the server", Some("escape a"), Agents)
  const ToolsModule := Module("tools", [], "List available tools for the current agent", Some("escape t"), Tools)
  const McpServersModule := Module("mcp-servers", ["mcp"], "List MCP servers and their status", Some("escape m"), McpServers)
  const SkillsModule := Module("skills", [], "List available skills (requires codemode enabled)", Some("escape k"), Skills)
  const CodemodeToggleModule := Module("codemode-toggle", ["codemode"], "Toggle codemode on/off for enhanced code capabilities", Some("escape o"), CodemodeToggle)
  const ContextExportModule := Module("context-export", ["export"], "Export the current context to a CSV file", Some("escape e"), ContextExport)
  const ToolsLastModule := Module("tools-last", ["tl"], "Show details of tool calls from last response", Some("escape l"), ToolsLast)
  const ClsModule := Module("cls", [], "Clear the screen", None, Cls)
  const BrowserModule := Module("browser", [], "Open the Agent chat UI in your browser", Some("escape w"), Browser)
  const SuggestionsModule := Module("suggestions", ["suggest"], "List available suggestions and pick one as next prompt", Some("escape u"), Suggestions)
  const RainModule := Module("rain", [], "Matrix rain animation", Some("escape r"), Rain)
  const AboutModule := Module("about", [], "About Datalayer", Some("escape l"), About)
  const GifModule := Module("gif", [], "Black hole spinning animation", Some("escape g"), Gif)
  const JupyterModule := Module("jupyter", [], "Open the Jupyter server in your browser", Some("escape j"), Jupyter)

  /** The fifteen modules registered in every session, in registration order. */
  function CoreModules(): (r: seq<CommandModule>)
    ensures |r| == 15
  {
    [ContextModule, ClearModule, HelpModule, StatusModule, ExitModule, AgentsModule, ToolsModule,
     McpServersModule, SkillsModule, CodemodeToggleModule, ContextExportModule, ToolsLastModule,
     ClsModule, BrowserModule, SuggestionsModule]
  }

  /** The module list `build_commands` registers. */
  function PackageModules(eggs: bool, jupyterUrl: Option<string>): (r: seq<CommandModule>)
    ensures |r| == 15 + (if eggs then 3 else 0) + (if Truthy(jupyterUrl) then 1 else 0)
    ensures r[..15] == CoreModules()
    ensures eggs ==> r[15..18] == [RainModule, AboutModule, GifModule]
    ensures Truthy(jupyterUrl) <==> JupyterModule in r
    ensures eggs <==> AboutModule in r
  {
    var withEggs := CoreModules() + (if eggs then [RainModule, AboutModule, GifModule] else []);
    var r := withEggs + (if Truthy(jupyterUrl) then [JupyterModule] else []);
    assert r[..15] == CoreModules();
    assert forall i :: 0 <= i < 15 ==> r[i].execute != Jupyter && r[i].execute != About;
    r
  }

  /** The record `build_commands` makes from a module: a missing attribute takes its default. */
  function CommandOf(m: CommandModule): (c: SlashCommand)
    ensures c.name == m.name && c.handler == Some(m.execute)
    ensures m.aliases.None? ==> c.aliases == []
    ensures m.description.None? ==> c.description == ""
    ensures m.shortcut.None? ==> c.shortcut == None
    ensures m.aliases.Some? ==> c.aliases == m.aliases.value
    ensures m.description.Some? ==> c.description == m.description.value
    ensures m.shortcut.Some? ==> c.shortcut == m.shortcut.value
  {
    SlashCommand(m.name, m.aliases.GetOr([]), m.description.GetOr(""), Some(m.execute), m.shortcut.GetOr(None))
  }

  function CommandsOf(ms: seq<CommandModule>): (cs: seq<SlashCommand>)
    ensures |cs| == |ms|
    ensures forall i :: 0 <= i < |ms| ==> cs[i] == CommandOf(ms[i])
  {
    seq(|ms|, i requires 0 <= i < |ms| => CommandOf(ms[i]))
  }

  /** The modules behind the session's own command list: the core minus /suggestions, with /browser last. */
  function SessionModules(eggs: bool, jupyterUrl: Option<string>): (r: seq<CommandModule>)
    ensures |r| == 14 + (if eggs then 3 else 0) + (if Truthy(jupyterUrl) then 1 else 0)
    ensures r[4] == ExitModule && r[|r| - 1] == BrowserModule
    ensures forall i :: 0 <= i < |r| ==> r[i].execute != Suggestions
  {
    var core := [ContextModule, ClearModule, HelpModule, StatusModule, ExitModule, AgentsModule, ToolsModule,
                 McpServersModule, SkillsModule, CodemodeToggleModule, ContextExportModule, ToolsLastModule, ClsModule];
    var eggMods := if eggs then [RainModule, AboutModule, GifModule] else [];
    var jupyterMods := if Truthy(jupyterUrl) then [JupyterModule] else [];
    core + eggMods + jupyterMods + [BrowserModule]
  }

  /** The command list `_register_commands` registers. */
  function SessionCommands(eggs: bool, jupyterUrl: Option<string>): (r: seq<SlashCommand>)
    ensures |r| == 14 + (if eggs then 3 else 0) + (if Truthy(jupyterUrl) then 1 else 0)
    ensures r[|r| - 1] == CommandOf(BrowserModule)
    ensures forall i :: 0 <= i < |r| ==> r[i].handler != Some(Suggestions)
  {
    CommandsOf(SessionModules(eggs, jupyterUrl))
  }

  /** The modules that can follow /exit in the session's list. */
  const AfterExit := [AgentsModule, ToolsModule, McpServersModule, SkillsModule, CodemodeToggleModule,
                      ContextExportModule, ToolsLastModule, ClsModule, RainModule, AboutModule, GifModule,
                      JupyterModule, BrowserModule]

  /** Every module after /exit in the session's list is one of `AfterExit`. */
  lemma SessionModulesAfterExit(eggs: bool, jupyterUrl: Option<string>)
    ensures var ms := SessionModules(eggs, jupyterUrl);
      forall j :: 4 < j < |ms| ==> ms[j] in AfterExit
  {
    var ms := SessionModules(eggs, jupyterUrl);
    forall j | 4 < j < |ms| ensures ms[j] in AfterExit {
      if j < 13 {
        assert ms[j] == AfterExit[j - 5];
      } else if j == |ms| - 1 {
        assert ms[j] == AfterExit[12];
      } else if eggs && j < 16 {
        assert ms[j] == AfterExit[j - 5];
      } else {
        assert ms[j] == AfterExit[11];
      }
    }
  }

  /** None of the modules in `AfterExit` has "exit" among its keys. */
  lemma AfterExitLacksExitKey()
    ensures forall m :: m in AfterExit ==> "exit" !in Keys(CommandOf(m))
  {
  }

  /** Only /exit registers the key "exit" in the session's list. */
  lemma ExitKeyOnlyOnExit(eggs: bool, jupyterUrl: Option<string>)
    ensures var cs := SessionCommands(eggs, jupyterUrl);
      && cs[4].handler == Some(Exit) && "exit" in Keys(cs[4])
      && forall j :: 4 < j < |cs| ==> "exit" !in Keys(cs[j])
  {
    var ms := SessionModules(eggs, jupyterUrl);
    SessionModulesAfterExit(eggs, jupyterUrl);
    AfterExitLacksExitKey();
    assert forall j :: 4 < j < |ms| ==> "exit" !in Keys(CommandOf(ms[j]));
  }

  /** Every key in `ks` starts with a lower-case letter. */
  predicate Lettered(ks: seq<string>)
    decreases |ks|
  {
    |ks| == 0 || (|ks[0]| > 0 && 'a' <= ks[0][0] <= 'z' && Lettered(ks[1..]))
  }

  /** Every key of the module's command starts with a lower-case letter. */
  predicate LetterKeys(m: CommandModule) {
    Lettered(Keys(CommandOf(m)))
  }

  lemma {:induction false} LetteredMember(ks: seq<string>, x: string)
    requires Lettered(ks) && x in ks
    ensures |x| > 0 && 'a' <= x[0] <= 'z'
    decreases |ks|
  {
    if ks[0] != x {
      assert x in ks[1..];
      LetteredMember(ks[1..], x);
    }
  }

  /** The keys of /context, /clear and /status start with a letter. */
  lemma FirstModulesLettered()
    ensures LetterKeys(ContextModule) && LetterKeys(ClearModule) && LetterKeys(StatusModule)
  {
  }

  /** The keys of /exit, /agents and /tools start with a letter. */
  lemma SecondModulesLettered()
    ensures LetterKeys(ExitModule) && LetterKeys(AgentsModule) && LetterKeys(ToolsModule)
  {
  }

  /** The keys of /mcp-servers, /skills and /codemode-toggle start with a letter. */
  lemma ThirdModulesLettered()
    ensures LetterKeys(McpServersModule) && LetterKeys(SkillsModule) && LetterKeys(CodemodeToggleModule)
  {
  }

  /** The keys of /context-export, /tools-last and /cls start with a letter. */
  lemma FourthModulesLettered()
    ensures LetterKeys(ContextExportModule) && LetterKeys(ToolsLastModule) && LetterKeys(ClsModule)
  {
  }

  /** The keys of the optional modules and /browser start with a letter. */
  lemma TailModulesLettered()
    ensures LetterKeys(RainModule) && LetterKeys(AboutModule) && LetterKeys(GifModule) && LetterKeys(JupyterModule)
    ensures LetterKeys(BrowserModule)
  {
  }

  /** The session's list has /help third, and every other module in it has only letter-initial keys. */
  lemma SessionModulesBesideHelp(eggs: bool, jupyterUrl: Option<string>)
    ensures var ms := SessionModules(eggs, jupyterUrl);
      && ms[2] == HelpModule
      && forall j :: 0 <= j < |ms| && j != 2 ==> LetterKeys(ms[j])
  {
    var ms := SessionModules(eggs, jupyterUrl);
    forall j | 0 <= j < |ms| && j != 2 ensures LetterKeys(ms[j]) {
      if j < 4 {
        SessionFirstLettered(eggs, jupyterUrl, j);
      } else if j < 7 {
        SessionSecondLettered(eggs, jupyterUrl, j);
      } else if j < 10 {
        SessionThirdLettered(eggs, jupyterUrl, j);
      } else if j < 13 {
        SessionFourthLettered(eggs, jupyterUrl, j);
      } else {
        SessionTailLettered(eggs, jupyterUrl, j);
      }
    }
  }

  lemma SessionFirstLettered(eggs: bool, jupyterUrl: Option<string>, j: nat)
    requires j < 4 && j != 2
    ensures LetterKeys(SessionModules(eggs, jupyterUrl)[j])
  {
    var ms := SessionModules(eggs, jupyterUrl);
    FirstModulesLettered();
    if j == 0 {
      assert ms[j] == ContextModule;
    } else if j == 1 {
      assert ms[j] == ClearModule;
    } else {
      assert ms[j] == StatusModule;
    }
  }

  lemma SessionSecondLettered(eggs: bool, jupyterUrl: Option<string>, j: nat)
    requires 4 <= j < 7
    ensures LetterKeys(SessionModules(eggs, jupyterUrl)[j])
  {
    var ms := SessionModules(eggs, jupyterUrl);
    SecondModulesLettered();
    if j == 4 {
      assert ms[j] == ExitModule;
    } else if j == 5 {
      assert ms[j] == AgentsModule;
    } else {
      assert ms[j] == ToolsModule;
    }
  }

  lemma SessionThirdLettered(eggs: bool, jupyterUrl: Option<string>, j: nat)
    requires 7 <= j < 10
    ensures LetterKeys(SessionModules(eggs, jupyterUrl)[j])
  {
    var ms := SessionModules(eggs, jupyterUrl);
    ThirdModulesLettered();
    if j == 7 {
      assert ms[j] == McpServersModule;
    } else if j == 8 {
      assert ms[j] == SkillsModule;
    } else {
      assert ms[j] == CodemodeToggleModule;
    }
  }

  lemma SessionFourthLettered(eggs: bool, jupyterUrl: Option<string>, j: nat)
    requires 10 <= j < 13
    ensures LetterKeys(SessionModules(eggs, jupyterUrl)[j])
  {
    var ms := SessionModules(eggs, jupyterUrl);
    FourthModulesLettered();
    if j == 10 {
      assert ms[j] == ContextExportModule;
    } else if j == 11 {
      assert ms[j] == ToolsLastModule;
    } else {
      assert ms[j] == ClsModule;
    }
  }

  lemma SessionTailLettered(eggs: bool, jupyterUrl: Option<string>, j: nat)
    requires 13 <= j < |SessionModules(eggs, jupyterUrl)|
    ensures LetterKeys(SessionModules(eggs, jupyterUrl)[j])
  {
    var ms := SessionModules(eggs, jupyterUrl);
    TailModulesLettered();
    if j == |ms| - 1 {
      assert ms[j] == BrowserModule;
    } else if eggs && j == 13 {
      assert ms[j] == RainModule;
    } else if eggs && j == 14 {
      assert ms[j] == AboutModule;
    } else if eggs && j == 15 {
      assert ms[j] == GifModule;
    } else {
      assert ms[j] == JupyterModule;
    }
  }

  /** In the session's list "?" is a key of /help only, and every other key starts with a letter. */
  lemma SessionKeysFollowQuestion(eggs: bool, jupyterUrl: Option<string>)
    ensures var cs := SessionCommands(eggs, jupyterUrl);
      && cs[2] == CommandOf(HelpModule) && "?" in Keys(cs[2])
      && (forall j, x :: 0 <= j < |cs| && x in Keys(cs[j]) ==> x == "?" || (|x| > 0 && 'a' <= x[0] <= 'z'))
      && (forall j :: 2 < j < |cs| ==> "?" !in Keys(cs[j]))
  {
    var cs := SessionCommands(eggs, jupyterUrl);
    var ms := SessionModules(eggs, jupyterUrl);
    SessionModulesBesideHelp(eggs, jupyterUrl);
    assert Keys(CommandOf(HelpModule)) == ["help", "?"];
    forall j, x | 0 <= j < |cs| && x in Keys(cs[j]) ensures x == "?" || (|x| > 0 && 'a' <= x[0] <= 'z') {
      if j != 2 {
        LetteredMember(Keys(cs[j]), x);
      }
    }
    forall j | 2 < j < |cs| ensures "?" !in Keys(cs[j]) {
      if "?" in Keys(cs[j]) {
        LetteredMember(Keys(cs[j]), "?");
      }
    }
  }

  /** `for k in ks: d[k] = c` */
  function PutAll(d: Commands, ks: seq<string>, c: SlashCommand): (r: Commands)
    requires d.Valid()
    ensures r.Valid()
  {
    if |ks| == 0 then d else PutAll(d, ks[..|ks| - 1], c).Put(ks[|ks| - 1], c)
  }

  /** Registering one command: its name, then each alias, maps to it. */
  function RegisterOne(d: Commands, c: SlashCommand): (r: Commands)
    requires d.Valid()
    ensures r.Valid()
  {
    PutAll(d, Keys(c), c)
  }

  /** The session's registered commands. */
  function SessionRegistry(eggs: bool, jupyterUrl: Option<string>): (r: Commands)
    ensures r.Valid()
  {
    RegisterAll(SessionCommands(eggs, jupyterUrl))
  }

  /** The map after registering `cmds` in order into an empty dict. */
  function RegisterAll(cmds: seq<SlashCommand>): (r: Commands)
    ensures r.Valid()
  {
    if |cmds| == 0 then Empty() else RegisterOne(RegisterAll(cmds[..|cmds| - 1]), cmds[|cmds| - 1])
  }

  /** After `PutAll`, a key of `ks` maps to `c` and every other key is as before. */
  lemma {:induction false} PutAllEntries(d: Commands, ks: seq<string>, c: SlashCommand)
    requires d.Valid()
    ensures forall k :: k in PutAll(d, ks, c).entries <==> k in d.entries || k in ks
    ensures forall k :: k in ks ==> PutAll(d, ks, c).entries[k] == c
    ensures forall k :: k in d.entries && k !in ks ==> PutAll(d, ks, c).entries[k] == d.entries[k]
    decreases |ks|
  {
    if |ks| > 0 {
      PutAllEntries(d, ks[..|ks| - 1], c);
      assert forall k :: k in ks <==> k in ks[..|ks| - 1] || k == ks[|ks| - 1] by {
        assert ks == ks[..|ks| - 1] + [ks[|ks| - 1]];
      }
    }
  }

  /** A key is registered exactly when some command lists it among its name and aliases. */
  lemma {:induction false} RegisterAllDomain(cmds: seq<SlashCommand>, k: string)
    ensures k in RegisterAll(cmds).entries <==> exists i :: 0 <= i < |cmds| && k in Keys(cmds[i])
    decreases |cmds|
  {
    if |cmds| > 0 {
      var init := cmds[..|cmds| - 1];
      var last := cmds[|cmds| - 1];
      RegisterAllDomain(init, k);
      PutAllEntries(RegisterAll(init), Keys(last), last);
      if exists i :: 0 <= i < |cmds| && k in Keys(cmds[i]) {
        var i :| 0 <= i < |cmds| && k in Keys(cmds[i]);
        if i < |cmds| - 1 {
          assert init[i] == cmds[i];
        }
      }
      if exists i :: 0 <= i < |init| && k in Keys(init[i]) {
        var i :| 0 <= i < |init| && k in Keys(init[i]);
        assert cmds[i] == init[i];
      }
    }
  }

  /** On a key collision the command registered last wins. */
  lemma {:induction false} RegisterAllLastWins(cmds: seq<SlashCommand>, i: nat, k: string)
    requires i < |cmds| && k in Keys(cmds[i])
    requires forall j :: i < j < |cmds| ==> k !in Keys(cmds[j])
    ensures k in RegisterAll(cmds).entries && RegisterAll(cmds).entries[k] == cmds[i]
    decreases |cmds|
  {
    var init := cmds[..|cmds| - 1];
    var last := cmds[|cmds| - 1];
    PutAllEntries(RegisterAll(init), Keys(last), last);
    if i < |cmds| - 1 {
      RegisterAllLastWins(init, i, k);
    }
  }

  /** With no two commands sharing a key, every name and alias maps to its own command. */
  lemma AliasTransparent(cmds: seq<SlashCommand>, i: nat, k: string)
    requires i < |cmds| && k in Keys(cmds[i])
    requires forall a, b :: 0 <= a < b < |cmds| ==> forall x :: x in Keys(cmds[a]) ==> x !in Keys(cmds[b])
    ensures k in RegisterAll(cmds).entries && RegisterAll(cmds).entries[k] == cmds[i]
  {
    RegisterAllLastWins(cmds, i, k);
  }

  /** One command's registration: `commands[cmd.name] = cmd`, then each alias. */
  method AddCommand(commands: Commands, cmd: SlashCommand) returns (d: Commands)
    requires commands.Valid()
    ensures d == RegisterOne(commands, cmd)
  {
    d := commands.Put(cmd.name, cmd);
    assert d == PutAll(commands, Keys(cmd)[..1], cmd);
    var i := 0;
    while i < |cmd.aliases|
      invariant 0 <= i <= |cmd.aliases|
      invariant d == PutAll(commands, Keys(cmd)[..i + 1], cmd)
    {
      assert Keys(cmd)[..i + 2][..i + 1] == Keys(cmd)[..i + 1];
      d := d.Put(cmd.aliases[i], cmd);
      i := i + 1;
    }
    assert Keys(cmd)[..i + 1] == Keys(cmd);
  }

  /** The session's registration loop over its own command list. */
  method RegisterCommands(cmds: seq<SlashCommand>) returns (commands: Commands)
    ensures commands == RegisterAll(cmds)
  {
    commands := Empty();
    var i := 0;
    while i < |cmds|
      invariant 0 <= i <= |cmds|
      invariant commands == RegisterAll(cmds[..i])
    {
      assert cmds[..i + 1][..i] == cmds[..i];
      commands := AddCommand(commands, cmds[i]);
      i := i + 1;
    }
    assert cmds[..i] == cmds;
  }

  /** `build_commands`: one record per module, registered in module order. */
  method BuildCommands(eggs: bool, jupyterUrl: Option<string>) returns (commands: Commands)
    ensures commands == RegisterAll(CommandsOf(PackageModules(eggs, jupyterUrl)))
  {
    var modules := PackageModules(eggs, jupyterUrl);
    ghost var cmds := CommandsOf(modules);
    commands := Empty();
    var i := 0;
    while i < |modules|
      invariant 0 <= i <= |modules|
      invariant commands == RegisterAll(cmds[..i])
    {
      var cmd := CommandOf(modules[i]);
      assert cmds[..i + 1][..i] == cmds[..i];
      commands := AddCommand(commands, cmd);
      i := i + 1;
    }
    assert cmds[..i] == cmds;
  }
}

=== FILE: session.dfy ===
/**
 * The terminal session: its statistics, its command map, the AG-UI client
 * handle it keeps for the conversation, the last turn's tool calls and what
 * it has printed. Sending a message runs one turn: connect if needed,
 * consume the event stream, print the tool summary and refresh the token
 * totals from the usage snapshot.
 */
module Session {
  import opened Wrappers
  import opened Text
  import opened Sorting
  import opened OrderedDict
  import opened Registry
  import opened Console
  import opened ToolCalls
  import opened Events

  /** Counters kept for the whole session. */
  datatype SessionStats = SessionStats(
    totalInputTokens: nat,
    totalOutputTokens: nat,
    totalRequests: nat,
    messages: nat,
    toolCalls: nat)
  {
    function TotalTokens(): (n: nat)
      ensures n >= totalInputTokens && n >= totalOutputTokens
    {
      totalInputTokens + totalOutputTokens
    }
  }

  /** A fresh `SessionStats()`: every counter zero. */
  const FreshStats := SessionStats(0, 0, 0, 0, 0)

  /** How connecting to the agent or reading its stream failed. */
  datatype Fault = Refused | Failure(message: string)

  /** The outcome of the usage-snapshot request: no answer at all, or a status code and the fields the body holds. */
  datatype Snapshot =
    | SnapshotFailed
    | SnapshotReply(statusCode: int, inputTokens: Option<nat>, outputTokens: Option<nat>,
                    modelName: Option<string>, contextWindow: Option<int>)

  /**
   * What the outside world does during one turn: whether connecting a new
   * client fails, the events the agent streams, whether the stream then
   * fails, and the snapshot answer.
   */
  datatype Turn = Turn(connect: Option<Fault>, events: seq<Event>, streamFault: Option<Fault>, snapshot: Snapshot)

  function FaultRender(f: Fault): Render {
    match f
    case Refused => ConnectionRefused
    case Failure(m) => TurnFailed(m)
  }

  predicate SnapshotOk(s: Snapshot) {
    s.SnapshotReply? && s.statusCode == 200
  }

  /** The input-token total a snapshot reports; 0 when it failed, was not 200 or omits the field. */
  function SnapshotInputTokens(s: Snapshot): (n: nat)
    ensures !SnapshotOk(s) ==> n == 0
  {
    if SnapshotOk(s) then s.inputTokens.GetOr(0) else 0
  }

  /** The output-token total a snapshot reports; 0 when it failed, was not 200 or omits the field. */
  function SnapshotOutputTokens(s: Snapshot): (n: nat)
    ensures !SnapshotOk(s) ==> n == 0
  {
    if SnapshotOk(s) then s.outputTokens.GetOr(0) else 0
  }

  /** The model name after a snapshot: the reported one unless it is missing or empty. */
  function NextModelName(current: string, s: Snapshot): (r: string)
    ensures r == current || (SnapshotOk(s) && s.modelName == Some(r) && r != "")
  {
    if SnapshotOk(s) && s.modelName.Some? && s.modelName.value != "" then s.modelName.value else current
  }

  /** The context window after a snapshot: the reported one when there is one, else the current one. */
  function NextContextWindow(current: int, s: Snapshot): (r: int)
    ensures SnapshotOk(s) && s.contextWindow.Some? ==> r == s.contextWindow.value
    ensures !(SnapshotOk(s) && s.contextWindow.Some?) ==> r == current
  {
    if SnapshotOk(s) then s.contextWindow.GetOr(current) else current
  }

  /** The summary line, printed only when the turn made tool calls. */
  function SummaryRenders(calls: seq<ToolCallInfo>): seq<Render> {
    if |calls| > 0 then [ToolSummary(calls)] else []
  }

  /** What `show_prompt` reads. */
  datatype Input = Line(text: string) | Interrupt | EndOfInput

  /** The prompt's answer: the stripped line; end of input reads as "/exit" and Ctrl-C as nothing. */
  function PromptText(i: Input): (r: string)
    ensures i.Interrupt? ==> r == ""
    ensures i.EndOfInput? ==> r == "/exit"
    ensures i.Line? ==> r == Strip(i.text)
  {
    match i
    case Line(s) => Strip(s)
    case Interrupt => ""
    case EndOfInput => "/exit"
  }

  class Tux {
    const serverUrl: string
    const agentId: string
    const eggs: bool
    const jupyterUrl: Option<string>
    const commands: Commands

    var stats: SessionStats
    var running: bool
    var modelName: string
    var contextWindow: int
    /** The tool calls of the last turn. */
    var toolCalls: seq<ToolCallInfo>
    /** The AG-UI client kept for the conversation, as a handle; handles are never reused. */
    var client: Option<nat>
    var nextHandle: nat
    /** Every handle disconnected so far, in order. */
    var disconnected: seq<nat>
    /** Every message handed to a client, with the client's handle. */
    var sent: seq<(nat, string)>
    /** Everything printed so far. */
    var output: seq<Render>

    /**
     * The live client is one that was created and never disconnected, and
     * no handle has been disconnected twice.
     */
    ghost predicate Valid()
      reads this
    {
      && commands.Valid()
      && (client.Some? ==> client.value < nextHandle && client.value !in disconnected)
      && (forall i :: 0 <= i < |disconnected| ==> disconnected[i] < nextHandle)
      && Distinct(disconnected)
    }

    constructor (agentServer: string, agent: string, withEggs: bool, jupyter: Option<string>)
      ensures Valid()
      ensures serverUrl == RStripChar(agentServer, '/') && agentId == agent
      ensures eggs == withEggs && jupyterUrl == jupyter
      ensures commands == SessionRegistry(withEggs, jupyter)
      ensures stats == FreshStats && !running && modelName == "unknown" && contextWindow == 128000
      ensures toolCalls == [] && client == None && disconnected == [] && sent == [] && output == []
    {
      var cmds := BuildSessionCommands(withEggs, jupyter);
      serverUrl := RStripChar(agentServer, '/');
      agentId := agent;
      eggs := withEggs;
      jupyterUrl := jupyter;
      commands := cmds;
      stats := FreshStats;
      running := false;
      modelName := "unknown";
      contextWindow := 128000;
      toolCalls := [];
      client := None;
      nextHandle := 0;
      disconnected := [];
      sent := [];
      output := [];
    }

    /** `_register_commands`: the session's own command list, registered in order. */
    static method BuildSessionCommands(withEggs: bool, jupyter: Option<string>) returns (c: Commands)
      ensures c == SessionRegistry(withEggs, jupyter) && c.Valid()
    {
      c := RegisterCommands(SessionCommands(withEggs, jupyter));
    }

    /** Disconnects the live client, if there is one, and forgets it. */
    method DropClient()
      requires Valid()
      modifies this
      ensures Valid()
      ensures client == None
      ensures disconnected == old(disconnected) + (if old(client).Some? then [old(client).value] else [])
      ensures stats == old(stats) && running == old(running) && toolCalls == old(toolCalls)
      ensures modelName == old(modelName) && contextWindow == old(contextWindow)
      ensures nextHandle == old(nextHandle) && sent == old(sent) && output == old(output)
    {
      if client.Some? {
        disconnected := disconnected + [client.value];
        client := None;
      }
    }

    /**
     * One turn. The message count goes up and the last turn's tool calls are
     * dropped before anything can fail. A new client is created when there is
     * none; it is kept even if connecting it fails. The stream is consumed as
     * `Consume` says; unless the stream failed, the summary is printed and the
     * token totals are overwritten with the snapshot's (0 when it failed).
     */
    method SendMessage(message: string, turn: Turn, parse: Parser) returns (responseText: string)
      requires Valid()
      modifies this
      ensures Valid()
      ensures stats.messages == old(stats.messages) + 1
      ensures stats.totalRequests == old(stats.totalRequests)
      ensures running == old(running) && disconnected == old(disconnected)
      ensures old(client).None? ==> client == Some(old(nextHandle)) && nextHandle == old(nextHandle) + 1
      ensures old(client).Some? ==> client == old(client) && nextHandle == old(nextHandle)
      // connecting a new client failed: nothing was sent
      ensures old(client).None? && turn.connect.Some? ==>
        && toolCalls == [] && responseText == "" && sent == old(sent)
        && stats == old(stats).(messages := old(stats.messages) + 1)
        && modelName == old(modelName) && contextWindow == old(contextWindow)
        && output == old(output) + [FaultRender(turn.connect.value)]
      // the message went out: the stream was consumed
      ensures old(client).Some? || turn.connect.None? ==>
        var t := Consume(Start(old(output)), turn.events, parse);
        var failed := t.phase == Streaming && turn.streamFault.Some?;
        && sent == old(sent) + [(client.value, message)]
        && toolCalls == t.calls && responseText == t.text
        && stats.toolCalls == old(stats.toolCalls) + |t.calls|
        && (failed ==>
              && output == t.out + [FaultRender(turn.streamFault.value)]
              && stats.totalInputTokens == old(stats.totalInputTokens)
              && stats.totalOutputTokens == old(stats.totalOutputTokens)
              && modelName == old(modelName) && contextWindow == old(contextWindow))
        && (!failed ==>
              var inTokens := SnapshotInputTokens(turn.snapshot);
              var outTokens := SnapshotOutputTokens(turn.snapshot);
              && output == t.out + SummaryRenders(t.calls) + [Usage(inTokens + outTokens, inTokens, outTokens)]
              && stats.totalInputTokens == inTokens && stats.totalOutputTokens == outTokens
              && modelName == NextModelName(old(modelName), turn.snapshot)
              && contextWindow == NextContextWindow(old(contextWindow), turn.snapshot))
    {
      stats := stats.(messages := stats.messages + 1);
      toolCalls := [];
      responseText := "";
      if client.None? {
        client := Some(nextHandle);
        nextHandle := nextHandle + 1;
        if turn.connect.Some? {
          output := output + [FaultRender(turn.connect.value)];
          return;
        }
      }
      responseText := Deliver(message, turn, parse);
    }

    /**
     * The message goes out on the live client and the stream is consumed;
     * unless the stream failed, the turn is finished with the snapshot. The
     * `sent` log is appended after the stream loop, which does not touch it.
     */
    method Deliver(message: string, turn: Turn, parse: Parser) returns (responseText: string)
      requires client.Some?
      modifies this
      ensures client == old(client) && nextHandle == old(nextHandle)
      ensures running == old(running) && disconnected == old(disconnected)
      ensures sent == old(sent) + [(client.value, message)]
      ensures var t := Consume(Start(old(output)), turn.events, parse);
        && toolCalls == t.calls && responseText == t.text
        && stats.toolCalls == old(stats.toolCalls) + |t.calls|
        && stats.messages == old(stats.messages) && stats.totalRequests == old(stats.totalRequests)
      ensures var t := Consume(Start(old(output)), turn.events, parse);
        t.phase == Streaming && turn.streamFault.Some? ==>
          && output == t.out + [FaultRender(turn.streamFault.value)]
          && stats.totalInputTokens == old(stats.totalInputTokens)
          && stats.totalOutputTokens == old(stats.totalOutputTokens)
          && modelName == old(modelName) && contextWindow == old(contextWindow)
      ensures var t := Consume(Start(old(output)), turn.events, parse);
        !(t.phase == Streaming && turn.streamFault.Some?) ==>
          var inTokens := SnapshotInputTokens(turn.snapshot);
          var outTokens := SnapshotOutputTokens(turn.snapshot);
          && output == t.out + SummaryRenders(t.calls) + [Usage(inTokens + outTokens, inTokens, outTokens)]
          && stats.totalInputTokens == inTokens && stats.totalOutputTokens == outTokens
          && modelName == NextModelName(old(modelName), turn.snapshot)
          && contextWindow == NextContextWindow(old(contextWindow), turn.snapshot)
    {
      var phase;
      responseText, phase := StreamEvents(turn.events, parse);
      sent := sent + [(client.value, message)];
      if phase == Streaming && turn.streamFault.Some? {
        output := output + [FaultRender(turn.streamFault.value)];
        return;
      }
      FinishTurn(turn.snapshot);
    }

    /** The first record with this id, found as the source's `for tc in self.tool_calls` does. */
    static method FindFirst(calls: seq<ToolCallInfo>, key: string) returns (k: nat)
      ensures k == FindCall(calls, key)
      ensures k < |calls| ==> calls[k].toolCallId == key
    {
      k := 0;
      while k < |calls| && calls[k].toolCallId != key
        invariant 0 <= k <= |calls|
        invariant forall m :: 0 <= m < k ==> calls[m].toolCallId != key
      {
        k := k + 1;
      }
    }

    /**
     * One event of the stream, applied to the session's records and output
     * and to the loop's locals; exactly `Apply`. Each start adds one to the
     * session's tool-call counter.
     */
    method ApplyEvent(e: Event, parse: Parser, current: Option<nat>, text: string)
      returns (current': Option<nat>, text': string, phase': Phase)
      requires InFlightIsLast(TurnState(toolCalls, current, text, output, Streaming))
      modifies this
      ensures TurnState(toolCalls, current', text', output, phase')
           == Apply(TurnState(old(toolCalls), current, text, old(output), Streaming), e, parse)
      ensures |toolCalls| >= |old(toolCalls)|
      ensures stats == old(stats).(toolCalls := old(stats.toolCalls) + |toolCalls| - |old(toolCalls)|)
      ensures running == old(running) && modelName == old(modelName) && contextWindow == old(contextWindow)
      ensures client == old(client) && nextHandle == old(nextHandle)
      ensures disconnected == old(disconnected) && sent == old(sent)
    {
      current', text', phase' := current, text, Streaming;
      match e {
        case TextMessageContent(delta) =>
          var content := Or(delta, "");
          text' := text + content;
          output := output + [Text(content)];
        case ToolCallStart(id, name) =>
          var call := ToolCallInfo(Or(id, ""), Or(name, "tool"), "", None, InProgress, false);
          toolCalls := toolCalls + [call];
          current' := Some(|toolCalls| - 1);
          stats := stats.(toolCalls := stats.toolCalls + 1);
          output := output + [ToolStart(|toolCalls|, call.toolName)];
        case ToolCallArgs(_, delta) =>
          if current.Some? {
            var j := current.value;
            toolCalls := toolCalls[j := toolCalls[j].(argsJson := toolCalls[j].argsJson + Or(delta, ""))];
          }
        case ToolCallEnd(_) =>
          if current.Some? {
            var args := toolCalls[current.value].argsJson;
            output := output + [ToolArgs(FormatArgs(args, parse(args), 50))];
          }
        case ToolCallResult(id, result) =>
          var k := FindFirst(toolCalls, Or(id, ""));
          if k < |toolCalls| {
            var r := Or(result, "");
            toolCalls := toolCalls[k := toolCalls[k].(result := Some(r), status := Complete)];
            output := output + [ToolResult(ResultPreview(r))];
          }
          current' := None;
        case RunFinished =>
          phase' := Finished;
        case RunError(error) =>
          if current.Some? {
            toolCalls := toolCalls[current.value := toolCalls[current.value].(status := Error)];
          }
          output := output + [Render.RunError(ErrorText(error))];
          phase' := Failed;
        case OtherEvent =>
      }
    }

    /**
     * The `async for` over the stream: events are applied until one ends the
     * turn, so the records, the text and the output are those of `Consume`
     * from a fresh turn.
     */
    method StreamEvents(events: seq<Event>, parse: Parser) returns (text: string, phase: Phase)
      modifies this
      ensures var t := Consume(Start(old(output)), events, parse);
        toolCalls == t.calls && text == t.text && output == t.out && phase == t.phase
      ensures stats == old(stats).(toolCalls := old(stats.toolCalls) + |toolCalls|)
      ensures running == old(running) && modelName == old(modelName) && contextWindow == old(contextWindow)
      ensures client == old(client) && nextHandle == old(nextHandle)
      ensures disconnected == old(disconnected) && sent == old(sent)
    {
      toolCalls := [];
      var current: Option<nat> := None;
      text, phase := "", Streaming;
      var i := 0;
      while i < |events| && phase == Streaming
        invariant 0 <= i <= |events|
        invariant InFlightIsLast(TurnState(toolCalls, current, text, output, phase))
        invariant Consume(Start(old(output)), events, parse)
               == Consume(TurnState(toolCalls, current, text, output, phase), events[i..], parse)
        invariant stats == old(stats).(toolCalls := old(stats.toolCalls) + |toolCalls|)
        invariant running == old(running) && modelName == old(modelName) && contextWindow == old(contextWindow)
        invariant client == old(client) && nextHandle == old(nextHandle)
        invariant disconnected == old(disconnected) && sent == old(sent)
      {
        ghost var before := TurnState(toolCalls, current, text, output, phase);
        current, text, phase := ApplyEvent(events[i], parse, current, text);
        ApplyKeepsInFlightLast(before, events[i], parse);
        assert events[i..][1..] == events[i + 1..];
        i := i + 1;
      }
    }

    /** After a stream that did not fail: the summary, the snapshot's totals (overwriting, 0 on failure) and the usage footer. */
    method FinishTurn(snapshot: Snapshot)
      modifies this
      ensures var inTokens := SnapshotInputTokens(snapshot);
        var outTokens := SnapshotOutputTokens(snapshot);
        output == old(output) + SummaryRenders(toolCalls) + [Usage(inTokens + outTokens, inTokens, outTokens)]
      ensures stats == old(stats).(totalInputTokens := SnapshotInputTokens(snapshot), totalOutputTokens := SnapshotOutputTokens(snapshot))
      ensures output[|output| - 1] == Usage(stats.TotalTokens(), stats.totalInputTokens, stats.totalOutputTokens)
      ensures modelName == NextModelName(old(modelName), snapshot)
      ensures contextWindow == NextContextWindow(old(contextWindow), snapshot)
      ensures toolCalls == old(toolCalls) && running == old(running)
      ensures client == old(client) && nextHandle == old(nextHandle)
      ensures disconnected == old(disconnected) && sent == old(sent)
    {
      var summary := SummaryRenders(toolCalls);
      var inTokens, outTokens := 0, 0;
      if SnapshotOk(snapshot) {
        inTokens := snapshot.inputTokens.GetOr(0);
        outTokens := snapshot.outputTokens.GetOr(0);
        var reported := snapshot.modelName;
        if reported.Some? && reported.value != "" {
          modelName := reported.value;
        }
        contextWindow := snapshot.contextWindow.GetOr(contextWindow);
      }
      assert inTokens == SnapshotInputTokens(snapshot) && outTokens == SnapshotOutputTokens(snapshot);
      stats := stats.(totalInputTokens := inTokens, totalOutputTokens := outTokens);
      output := output + summary + [Usage(inTokens + outTokens, inTokens, outTokens)];
    }
  }
}

=== FILE: shortcuts.dfy ===
/**
 * The key-binding table: each command with a shortcut binds its key sequence
 * to its name, walking the command map's values in order. A command whose
 * name is already bound is skipped, and a later command with the same key
 * sequence takes it over.
 */
module Shortcuts {
  import opened Wrappers
  import opened Text
  import opened Sorting
  import opened OrderedDict
  import opened Registry

  /** Key sequences (such as ["escape", "x"]) to command names. */
  type Bindings = Dict<seq<string>, string>

  /** One step of the walk over the command values. */
  function Bind(m: Bindings, c: SlashCommand): (r: Bindings)
    requires m.Valid()
    ensures r.Valid()
  {
    if Truthy(c.shortcut) && c.name !in m.Values() then m.Put(SplitWords(c.shortcut.value), c.name) else m
  }

  /** The table after walking `cs` in order from an empty one. */
  function BindAll(cs: seq<SlashCommand>): (r: Bindings)
    ensures r.Valid()
  {
    if |cs| == 0 then Empty() else Bind(BindAll(cs[..|cs| - 1]), cs[|cs| - 1])
  }

  /** The loop that fills the table from the values of the command map. */
  method ShortcutMap(commands: Commands) returns (m: Bindings)
    requires commands.Valid()
    ensures m == BindAll(commands.Values())
  {
    var cs := commands.Values();
    m := Empty();
    var i := 0;
    while i < |cs|
      invariant 0 <= i <= |cs|
      invariant m == BindAll(cs[..i])
    {
      assert cs[..i + 1][..i] == cs[..i];
      var c := cs[i];
      if Truthy(c.shortcut) && c.name !in m.Values() {
        var keys := SplitWords(c.shortcut.value);
        m := m.Put(keys, c.name);
      }
      i := i + 1;
    }
    assert cs[..i] == cs;
  }

  /** Binding a name that is not bound yet keeps every name bound at most once. */
  lemma PutFreshNameKeepsDistinct(m: Bindings, k: seq<string>, name: string)
    requires m.Valid() && Distinct(m.Values()) && name !in m.Values()
    ensures Distinct(m.Put(k, name).Values())
  {
    var vs, ws := m.Values(), m.Put(k, name).Values();
    if k in m.entries {
      forall i, j | 0 <= i < j < |ws| ensures ws[i] != ws[j] {
        if m.keys[i] == k {
          assert ws[i] == name && ws[j] == vs[j];
        } else if m.keys[j] == k {
          assert ws[j] == name && ws[i] == vs[i];
        } else {
          assert ws[i] == vs[i] && ws[j] == vs[j];
        }
      }
    } else {
      assert ws == vs + [name];
    }
  }

  /** No command name is bound to two key sequences. */
  lemma {:induction false} BoundNamesDistinct(cs: seq<SlashCommand>)
    ensures Distinct(BindAll(cs).Values())
    decreases |cs|
  {
    if |cs| > 0 {
      var m := BindAll(cs[..|cs| - 1]);
      BoundNamesDistinct(cs[..|cs| - 1]);
      var c := cs[|cs| - 1];
      if Truthy(c.shortcut) && c.name !in m.Values() {
        PutFreshNameKeepsDistinct(m, SplitWords(c.shortcut.value), c.name);
      }
    }
  }

  /** Every binding names a command that has that key sequence as its shortcut. */
  lemma {:induction false} BindingsComeFromCommands(cs: seq<SlashCommand>, k: seq<string>)
    requires k in BindAll(cs).entries
    ensures exists i :: (0 <= i < |cs| && cs[i].name == BindAll(cs).entries[k] &&
      Truthy(cs[i].shortcut) && SplitWords(cs[i].shortcut.value) == k)
    decreases |cs|
  {
    var init := cs[..|cs| - 1];
    var c := cs[|cs| - 1];
    var m := BindAll(init);
    if Truthy(c.shortcut) && c.name !in m.Values() && SplitWords(c.shortcut.value) == k {
      assert cs[|cs| - 1] == c;
    } else {
      BindingsComeFromCommands(init, k);
      var i :| 0 <= i < |init| && init[i].name == m.entries[k] &&
        Truthy(init[i].shortcut) && SplitWords(init[i].shortcut.value) == k;
      assert cs[i] == init[i];
    }
  }

  /** Command `j` of the walk binds key sequence `k`: it has that shortcut and its name is not bound yet. */
  predicate BindsAt(cs: seq<SlashCommand>, j: nat, k: seq<string>)
    requires j < |cs|
  {
    Truthy(cs[j].shortcut) && SplitWords(cs[j].shortcut.value) == k && cs[j].name !in BindAll(cs[..j]).Values()
  }

  /**
   * When two commands share a key sequence, the later one that binds it
   * wins: a key sequence maps to the name of the last command that binds it.
   */
  lemma {:induction false} LastBinderWins(cs: seq<SlashCommand>, i: nat, k: seq<string>)
    requires i < |cs| && BindsAt(cs, i, k)
    requires forall j :: i < j < |cs| ==> !BindsAt(cs, j, k)
    ensures k in BindAll(cs).entries && BindAll(cs).entries[k] == cs[i].name
    decreases |cs|
  {
    var init := cs[..|cs| - 1];
    if i < |cs| - 1 {
      forall j | i < j < |init| ensures !BindsAt(init, j, k) {
        assert init[..j] == cs[..j];
        assert !BindsAt(cs, j, k);
      }
      assert init[..i] == cs[..i];
      LastBinderWins(init, i, k);
      assert !BindsAt(cs, |cs| - 1, k);
      assert cs[..|cs| - 1] == init;
    } else {
      assert cs[..i] == init;
    }
  }
}

=== FILE: sorting.dfy ===
/**
 * Python's ordering of `str` values (code point by code point, a proper prefix
 * sorting first) and `sorted()` on a list of strings.
 */
module Sorting {

  /** `a < b` on Python strings. */
  predicate Less(a: string, b: string)
    decreases |a|
  {
    if |a| == 0 then |b| > 0
    else if |b| == 0 then false
    else if a[0] != b[0] then a[0] < b[0]
    else Less(a[1..], b[1..])
  }

  predicate LessEq(a: string, b: string) {
    a == b || Less(a, b)
  }

  lemma {:induction false} LessIrreflexive(a: string)
    ensures !Less(a, a)
    decreases |a|
  {
    if |a| > 0 {
      LessIrreflexive(a[1..]);
    }
  }

  lemma {:induction false} LessTransitive(a: string, b: string, c: string)
    requires Less(a, b) && Less(b, c)
    ensures Less(a, c)
    decreases |a|
  {
    if |a| > 0 && a[0] == b[0] && b[0] == c[0] {
      LessTransitive(a[1..], b[1..], c[1..]);
    }
  }

  /** Any two strings are equal or ordered one way or the other. */
  lemma {:induction false} LessTotal(a: string, b: string)
    ensures a == b || Less(a, b) || Less(b, a)
    decreases |a|
  {
    if |a| > 0 && |b| > 0 && a[0] == b[0] {
      LessTotal(a[1..], b[1..]);
      if a[1..] == b[1..] {
        assert a == [a[0]] + a[1..] && b == [b[0]] + b[1..];
      }
    }
  }

  lemma {:induction false} LessAsymmetric(a: string, b: string)
    requires Less(a, b)
    ensures !Less(b, a) && a != b
  {
    if Less(b, a) {
      LessTransitive(a, b, a);
      LessIrreflexive(a);
    }
    if a == b {
      LessIrreflexive(a);
    }
  }

  /** Ascending in Python's order. */
  predicate Sorted(s: seq<string>) {
    forall i, j :: 0 <= i < j < |s| ==> LessEq(s[i], s[j])
  }

  /** Ascending with no repeats. */
  predicate StrictlySorted(s: seq<string>) {
    forall i, j :: 0 <= i < j < |s| ==> Less(s[i], s[j])
  }

  predicate Distinct<T(==)>(s: seq<T>) {
    forall i, j :: 0 <= i < j < |s| ==> s[i] != s[j]
  }

  /** Puts `x` in its place in an ascending list, before every element it is smaller than. */
  function Insert(x: string, s: seq<string>): (r: seq<string>)
    requires Sorted(s)
    ensures Sorted(r)
    ensures multiset(r) == multiset(s) + multiset{x}
    ensures |r| == |s| + 1
  {
    if |s| == 0 then [x]
    else if LessEq(x, s[0]) then
      assert forall j :: 0 < j < |s| ==> LessEq(x, s[j]) by {
        forall j | 0 < j < |s| ensures LessEq(x, s[j]) {
          if x != s[0] && s[0] != s[j] { LessTransitive(x, s[0], s[j]); }
        }
      }
      [x] + s
    else
      var rest := Insert(x, s[1..]);
      LessTotal(x, s[0]);
      assert multiset(rest) == multiset(s[1..]) + multiset{x};
      assert s == [s[0]] + s[1..];
      assert forall j :: 0 <= j < |rest| ==> LessEq(s[0], rest[j]) by {
        forall j | 0 <= j < |rest| ensures LessEq(s[0], rest[j]) {
          assert rest[j] in multiset(rest);
          if rest[j] != x {
            assert rest[j] in multiset(s[1..]);
            var k :| 0 <= k < |s[1..]| && s[1..][k] == rest[j];
            assert s[k + 1] == rest[j];
          }
        }
      }
      [s[0]] + rest
  }

  /** `sorted(s)` */
  function Sort(s: seq<string>): (r: seq<string>)
    ensures Sorted(r)
    ensures multiset(r) == multiset(s)
    ensures |r| == |s|
  {
    if |s| == 0 then []
    else
      assert s == s[..|s| - 1] + [s[|s| - 1]];
      Insert(s[|s| - 1], Sort(s[..|s| - 1]))
  }

  /** A sorted list whose elements are distinct is strictly ascending. */
  lemma SortedDistinctIsStrict(s: seq<string>)
    requires Sorted(s) && Distinct(s)
    ensures StrictlySorted(s)
  {
  }

  /** Sorting keeps distinct elements distinct. */
  lemma {:induction false} SortKeepsDistinct(s: seq<string>)
    requires Distinct(s)
    ensures Distinct(Sort(s)) && StrictlySorted(Sort(s))
  {
    var r := Sort(s);
    forall i, j | 0 <= i < j < |r| ensures r[i] != r[j] {
      if r[i] == r[j] {
        assert multiset(r)[r[i]] >= 2 by {
          assert r == r[..i] + [r[i]] + r[i + 1..];
          assert r[j] in r[i + 1..] by { assert r[i + 1..][j - i - 1] == r[j]; }
        }
        DistinctCountOne(s, r[i]);
        assert false;
      }
    }
  }

  lemma {:induction false} DistinctCountOne(s: seq<string>, x: string)
    requires Distinct(s)
    ensures multiset(s)[x] <= 1
    decreases |s|
  {
    if |s| > 0 {
      assert s == [s[0]] + s[1..];
      DistinctCountOne(s[1..], x);
      if s[0] == x {
        assert forall k :: 0 <= k < |s[1..]| ==> s[1..][k] != x by {
          forall k | 0 <= k < |s[1..]| ensures s[1..][k] != x {
            assert s[1..][k] == s[k + 1];
          }
        }
        assert x !in s[1..];
      }
    }
  }
}

=== FILE: suggestions.dfy ===
/**
 * `/suggestions`: lists the agent's suggestions, numbered from 1, and reads
 * lines until one picks a suggestion or cancels. An empty line, Ctrl-C or
 * end of input cancels; anything that is not a number in range prints a
 * hint and asks again.
 */
module SuggestionsCommand {
  import opened Wrappers
  import opened Text
  import opened Numerals
  import opened Console
  import opened Session

  /** The suggestions request: failed, or the list the agent spec holds. */
  datatype Fetch = FetchFailed | Fetched(suggestions: seq<string>)

  /** What the picker does with the lines it reads: its choice, what it printed, how many lines it read. */
  datatype Outcome = Outcome(choice: Option<string>, printed: seq<Render>, read: nat)

  /** What one read gives the picker: the stripped line, or None for Ctrl-C and end of input. */
  function Read(input: Input): (r: Option<string>)
    ensures input.Line? ==> r == Some(Strip(input.text))
    ensures !input.Line? ==> r == None
  {
    if input.Line? then Some(Strip(input.text)) else None
  }

  /** How the picker answers one read: cancel, pick a suggestion, or hint and ask again. */
  datatype Answer = Cancel | Picked(choice: string) | Retry

  /**
   * Ctrl-C, end of input and an empty line cancel; a number k between 1
   * and the count picks the k-th suggestion; anything else (another
   * number, or not a number) asks again.
   */
  function AnswerOf(read: Option<string>, suggestions: seq<string>): (a: Answer)
    ensures a.Picked? ==> a.choice in suggestions
    ensures read.None? || read.value == "" ==> a == Cancel
  {
    if read.None? || read.value == "" then Cancel
    else
      var n := ParseInt(read.value);
      if n.Some? && 1 <= n.value <= |suggestions| then Picked(suggestions[n.value - 1]) else Retry
  }

  /** The answers the picker gives to a run of input lines, one per line. */
  function Answers(lines: seq<Input>, suggestions: seq<string>): (r: seq<Answer>)
    ensures |r| == |lines|
    decreases |lines|
  {
    if |lines| == 0 then [] else [AnswerOf(Read(lines[0]), suggestions)] + Answers(lines[1..], suggestions)
  }

  /** The i-th answer is the answer to the i-th line. */
  lemma {:induction false} AnswersAt(lines: seq<Input>, suggestions: seq<string>, i: nat)
    requires i < |lines|
    ensures Answers(lines, suggestions)[i] == AnswerOf(Read(lines[i]), suggestions)
    decreases i
  {
    if i > 0 {
      AnswersAt(lines[1..], suggestions, i - 1);
      assert lines[1..][i - 1] == lines[i];
    }
  }

  /** The prompt loop over the answers; running out of lines reads as end of input. */
  function Pick(count: nat, answers: seq<Answer>): (o: Outcome)
    ensures o.read <= |answers|
    ensures o.read == 0 <==> |answers| == 0
    ensures |o.printed| > 0 && (o.choice.None? ==> o.printed[|o.printed| - 1] == Cancelled)
    decreases |answers|
  {
    if |answers| == 0 then Outcome(None, [Cancelled], 0)
    else match answers[0]
      case Cancel => Outcome(None, [Cancelled], 1)
      case Picked(choice) => Outcome(Some(choice), [Prompting(choice)], 1)
      case Retry =>
        var rest := Pick(count, answers[1..]);
        Outcome(rest.choice, [NumberHint(count)] + rest.printed, rest.read + 1)
  }

  /** What the picker does with the input lines. */
  function PickFrom(suggestions: seq<string>, lines: seq<Input>): (o: Outcome)
    ensures o.read <= |lines|
    ensures o.read == 0 <==> |lines| == 0
    ensures |o.printed| > 0 && (o.choice.None? ==> o.printed[|o.printed| - 1] == Cancelled)
  {
    Pick(|suggestions|, Answers(lines, suggestions))
  }

  /** The picker only ever returns one of the suggestions. */
  lemma {:induction false} PickChoosesSuggestion(suggestions: seq<string>, lines: seq<Input>)
    ensures var o := PickFrom(suggestions, lines);
      o.choice.Some? ==> o.choice.value in suggestions
    decreases |lines|
  {
    if |lines| > 0 {
      var answers := Answers(lines, suggestions);
      assert answers[1..] == Answers(lines[1..], suggestions);
      PickChoosesSuggestion(suggestions, lines[1..]);
    }
  }

  /** A line that strips to a number k between 1 and the count picks the k-th suggestion. */
  lemma PickNumber(suggestions: seq<string>, lines: seq<Input>, k: int)
    requires |lines| > 0 && lines[0].Line? && ParseInt(Strip(lines[0].text)) == Some(k) && 1 <= k <= |suggestions|
    ensures PickFrom(suggestions, lines) == Outcome(Some(suggestions[k - 1]), [Prompting(suggestions[k - 1])], 1)
  {
    var answers := Answers(lines, suggestions);
    AnswersAt(lines, suggestions, 0);
    assert answers[0] == Picked(suggestions[k - 1]);
    PickAtStop(|suggestions|, answers, 0);
    assert answers[0..] == answers;
  }

  /** An empty or blank line, Ctrl-C or end of input cancels at once. */
  lemma PickCancels(suggestions: seq<string>, lines: seq<Input>)
    requires |lines| == 0 || !lines[0].Line? || Strip(lines[0].text) == ""
    ensures PickFrom(suggestions, lines).choice == None
    ensures PickFrom(suggestions, lines).printed == [Cancelled]
    ensures PickFrom(suggestions, lines).read == if |lines| == 0 then 0 else 1
  {
  }

  /** Any other line prints the hint and the picker reads the next line. */
  lemma PickRetries(suggestions: seq<string>, lines: seq<Input>)
    requires |lines| > 0 && lines[0].Line? && Strip(lines[0].text) != ""
    requires var n := ParseInt(Strip(lines[0].text)); !(n.Some? && 1 <= n.value <= |suggestions|)
    ensures var o := PickFrom(suggestions, lines[1..]);
      PickFrom(suggestions, lines) == Outcome(o.choice, [NumberHint(|suggestions|)] + o.printed, o.read + 1)
  {
    var answers := Answers(lines, suggestions);
    AnswersAt(lines, suggestions, 0);
    assert answers[0] == Retry;
    PickAtRetry(|suggestions|, answers, 0);
    assert answers[0..] == answers;
    assert answers[1..] == Answers(lines[1..], suggestions);
  }

  /** The numbered listing. */
  function Listing(suggestions: seq<string>): (r: seq<Render>)
    ensures |r| == |suggestions|
    ensures forall i :: 0 <= i < |r| ==> r[i] == SuggestionItem(i + 1, suggestions[i])
  {
    seq(|suggestions|, i requires 0 <= i < |suggestions| => SuggestionItem(i + 1, suggestions[i]))
  }

  /**
   * A failed fetch or an empty list returns None without reading a line;
   * otherwise the heading with the count and the listing are printed and
   * the prompt loop runs. The choice
   * is returned as the next prompt.
   */
  method Execute(tux: Tux, fetch: Fetch, lines: seq<Input>) returns (next: Option<string>, read: nat)
    modifies tux
    ensures fetch.FetchFailed? ==> next == None && read == 0 && tux.output == old(tux.output) + [SuggestionsFailed]
    ensures fetch.Fetched? && |fetch.suggestions| == 0 ==>
      next == None && read == 0 && tux.output == old(tux.output) + [NoSuggestions]
    ensures fetch.Fetched? && |fetch.suggestions| > 0 ==>
      var o := PickFrom(fetch.suggestions, lines);
      && next == o.choice && read == o.read
      && tux.output == old(tux.output) + [SuggestionsHeading(|fetch.suggestions|)] + Listing(fetch.suggestions) + o.printed
    ensures next.Some? ==> fetch.Fetched? && next.value in fetch.suggestions
    ensures tux.stats == old(tux.stats) && tux.toolCalls == old(tux.toolCalls) && tux.running == old(tux.running)
    ensures tux.client == old(tux.client) && tux.disconnected == old(tux.disconnected)
    ensures tux.modelName == old(tux.modelName) && tux.contextWindow == old(tux.contextWindow)
    ensures tux.nextHandle == old(tux.nextHandle) && tux.sent == old(tux.sent)
  {
    if fetch.FetchFailed? {
      tux.output := tux.output + [SuggestionsFailed];
      return None, 0;
    }
    var suggestions := fetch.suggestions;
    if |suggestions| == 0 {
      tux.output := tux.output + [NoSuggestions];
      return None, 0;
    }
    tux.output := tux.output + [SuggestionsHeading(|suggestions|)] + Listing(suggestions);
    var printed;
    next, printed, read := Prompt(suggestions, lines);
    PickChoosesSuggestion(suggestions, lines);
    tux.output := tux.output + printed;
  }

  /** Reads line `i` and answers it. */
  method AnswerLine(suggestions: seq<string>, lines: seq<Input>, i: nat) returns (a: Answer)
    requires i < |lines|
    ensures a == Answers(lines, suggestions)[i]
  {
    AnswersAt(lines, suggestions, i);
    a := AnswerOf(Read(lines[i]), suggestions);
  }

  /** The picker at answer `i` when that answer asks again: the hint, then the picker at `i + 1`. */
  lemma PickAtRetry(count: nat, answers: seq<Answer>, i: nat)
    requires i < |answers| && answers[i].Retry?
    ensures var o := Pick(count, answers[i + 1..]);
      Pick(count, answers[i..]) == Outcome(o.choice, [NumberHint(count)] + o.printed, o.read + 1)
  {
    assert answers[i..][1..] == answers[i + 1..];
  }

  /** The picker at answer `i` when that answer cancels or picks: it stops there. */
  lemma PickAtStop(count: nat, answers: seq<Answer>, i: nat)
    requires i < |answers| && !answers[i].Retry?
    ensures answers[i].Cancel? ==> Pick(count, answers[i..]) == Outcome(None, [Cancelled], 1)
    ensures answers[i].Picked? ==>
      Pick(count, answers[i..]) == Outcome(Some(answers[i].choice), [Prompting(answers[i].choice)], 1)
  {
    assert answers[i..][0] == answers[i];
  }

  /**
   * The `while True` prompt loop: reads lines until one cancels or picks,
   * and returns the choice, what the prompt printed and how many lines it read.
   */
  method Prompt(suggestions: seq<string>, lines: seq<Input>) returns (next: Option<string>, printed: seq<Render>, read: nat)
    ensures Outcome(next, printed, read) == PickFrom(suggestions, lines)
  {
    ghost var answers := Answers(lines, suggestions);
    ghost var count := |suggestions|;
    ghost var goal := Pick(count, answers);
    printed := [];
    read := 0;
    var answer := Retry;
    while read < |lines| && answer.Retry?
      invariant 0 <= read <= |lines|
      invariant answer.Retry? ==> var o := Pick(count, answers[read..]);
        goal == Outcome(o.choice, printed + o.printed, o.read + read)
      invariant !answer.Retry? ==> (0 < read && answers[read - 1] == answer
        && var o := Pick(count, answers[read - 1..]);
        goal == Outcome(o.choice, printed + o.printed, o.read + read - 1))
      decreases |lines| - read, if answer.Retry? then 1 else 0
    {
      answer := AnswerLine(suggestions, lines, read);
      if answer.Retry? {
        PickAtRetry(count, answers, read);
        ghost var o1 := Pick(count, answers[read + 1..]);
        assert printed + ([NumberHint(count)] + o1.printed) == (printed + [NumberHint(count)]) + o1.printed;
        printed := printed + [NumberHint(|suggestions|)];
      }
      read := read + 1;
    }
    if answer.Retry? {
      assert answers[read..] == [];
      return None, printed + [Cancelled], read;
    }
    PickAtStop(count, answers, read - 1);
    match answer
    case Cancel =>
      return None, printed + [Cancelled], read;
    case Picked(choice) =>
      return Some(choice), printed + [Prompting(choice)], read;
  }
}

=== FILE: text.dfy ===
/**
 * Python `str` operations used by the terminal client, on `seq<char>`.
 * Case mapping is ASCII only; whitespace is the set of characters for which
 * Python's `str.isspace` holds.
 */
module Text {
  import opened Wrappers

  /** Python's `str.isspace` for one character (the same set `split()` and `strip()` use). */
  predicate IsSpace(c: char) {
    ('\t' <= c <= '\r') || ('\U{1c}' <= c <= '\U{1f}') || c == ' ' || c == '\U{85}' || c == '\U{a0}'
    || c == '\U{1680}' || ('\U{2000}' <= c <= '\U{200a}') || c == '\U{2028}' || c == '\U{2029}'
    || c == '\U{202f}' || c == '\U{205f}' || c == '\U{3000}'
  }

  predicate NoSpace(s: string) {
    forall i :: 0 <= i < |s| ==> !IsSpace(s[i])
  }

  /** `s.startswith(p)` */
  predicate StartsWith(s: string, p: string) {
    |p| <= |s| && s[..|p|] == p
  }

  function LowerChar(c: char): char {
    if 'A' <= c <= 'Z' then (c as int + 32) as char else c
  }

  function UpperChar(c: char): char {
    if 'a' <= c <= 'z' then (c as int - 32) as char else c
  }

  /** `s.lower()` */
  function Lower(s: string): (r: string)
    ensures |r| == |s|
    ensures forall i :: 0 <= i < |s| ==> r[i] == LowerChar(s[i])
  {
    seq(|s|, i requires 0 <= i < |s| => LowerChar(s[i]))
  }

  /** `s.upper()` */
  function Upper(s: string): (r: string)
    ensures |r| == |s|
    ensures forall i :: 0 <= i < |s| ==> r[i] == UpperChar(s[i])
  {
    seq(|s|, i requires 0 <= i < |s| => UpperChar(s[i]))
  }

  /** Length of the leading run of whitespace. */
  function LeadingSpaces(s: string): (n: nat)
    ensures n <= |s|
    ensures forall i :: 0 <= i < n ==> IsSpace(s[i])
    ensures n == |s| || !IsSpace(s[n])
  {
    if |s| > 0 && IsSpace(s[0]) then 1 + LeadingSpaces(s[1..]) else 0
  }

  /** Where the trailing run of whitespace starts. */
  function TrailingSpaces(s: string): (n: nat)
    ensures n <= |s|
    ensures forall i :: n <= i < |s| ==> IsSpace(s[i])
    ensures n == 0 || !IsSpace(s[n - 1])
  {
    if |s| > 0 && IsSpace(s[|s| - 1]) then TrailingSpaces(s[..|s| - 1]) else |s|
  }

  /** `s.lstrip()` */
  function TrimLeft(s: string): string {
    s[LeadingSpaces(s)..]
  }

  /** `s.rstrip()` */
  function TrimRight(s: string): string {
    s[..TrailingSpaces(s)]
  }

  /** `s.strip()` */
  function Strip(s: string): (r: string)
    ensures |r| <= |s|
    ensures |r| > 0 ==> !IsSpace(r[0]) && !IsSpace(r[|r| - 1])
  {
    TrimRight(TrimLeft(s))
  }

  /** `strip()` leaves the slice of `s` after its leading whitespace and before its trailing whitespace. */
  lemma StripIsSlice(s: string)
    ensures var a := LeadingSpaces(s); var r := Strip(s);
      && a + |r| <= |s| && r == s[a..a + |r|]
      && (forall i :: a + |r| <= i < |s| ==> IsSpace(s[i]))
  {
    var a := LeadingSpaces(s);
    var t := s[a..];
    var b := TrailingSpaces(t);
    assert Strip(s) == t[..b];
    SliceOfSlice(s, a, b);
    TrailingOfDrop(s, a, b);
  }

  /** Whitespace at the end of `s[a..]` from `b` on is whitespace in `s` from `a + b` on. */
  lemma TrailingOfDrop(s: string, a: nat, b: nat)
    requires a <= |s| && forall i :: b <= i < |s| - a ==> IsSpace(s[a..][i])
    ensures forall i :: a + b <= i < |s| ==> IsSpace(s[i])
  {
    forall i | a + b <= i < |s| ensures IsSpace(s[i]) {
      assert s[i] == s[a..][i - a];
    }
  }

  /**
   * What `strip()` leaves neither starts nor ends with whitespace, and is
   * empty exactly when `s` is all whitespace.
   */
  lemma StripTrims(s: string)
    ensures var r := Strip(s);
      && (r == [] || (!IsSpace(r[0]) && !IsSpace(r[|r| - 1])))
      && (r == [] <==> forall i :: 0 <= i < |s| ==> IsSpace(s[i]))
  {
    StripIsSlice(s);
    var a := LeadingSpaces(s);
    var r := Strip(s);
    if r != [] {
      var t := TrimLeft(s);
      assert r == t[..TrailingSpaces(t)];
      assert r[0] == s[a];
      assert r[|r| - 1] == t[|r| - 1];
    }
  }

  /** `s.rstrip(c)` for a single character `c`. */
  function RStripChar(s: string, c: char): (r: string)
    ensures |r| <= |s| && r == s[..|r|]
    ensures r == [] || r[|r| - 1] != c
    ensures forall i :: |r| <= i < |s| ==> s[i] == c
  {
    if |s| > 0 && s[|s| - 1] == c then RStripChar(s[..|s| - 1], c) else s
  }

  /** Length of the leading run of non-whitespace characters. */
  function WordLength(s: string): (n: nat)
    ensures n <= |s|
    ensures forall i :: 0 <= i < n ==> !IsSpace(s[i])
    ensures n == |s| || IsSpace(s[n])
  {
    if |s| == 0 || IsSpace(s[0]) then 0 else 1 + WordLength(s[1..])
  }

  /** `s.split(maxsplit=1)[0]`, or None when `s.split()` is empty. */
  function FirstWord(s: string): (r: Option<string>)
    ensures r == None <==> forall i :: 0 <= i < |s| ==> IsSpace(s[i])
    ensures r.Some? ==> r.value != [] && NoSpace(r.value)
  {
    var t := TrimLeft(s);
    assert t == [] ==> LeadingSpaces(s) == |s|;
    if t == [] then None else
      var n := WordLength(t);
      assert NoSpace(t[..n]);
      Some(t[..n])
  }

  /** A word followed by nothing or by whitespace is the first word. */
  lemma FirstWordOfWord(w: string, rest: string)
    requires w != [] && NoSpace(w)
    requires rest == [] || IsSpace(rest[0])
    ensures FirstWord(w + rest) == Some(w)
  {
    var s := w + rest;
    assert s[0] == w[0];
    assert TrimLeft(s) == s;
    assert forall i :: 0 <= i < |w| ==> s[i] == w[i];
    assert |s| == |w| || s[|w|] == rest[0];
    assert WordLength(s) == |w|;
    assert s[..|w|] == w;
  }

  /** Lower-casing twice is lower-casing once. */
  lemma LowerIdempotent(s: string)
    ensures Lower(Lower(s)) == Lower(s)
  {
  }

  /** `s.split()`: the maximal runs of non-whitespace characters, in order. */
  function SplitWords(s: string): (r: seq<string>)
    ensures forall i :: 0 <= i < |r| ==> |r[i]| > 0 && NoSpace(r[i])
    ensures r == [] <==> forall i :: 0 <= i < |s| ==> IsSpace(s[i])
    decreases |s|
  {
    var t := TrimLeft(s);
    assert t == [] ==> LeadingSpaces(s) == |s|;
    if |t| == 0 then [] else
      var n := WordLength(t);
      assert n >= 1 && NoSpace(t[..n]);
      assert !IsSpace(s[LeadingSpaces(s)]);
      [t[..n]] + SplitWords(t[n..])
  }

  /** A word followed by nothing or by whitespace is the first word of the split, and the rest splits on its own. */
  lemma SplitWordsCons(w: string, rest: string)
    requires w != [] && NoSpace(w)
    requires rest == [] || IsSpace(rest[0])
    ensures SplitWords(w + rest) == [w] + SplitWords(rest)
  {
    var s := w + rest;
    assert s[0] == w[0];
    assert TrimLeft(s) == s;
    assert forall i :: 0 <= i < |w| ==> s[i] == w[i];
    assert |s| == |w| || s[|w|] == rest[0];
    assert WordLength(s) == |w|;
    assert s[..|w|] == w;
    assert s[|w|..] == rest;
  }

  /** Whitespace in front of a string adds to its leading run and nothing else. */
  lemma {:induction false} LeadingSpacesAfterSpaces(sp: string, s: string)
    requires forall i :: 0 <= i < |sp| ==> IsSpace(sp[i])
    ensures LeadingSpaces(sp + s) == |sp| + LeadingSpaces(s)
    decreases |sp|
  {
    if |sp| > 0 {
      assert (sp + s)[1..] == sp[1..] + s;
      LeadingSpacesAfterSpaces(sp[1..], s);
    } else {
      assert sp + s == s;
    }
  }

  /** Whitespace in front of a string does not change how it splits. */
  lemma SplitWordsSkipsSpaces(sp: string, s: string)
    requires forall i :: 0 <= i < |sp| ==> IsSpace(sp[i])
    ensures SplitWords(sp + s) == SplitWords(s)
  {
    LeadingSpacesAfterSpaces(sp, s);
    assert TrimLeft(sp + s) == TrimLeft(s);
  }

  /** `sep.join(parts)` */
  function Join(parts: seq<string>, sep: string): (r: string)
    ensures |parts| == 1 ==> r == parts[0]
  {
    if |parts| == 0 then ""
    else if |parts| == 1 then parts[0]
    else Join(parts[..|parts| - 1], sep) + sep + parts[|parts| - 1]
  }

  /** Index of the first `c` in `s`, or `|s|` when there is none. */
  function IndexOf(s: string, c: char): (i: nat)
    ensures i <= |s|
    ensures i < |s| ==> s[i] == c
    ensures forall j :: 0 <= j < i ==> s[j] != c
  {
    if |s| == 0 then 0 else if s[0] == c then 0 else 1 + IndexOf(s[1..], c)
  }

  /** `s.split(c)` for a one-character separator: never empty, no part holds `c`. */
  function SplitOn(s: string, c: char): (r: seq<string>)
    ensures |r| >= 1
    ensures forall i :: 0 <= i < |r| ==> c !in r[i]
    ensures r[0] == s[..IndexOf(s, c)]
    ensures (c in s) <==> |r| >= 2
    decreases |s|
  {
    var i := IndexOf(s, c);
    if i == |s| then [s] else [s[..i]] + SplitOn(s[i + 1..], c)
  }

  /** `s.replace(a, b)` for single characters. */
  function ReplaceChar(s: string, a: char, b: char): (r: string)
    ensures |r| == |s|
    ensures forall i :: 0 <= i < |s| ==> r[i] == (if s[i] == a then b else s[i])
  {
    seq(|s|, i requires 0 <= i < |s| => if s[i] == a then b else s[i])
  }

  /** Python's `s[:k]`, where a negative `k` counts from the end. */
  function SliceTo(s: string, k: int): (r: string)
    ensures k >= 0 ==> r == s[..if k <= |s| then k else |s|]
    ensures k < 0 ==> r == s[..if |s| + k >= 0 then |s| + k else 0]
  {
    if k >= 0 then s[..if k <= |s| then k else |s|]
    else s[..if |s| + k >= 0 then |s| + k else 0]
  }

  /** `c * n` */
  function Repeat(c: char, n: nat): (r: string)
    ensures |r| == n
    ensures forall i :: 0 <= i < n ==> r[i] == c
  {
    seq(n, _ => c)
  }

  /** Joining the parts of `SplitOn` with the separator gives back the string. */
  lemma {:induction false} SplitOnJoin(s: string, c: char)
    ensures Join(SplitOn(s, c), [c]) == s
    decreases |s|
  {
    var i := IndexOf(s, c);
    if i < |s| {
      var rest := SplitOn(s[i + 1..], c);
      SplitOnFirst(s, c);
      SplitOnJoin(s[i + 1..], c);
      JoinCons(s[..i], rest, [c]);
    }
  }

  /** Where `c` occurs, `SplitOn` cuts at its first occurrence. */
  lemma SplitOnFirst(s: string, c: char)
    requires IndexOf(s, c) < |s|
    ensures var i := IndexOf(s, c);
      && SplitOn(s, c) == [s[..i]] + SplitOn(s[i + 1..], c)
      && s == s[..i] + [c] + s[i + 1..]
  {
    Reassemble(s, IndexOf(s, c));
  }

  /** A string without the separator splits into itself alone. */
  lemma SplitOnAbsent(s: string, c: char)
    requires c !in s
    ensures SplitOn(s, c) == [s]
  {
    assert IndexOf(s, c) == |s|;
    assert s[..|s|] == s;
  }

  /** Splitting at the first separator: the part before it, then the split of the rest. */
  lemma SplitOnAfter(a: string, c: char, b: string)
    requires c !in a
    ensures SplitOn(a + [c] + b, c) == [a] + SplitOn(b, c)
  {
    var r := a + [c] + b;
    assert IndexOf(r, c) == |a| by {
      assert r[|a|] == c;
      forall j | 0 <= j < |a| ensures r[j] != c {
        assert r[j] == a[j];
      }
    }
    assert r[..|a|] == a;
    assert r[|a| + 1..] == b;
  }

  /** Taking `b` elements after dropping `a` is the slice from `a` to `a + b`. */
  lemma SliceOfSlice<T>(s: seq<T>, a: nat, b: nat)
    requires a + b <= |s|
    ensures s[a..][..b] == s[a..a + b]
  {
  }

  /** A sequence is the part before `i`, the element at `i` and the part after. */
  lemma Reassemble<T>(s: seq<T>, i: nat)
    requires i < |s|
    ensures s[..i] + [s[i]] + s[i + 1..] == s
  {
  }

  lemma {:induction false} JoinCons(x: string, parts: seq<string>, sep: string)
    requires |parts| >= 1
    ensures Join([x] + parts, sep) == x + sep + Join(parts, sep)
    decreases |parts|
  {
    if |parts| == 1 {
      assert ([x] + parts)[..1] == [x];
    } else {
      var init := parts[..|parts| - 1];
      JoinCons(x, init, sep);
      assert ([x] + parts)[..|parts|] == [x] + init;
    }
  }
}

=== FILE: toolcalls.dfy ===
/**
 * One agent turn's tool-call records, the argument summary shown when a
 * call's arguments are complete, the one-line result preview and the
 * summary line printed after the turn.
 */
module ToolCalls {
  import opened Wrappers
  import opened Text
  import opened Numerals

  datatype Status = InProgress | Complete | Error

  datatype ToolCallInfo = ToolCallInfo(
    toolCallId: string,
    toolName: string,
    argsJson: string,
    result: Option<string>,
    status: Status,
    expanded: bool)

  /**
   * What JSON decoding made of the accumulated arguments: not JSON at all,
   * a JSON value that is not an object, or an object whose members are
   * given in order as (key, `str(value)`).
   */
  datatype ParsedArgs = NotJson | NotObject | Object(members: seq<(string, string)>)

  /** `s[:limit] + "..." if len(s) > limit else s` */
  function Ellipsize(s: string, limit: nat): (r: string)
    ensures |s| <= limit ==> r == s
    ensures |s| > limit ==> |r| == limit + 3 && StartsWith(r, s[..limit])
    ensures |r| <= limit + 3
  {
    if |s| > limit then s[..limit] + "..." else s
  }

  /** One argument value: newlines become spaces and a value longer than `maxValueLen` is cut, with "...". */
  function FormatValue(v: string, maxValueLen: int): (r: string)
    ensures '\n' !in r
    ensures |v| <= maxValueLen ==> r == ReplaceChar(v, '\n', ' ')
    ensures maxValueLen >= 3 ==> |r| <= maxValueLen
  {
    var t := ReplaceChar(v, '\n', ' ');
    if |t| > maxValueLen then
      var cut := SliceTo(t, maxValueLen - 3);
      assert '\n' !in cut by {
        forall i | 0 <= i < |cut| ensures cut[i] != '\n' { assert cut[i] == t[i]; }
      }
      cut + "..."
    else t
  }

  /** "k=v" for the first three members at most. */
  function ArgPairs(members: seq<(string, string)>, maxValueLen: int): (r: seq<string>)
    ensures |r| == (if |members| < 3 then |members| else 3)
    ensures forall i :: 0 <= i < |r| ==> r[i] == members[i].0 + "=" + FormatValue(members[i].1, maxValueLen)
  {
    var n := if |members| < 3 then |members| else 3;
    seq(n, i requires 0 <= i < n => members[i].0 + "=" + FormatValue(members[i].1, maxValueLen))
  }

  /** " (+k more)" for the members beyond the first three, or nothing. */
  function MoreSuffix(count: nat): (r: string)
    ensures count <= 3 <==> r == ""
    ensures count > 3 ==> r == " (+" + NatToString(count - 3) + " more)"
  {
    if count > 3 then " (+" + NatToString(count - 3) + " more)" else ""
  }

  /** `ToolCallInfo.format_args`: the argument summary shown after a call's arguments are complete. */
  function FormatArgs(argsJson: string, parsed: ParsedArgs, maxValueLen: int): (r: string)
    ensures argsJson == "" ==> r == ""
    ensures argsJson != "" && !parsed.Object? ==> r == Ellipsize(argsJson, 60)
    ensures argsJson != "" && parsed.Object? ==>
      r == Join(ArgPairs(parsed.members, maxValueLen), ", ") + MoreSuffix(|parsed.members|)
  {
    if argsJson == "" then ""
    else match parsed
      case Object(members) => Join(ArgPairs(members, maxValueLen), ", ") + MoreSuffix(|members|)
      case _ => Ellipsize(argsJson, 60)
  }

  /** The "✓" line: the result cut at 80 characters, with newlines flattened. */
  function ResultPreview(result: string): (r: string)
    ensures '\n' !in r
    ensures |r| <= 83
    ensures |result| <= 80 ==> r == ReplaceChar(result, '\n', ' ')
  {
    ReplaceChar(Ellipsize(result, 80), '\n', ' ')
  }

  /** How many of the turn's calls completed. */
  function CountComplete(calls: seq<ToolCallInfo>): (n: nat)
    ensures n <= |calls|
    ensures n == |calls| <==> forall i :: 0 <= i < |calls| ==> calls[i].status == Complete
    ensures n == 0 <==> forall i :: 0 <= i < |calls| ==> calls[i].status != Complete
  {
    if |calls| == 0 then 0
    else
      var rest := CountComplete(calls[1..]);
      assert forall i :: 1 <= i < |calls| ==> calls[i] == calls[1..][i - 1];
      (if calls[0].status == Complete then 1 else 0) + rest
  }

  function ToolNames(calls: seq<ToolCallInfo>): (r: seq<string>)
    ensures |r| == |calls| && forall i :: 0 <= i < |calls| ==> r[i] == calls[i].toolName
  {
    seq(|calls|, i requires 0 <= i < |calls| => calls[i].toolName)
  }

  /** The names of the first three calls, and "(+k more)" for the rest. */
  function ToolsList(calls: seq<ToolCallInfo>): (r: string)
    ensures |calls| <= 3 ==> r == Join(ToolNames(calls), ", ")
    ensures |calls| > 3 ==> r == Join(ToolNames(calls[..3]), ", ") + MoreSuffix(|calls|)
  {
    var shown := if |calls| > 3 then calls[..3] else calls;
    Join(ToolNames(shown), ", ") + MoreSuffix(|calls|)
  }

  /** `_show_tool_calls_summary`: "⚙ completed/total tools executed: names  [/tools-last for details]". */
  function SummaryLine(calls: seq<ToolCallInfo>): (line: string)
    ensures var head := "  \U{2699} "; var tail := "  [/tools-last for details]"; var names := ToolsList(calls);
      && |head| + |names| + |tail| <= |line|
      && line[..|head|] == head
      && line[|line| - |tail| - |names|..|line| - |tail|] == names
      && line[|line| - |tail|..] == tail
    ensures line == "  \U{2699} " + NatToString(CountComplete(calls)) + "/" + NatToString(|calls|)
      + " tools executed: " + ToolsList(calls) + "  [/tools-last for details]"
  {
    var head := "  \U{2699} ";
    var pre := head + NatToString(CountComplete(calls)) + "/" + NatToString(|calls|) + " tools executed: ";
    var names := ToolsList(calls);
    var tail := "  [/tools-last for details]";
    var line := pre + names + tail;
    assert pre[..|head|] == head;
    assert line[..|head|] == head;
    assert line[|line| - |tail|..] == tail;
    assert line[|line| - |tail| - |names|..|line| - |tail|] == names;
    line
  }

  /**
   * The two counts of the summary line read the same exactly when every call
   * of the turn completed.
   */
  lemma SummaryCountsAgree(calls: seq<ToolCallInfo>)
    ensures NatToString(CountComplete(calls)) == NatToString(|calls|)
      <==> forall i :: 0 <= i < |calls| ==> calls[i].status == Complete
  {
    ParseIntNatToString(CountComplete(calls));
    ParseIntNatToString(|calls|);
  }
}

=== FILE: wrappers.dfy ===
/** The nullable values of the session: a missing event field, an absent handle, a JSON key that is not there. */
module Wrappers {
  datatype Option<+T> = None | Some(value: T) {
    function GetOr(default: T): T {
      match this
      case Some(v) => v
      case None => default
    }
  }
}
